=== FILE: README.md ===
# pytest-smartcollect, modelled in Dafny

pytest-smartcollect is a pytest plugin that runs only the tests touching code
changed in the last commit. It reads the unified diff of `HEAD` against its
parent, turns each changed file's first hunk header into changed line ranges,
finds the top-level declarations whose spans meet those ranges, and marks
skip every test whose function calls none of the changed names. A changed
name is a name called inside a changed declaration (`find_changed_members`
collects `ObjectNameExtractor().extract(node)` of each such declaration),
not the declaration's own name. The repository holds
two generations of the plugin:

- the newer one: `pytest_smartcollect/helpers.py` and `pytest_smartcollect/plugin.py`;
- the older one: `pytest_smartcollect_helpers.py` and `pytest_smartcollect.py`.

This project models the pure logic of both generations. Python exceptions
become the `Err` case of `Outcome.Result`, so the error paths of that logic
are part of the model. git, the file system, `ast.parse` and
`import_module` are replaced by input values, and the exceptions those can
raise are listed under "Left out" where the model does not carry them.

Modules, in dependency order:

| module | file | what it holds |
|---|---|---|
| `Outcome` | `outcome.dfy` | `Option`, `Result` and the exceptions the code can raise |
| `PyStr` | `pystr.dfy` | the string built-ins the code uses: `split`, `join`, `replace(c, '')`, `strip`, `int`, `str`, `os.path.splitext` |
| `PyDict` | `pydict.dfy` | an insertion-ordered `dict` as a list of entries with distinct keys |
| `Results` | `results.dfy` | loops that stop at the first exception (`AllOk`, `Concat` for `extend`) |
| `Ast` | `ast.dfy` | a small Python AST: `Assign`, `FunctionDef`, `ClassDef`, `Call`, `Name`, `Import`, `ImportFrom`, other nodes |
| `Diffs` | `diffs.dfy` | diff entries, line ranges, reading the first hunk header, the lines of an Added file |
| `Visitors` | `visitors.dfy` | `GenericVisitor.extract`, `ObjectNameExtractor`, `ImportModuleNameExtractor` |
| `ChangedFiles` | `changed_files.dfy` | `find_changed_files` of `helpers.py` |
| `ChangedMembers` | `changed_members.dfy` | `find_changed_members` of `helpers.py` |
| `Paths` | `paths.dfy` | `os.path.commonpath` and the `--ignore-source` filter |
| `Plugin` | `plugin.dfy` | `pytest_collection_modifyitems` of `plugin.py` |
| `LegacyHelpers` | `legacy_helpers.dfy` | `find_changed_files` and the stub `find_changed_members` of the older helpers |
| `LegacyPlugin` | `legacy_plugin.dfy` | `pytest_collection_modifyitems` of the older plugin, with its `deleted_indices` pop loop |

The newer plugin is not composed with the newer helpers. `plugin.py` imports
`find_git_repo_root` and `find_all_files`, which `helpers.py` does not
define. It also calls `find_changed_files` and `find_changed_members` with
more arguments than `helpers.py` accepts. So the plugin model takes the two
candidate changed-file dictionaries and a changed-members function as inputs
(`Plugin.Env`).

## Behaviour of the code worth knowing

- Only the first line of the patch is read, so later hunks are ignored rather than accumulated.
- A side whose count was left out (`-5`) makes the Modified branch fail. It is not read as a count of 1.
- An entry whose patch has no `@@` raises `IndexError` before dispatch, whatever its letter. It is not skipped.
- An Added file gets every line but the last.
- The last declaration of a module raises `IndexError` instead of owning the rest of the file.
- The ignore filter keeps a file unless it lies under every ignore path.
- A test module without imports, or one importing a built-in module such as `sys`, makes the newer hook raise.
- The older hook passes the fixture function to `find_changed_files`, so it raises before looking at any test.

## Model

| member | source | states |
|---|---|---|
| Ast.FirstFunctionNamed | pytest_smartcollect.py:54 | the test function is a top-level `FunctionDef` with the item's name, and no earlier statement is one; with none, `[0]` raises `IndexError` |
| PyStr.SplitJoin | pytest_smartcollect/helpers.py:33 | splitting a join on the same separator gives the parts back when no part holds the separator |
| PyStr.JoinSplit | pytest_smartcollect/helpers.py:66 | joining the pieces of `s.split(sep)` with `sep` gives `s` back |
| PyStr.RemoveAllMembers | pytest_smartcollect/helpers.py:66 | `replace(c, '')` keeps exactly the characters other than `c` |
| PyStr.RemoveAllCounts | pytest_smartcollect/helpers.py:66 | `replace(c, '')` keeps the count of every other character and drops every `c` |
| PyStr.StripPadded | pytest_smartcollect/helpers.py:66 | `strip()` removes exactly the whitespace around a text that neither starts nor ends with whitespace |
| PyStr.ParseInt | pytest_smartcollect/helpers.py:83-84 | `int(x)` succeeds exactly when the stripped text is a literal of ASCII digits, with single underscores between digits |
| PyStr.ParseDecimal | pytest_smartcollect/helpers.py:83-84 | `int(str(n)) == n` |
| PyStr.Extension | pytest_smartcollect/helpers.py:103 | `splitext(p)[-1]` is a suffix of `p`: empty, or one dot followed by no dot and no `/` |
| PyStr.ExtensionOfName | pytest_smartcollect/helpers.py:103 | a file name `base.x` has extension `.x` |
| PyDict.Get | pytest_smartcollect/plugin.py:186-187 | a lookup succeeds exactly for a present key, and gives the value stored under it |
| PyDict.Put | pytest_smartcollect/helpers.py:104-109 | `d[k] = v` keeps the key order and appends a new key; it replaces only the entry under `k`; afterwards `d[k]` is `v` |
| PyDict.PutOther | pytest_smartcollect/helpers.py:104-109 | assigning to one key leaves every other key's value as it was |
| PyDict.PutAllKeys | pytest_smartcollect_helpers.py:89-93 | after the assignments the keys are the old keys and those assigned |
| PyDict.PutAllShape | pytest_smartcollect_helpers.py:89-93 | the keys stay distinct, and every stored entry is an old one or an assigned one |
| PyDict.PutAllUntouched | pytest_smartcollect_helpers.py:89-93 | a key no assignment touches keeps its value |
| PyDict.PutAllLastWins | pytest_smartcollect_helpers.py:89-93 | a key holds the value of the last assignment to it |
| Results.AllOk | pytest_smartcollect/plugin.py:164-211 | a loop gives all iteration values in order, or the error of the first iteration that raised |
| Results.ConcatContents | pytest_smartcollect/plugin.py:179-187 | a list extended by each iteration holds exactly the elements of the iterations' lists |
| Results.ConcatEmpty | pytest_smartcollect/plugin.py:189 | the extended list is empty exactly when every iteration contributed nothing |
| Diffs.HunkSpec | pytest_smartcollect/helpers.py:66 | the line specification has no `+` or `-`; the only failure is `IndexError` |
| Diffs.HunkSpecReadsFirstLine | pytest_smartcollect/helpers.py:66 | only the first line of the patch is read: later lines and hunks change nothing |
| Diffs.NoHeaderFails | pytest_smartcollect/helpers.py:66 | a patch without `@` (empty or binary) raises `IndexError` |
| Diffs.CleanSpec | pytest_smartcollect/helpers.py:66 | stripping ` -a,b +c,d ` and dropping every sign leaves `a,b c,d` |
| Diffs.HunkSpecOfHeader | pytest_smartcollect/helpers.py:66 | a patch starting `@@ -pre +post @@` gives the specification `pre post`, whatever follows |
| Diffs.AddedLines | pytest_smartcollect/helpers.py:70-73 | an `n`-line Added file gets the lines `1 .. n-1`, and none when `n <= 1` |
| Diffs.AddedMissesLastLine | pytest_smartcollect/helpers.py:70-73 | the last line of an Added file is never among its changed lines |
| Diffs.AllFileLines | pytest_smartcollect/helpers.py:70-73 | the corrected Added lines: `1 .. n` |
| Diffs.AllFileLinesCover | pytest_smartcollect/helpers.py:70-73 | the corrected list holds exactly the lines of the file |
| Diffs.AddedLinesDropLast | pytest_smartcollect/helpers.py:70-73 | the written list is the corrected one without its last line |
| ChangedFiles.ParseAll | pytest_smartcollect/helpers.py:83-84 | `[int(x) for x in pieces]` succeeds exactly when every piece is a literal, and gives their values in order; otherwise `ValueError` |
| ChangedFiles.PairRange | pytest_smartcollect/helpers.py:83-88 | `start, count = ...` succeeds exactly on two literals, giving `range(start, start + count)`; otherwise `ValueError` |
| ChangedFiles.ModifiedRanges | pytest_smartcollect/helpers.py:75-88 | the Modified branch succeeds exactly when the first two space-separated pieces are both `start,count`, giving their two ranges in order; a single piece always fails, with `TypeError` when it splits into two and `ValueError` otherwise; with two or more pieces the only failure is `ValueError` |
| ChangedFiles.SidePairRange | pytest_smartcollect/helpers.py:83-84 | a rendered header side unpacks exactly when it carries a count, and then reads back as its range |
| ChangedFiles.CountedPairRange | pytest_smartcollect/helpers.py:83-88 | `start,count` reads back as `range(start, start + count)` |
| ChangedFiles.UncountedPairRange | pytest_smartcollect/helpers.py:83-84 | a count-less side such as `5` fails the two-value unpack with `ValueError` |
| ChangedFiles.ModifiedOfHeader | pytest_smartcollect/helpers.py:75-88 | a rendered header gives `[range(a, a+b), range(c, c+d)]`, preimage first, when both counts are written, and `ValueError` when one is left out |
| ChangedFiles.SingleRangeFails | pytest_smartcollect/helpers.py:78-80 | a one-piece specification such as `5,2` raises `TypeError`, because `range` gets strings |
| ChangedFiles.SideRangeOf | pytest_smartcollect/helpers.py:82-88 | the corrected side reading accepts one or two literals, and its range never runs backwards |
| ChangedFiles.SideRangeOfPair | pytest_smartcollect/helpers.py:83-88 | on `start,count` the corrected reading agrees with the written one |
| ChangedFiles.SideRangeOfText | pytest_smartcollect/helpers.py:82-88 | with the corrected reading, every rendered side reads back as its unified-format range, and a missing count is 1 |
| ChangedFiles.ModifiedRangesFixed | pytest_smartcollect/helpers.py:75-88 | the corrected Modified branch yields one or two ranges |
| ChangedFiles.ModifiedFixedOfHeader | pytest_smartcollect/helpers.py:75-88 | the corrected branch reads every rendered header back as its preimage and postimage ranges |
| ChangedFiles.CountlessHeaderFails | pytest_smartcollect/helpers.py:75-88 | a header with count-less sides fails as written and reads back when corrected |
| ChangedFiles.Dispatch | pytest_smartcollect/helpers.py:70-101 | an unknown letter raises; D takes `a_path`, R takes `b_path` with old path `a_path`, T takes the `bytes` path `b_rawpath`; only R has an old path; D, R and T carry no lines |
| ChangedFiles.EntryRecord | pytest_smartcollect/helpers.py:65-109 | a header failure propagates; otherwise the entry fails exactly when dispatch fails; a dispatch error comes out unchanged; a stored record keeps the letter, has the extension, and its old path and changed lines are exactly those the dispatch returned; an unstored one lacks the extension |
| ChangedFiles.RetypedNeverKept | pytest_smartcollect/helpers.py:97-109 | a T entry is never stored, because its `bytes` path never equals a `str` extension |
| ChangedFiles.ModifiedEntryOfHeader | pytest_smartcollect/helpers.py:65-109 | a Modified entry with a rendered header fails exactly when a count is left out; otherwise it is stored with its two ranges exactly when the path has the extension |
| ChangedFiles.AddedEntryLines | pytest_smartcollect/helpers.py:70-73 | an Added entry of an `n`-line file with the extension is stored with the lines `1 .. n-1` |
| ChangedFiles.Collect | pytest_smartcollect/helpers.py:103-111 | storing succeeds exactly when every entry succeeds, and otherwise fails with the error of the first failing entry; the keys are distinct; each record sits under its own current path and is one of the entries' records |
| ChangedFiles.CollectKeys | pytest_smartcollect/helpers.py:103-109 | the keys are exactly the paths that some entry stores under |
| ChangedFiles.CollectLastWins | pytest_smartcollect/helpers.py:103-109 | the record under a path is that of the last entry storing under it |
| ChangedFiles.FindChangedFiles | pytest_smartcollect/helpers.py:59-111 | the call succeeds exactly when every entry does, and otherwise raises the exception of the first failing entry; every record sits under its own path, which has the extension, and no key repeats |
| ChangedFiles.ChangedFileKeys | pytest_smartcollect/helpers.py:59-111 | the keys are exactly the current paths of the entries that yield a record |
| ChangedFiles.LastRecordWins | pytest_smartcollect/helpers.py:59-111 | a path seen twice keeps the record of its last entry |
| Visitors.PrintedIsJoin | pytest_smartcollect/helpers.py:30-33 | printing names one per line writes them joined by line breaks, plus a final line break |
| Visitors.StrippedPrinted | pytest_smartcollect/helpers.py:33 | `strip()` of the printed names leaves them joined by line breaks |
| Visitors.CapturedNames | pytest_smartcollect/helpers.py:27-33 | `extract` returns the printed names themselves, or `['']` when nothing was printed |
| Visitors.CallTargetsAreTokens | pytest_smartcollect/helpers.py:40-44 | every name the call visitor prints is non-empty and free of whitespace |
| Visitors.ImportTargetsAreTokens | pytest_smartcollect/helpers.py:51-56 | every name the import visitor prints is non-empty and free of whitespace |
| Visitors.ExtractCallsResult | pytest_smartcollect/helpers.py:27-44 | `ObjectNameExtractor().extract(n)` gives the bare-name callees below `n`, or `['']` when there are none |
| Visitors.ExtractImportsResult | pytest_smartcollect/helpers.py:47-56 | `ImportModuleNameExtractor().extract(module)` gives the imported module names, or `['']` when there are none |
| Visitors.CallTargetsInPreOrder | pytest_smartcollect/helpers.py:40-44 | the call visitor reports the callees of bare-name calls in the tree's pre-order |
| Visitors.CallTargetsInInPreOrder | pytest_smartcollect_helpers.py:35-39 | the older `NameExtractor`, which visits calls the same way, reports bare-name callees in pre-order over a list of statements |
| Visitors.ImportTargetsInPreOrder | pytest_smartcollect/helpers.py:51-56 | the import visitor reports, in pre-order, the first alias of each `import` and the `module` of each `from`-import |
| ChangedMembers.Span | pytest_smartcollect/helpers.py:121-122 | a declaration's span is `range(lineno, next.lineno - 1)`; for the last statement it is an `IndexError` |
| ChangedMembers.OverlapsIff | pytest_smartcollect/helpers.py:124 | the bound test holds exactly when some line lies in both ranges |
| ChangedMembers.OverlapsLines | pytest_smartcollect/helpers.py:124 | the bound test holds exactly when `set(a).intersection(set(b))` is non-empty |
| ChangedMembers.RangeHits | pytest_smartcollect/helpers.py:123-125 | one copy of the declaration's call names per changed range that meets the span |
| ChangedMembers.RangeHitsContents | pytest_smartcollect/helpers.py:123-125 | the call names are appended exactly when some changed range meets the span, and they are the only thing appended |
| ChangedMembers.Hits | pytest_smartcollect/helpers.py:123-125 | `None`, or a non-empty list of line numbers, raises `TypeError`; a list of ranges gives the range hits |
| ChangedMembers.MembersUpToFails | pytest_smartcollect/helpers.py:120-125 | the loop fails exactly when a declaration is last or the changed lines cannot be iterated, and then only with `IndexError` or `TypeError` |
| ChangedMembers.FailsOnLastDeclaration | pytest_smartcollect/helpers.py:120-122 | with a list of ranges, the call raises `IndexError` exactly when the last statement is a declaration |
| ChangedMembers.MembersUpToIndexError | pytest_smartcollect/helpers.py:120-122 | with a list of ranges, the only error is `IndexError` |
| ChangedMembers.NoDeclarationsNoMembers | pytest_smartcollect/helpers.py:120-121 | a module without declarations reports nothing and never fails |
| ChangedMembers.MembersUpToContents | pytest_smartcollect/helpers.py:120-125 | after the first `k` statements the result holds exactly the call names of the declarations some range meets |
| ChangedMembers.ChangedMembersContents | pytest_smartcollect/helpers.py:114-127 | the result holds exactly the call names of the declarations whose span some changed range meets |
| ChangedMembers.SpanMissesLineBeforeNext | pytest_smartcollect/helpers.py:122 | the line just before the next statement is in no declaration's span |
| ChangedMembers.OwnedSpansTile | pytest_smartcollect/helpers.py:120-122 | the corrected spans cover every line from the first statement to the end of the file, each line in exactly one span |
| ChangedMembers.OwnedSpanHasLineBeforeNext | pytest_smartcollect/helpers.py:122 | the corrected span includes the line just before the next statement |
| ChangedMembers.AsRanges | pytest_smartcollect/helpers.py:123 | the corrected loop reads a list of line numbers as one-line ranges and `None` as no range |
| ChangedMembers.FixedMembersUpToContents | pytest_smartcollect/helpers.py:120-125 | the corrected loop reports exactly the declarations that own a changed line |
| ChangedMembers.FixedChangedMembersContents | pytest_smartcollect/helpers.py:114-127 | the corrected call reports exactly the declarations that own a changed line, for every kind of changed lines |
| ChangedMembers.BodyLineMissed | pytest_smartcollect/helpers.py:120-125 | a change to the body line of a function just before the next declaration is missed as written and found when corrected |
| ChangedMembers.LastFunctionRaises | pytest_smartcollect/helpers.py:120-122 | a module ending in a function raises `IndexError` as written, and reports it when corrected |
| Paths.Components | pytest_smartcollect/plugin.py:92 | every component `commonpath` compares is non-empty, not `.` and free of `/` |
| Paths.CommonPrefix | pytest_smartcollect/plugin.py:92 | the common prefix of two component lists is a prefix of both and cannot be extended |
| Paths.CommonPath | pytest_smartcollect/plugin.py:92 | mixing an absolute and a relative path raises `ValueError`; otherwise the result renders a common prefix of both component lists |
| Paths.RenderInjective | pytest_smartcollect/plugin.py:92 | different component lists render as different paths |
| Paths.CommonPathIsAncestor | pytest_smartcollect/plugin.py:92 | for a normal `y`, `commonpath([f, y]) == y` exactly when `f` lies under `y` |
| Paths.DiffersFrom | pytest_smartcollect/plugin.py:91-93 | a bare `--ignore-source` (the value `True`) raises `TypeError`; otherwise the test fails with `commonpath` and is true exactly when the common path is not `y` |
| Paths.KeepsFile | pytest_smartcollect/plugin.py:91-93 | a comparison error propagates; otherwise a file is kept exactly when some comparison differs |
| Paths.FilterUpTo | pytest_smartcollect/plugin.py:89-95 | the first `k` steps of the filter succeed exactly when their verdicts do |
| Paths.FilterUpToContents | pytest_smartcollect/plugin.py:89-95 | after `k` steps the filtered dictionary holds exactly the entries before `k` whose verdict is to keep them |
| Paths.IgnoreFilter | pytest_smartcollect/plugin.py:88-95 | no ignore paths leaves the dictionary unchanged; otherwise the filter fails exactly when some file's test fails, and keeps only entries of the input |
| Paths.IgnoreFilterContents | pytest_smartcollect/plugin.py:88-95 | the filtered dictionary holds exactly the input entries that some ignore path does not contain |
| Paths.KeptUnlessUnderEvery | pytest_smartcollect/plugin.py:88-95 | on comparable paths a file is kept exactly when some ignore path does not contain it, so it is dropped only when it lies under every ignore path |
| Paths.KeepsFileFixed | pytest_smartcollect/plugin.py:88-95 | the corrected test keeps a file exactly when every comparison differs |
| Paths.DroppedUnderAny | pytest_smartcollect/plugin.py:88-95 | with the corrected test, a file under any ignore path is dropped |
| Paths.IgnoredFileKept | pytest_smartcollect/plugin.py:88-95 | `dir/name` ignored with `dir` and some other path is kept as written and dropped when corrected |
| Plugin.ChangedSet | pytest_smartcollect/plugin.py:82-95 | without ignore paths the changed files are those of the chosen source; otherwise they are entries of that source |
| Plugin.ShortHistoryIgnoresDiff | pytest_smartcollect/plugin.py:82-84 | with fewer than two commits the diff never influences the hook's outcome |
| Plugin.LongHistoryIgnoresAllFiles | pytest_smartcollect/plugin.py:82-86 | with two or more commits the list of all files never influences the hook's outcome |
| Plugin.Screen | pytest_smartcollect/plugin.py:101-157 | no importers means nothing happens; importers found, or a failed scan under the flag or outside a `try`, raise; anything else is at most one warning |
| Plugin.CheckOne | pytest_smartcollect/plugin.py:99-159 | D scans its current path and R its old path; T scans its old path only when it ends in `.py`, and a missing old path raises `TypeError`; A and M are not checked |
| Plugin.Preflight | pytest_smartcollect/plugin.py:97-159 | the preflight succeeds exactly when every changed file's check does, and otherwise raises the exception of the first failing check |
| Plugin.PreflightWarnsOnly | pytest_smartcollect/plugin.py:101-144 | without the flag, a preflight with no retyped file never raises |
| Plugin.PreflightStrict | pytest_smartcollect/plugin.py:113-157 | with the flag, a preflight that passes found no importer of any scanned path |
| Plugin.WarningsOnlyWhenLenient | pytest_smartcollect/plugin.py:106-157 | with the flag, a passing preflight logs no warning |
| Plugin.ImportMembers | pytest_smartcollect/plugin.py:179-187 | `import_module('')` raises `ValueError`; an `ImportError` becomes the "not installed" exception; any other import failure propagates; a module without `__file__` raises `AttributeError`; a module whose file is changed contributes that file's members, and one whose file is not changed contributes nothing |
| Plugin.Members | pytest_smartcollect/plugin.py:176-187 | collecting succeeds exactly when every import does, and otherwise raises the exception of the first failing import |
| Plugin.MembersContents | pytest_smartcollect/plugin.py:176-187 | the collected members are exactly those reported by the changed modules the test imports |
| Plugin.TestVerdict | pytest_smartcollect/plugin.py:164-211 | last-failed and skip-marked tests are left alone, and they are the only ones; a test whose imports bring no changed member is skipped; an exception raised while importing a module or reading its members propagates unchanged; a test that imports changed members but has no function of its own name raises `IndexError` |
| Plugin.RunIffCallsChangedName | pytest_smartcollect/plugin.py:189-206 | a test whose imports resolve runs exactly when its function calls a changed name of a changed module it imports; the only failure is the missing function's `IndexError` |
| Plugin.NoMembersSkipped | pytest_smartcollect/plugin.py:208-211 | a test whose imports bring no changed member is skipped, whatever it calls |
| Plugin.NoImportsRaises | pytest_smartcollect/plugin.py:176-184 | a test module without imports yields the name `''`, and its `ValueError` escapes the hook |
| Plugin.BuiltinImportRaises | pytest_smartcollect/plugin.py:179-186 | a test whose first import has no `__file__` makes the hook raise `AttributeError` |
| Plugin.ImportMembersFixed | pytest_smartcollect/plugin.py:179-187 | the corrected step raises exactly when the module is not installed, its import fails, or the members of its changed file fail; an empty name or a module without `__file__` contributes nothing; otherwise it agrees with the written step |
| Plugin.Verdicts | pytest_smartcollect/plugin.py:164-211 | the loop succeeds exactly when every test's decision does, gives each test its own verdict, and otherwise fails with the error of the first failing test |
| Plugin.SkipAll | pytest_smartcollect/plugin.py:213-219 | with nothing changed, no test is selected, and exactly the last-failed tests are left alone |
| Plugin.AfterChanges | pytest_smartcollect/plugin.py:97-219 | once the changed files are known there is one verdict per test, and last-failed tests are left alone; an error finding the changed files propagates; with some changed files, the hook succeeds exactly when the preflight and every verdict do, a preflight error comes out first, then the first verdict's error, and on success the warnings are the preflight's |
| Plugin.CollectionModifyItems | pytest_smartcollect/plugin.py:75-219 | one verdict per test; last-failed tests are never skipped; without `--smart-collect` nothing is touched; with it, an error finding the changed files propagates, and with some changed files the outcome is the preflight's error, else the first verdict's error, else the preflight's warnings with the verdicts |
| Plugin.StrictHookFindsNoImporters | pytest_smartcollect/plugin.py:97-159 | with `--allow-preemptive-failures`, a hook that completes found no importer of any watched changed file, and no scan of one failed |
| Plugin.HookVerdicts | pytest_smartcollect/plugin.py:164-211 | when changed files remain, each test gets the verdict of its own iteration, and a skip-marked test is left alone |
| Plugin.NothingChangedSkipsAll | pytest_smartcollect/plugin.py:213-219 | when no changed file remains the hook cannot fail, and it skips exactly the tests that did not fail last time |
| LegacyHelpers.ModifiedAsWritten | pytest_smartcollect_helpers.py:57-72 | the older Modified branch never succeeds: `ValueError` when a piece does not unpack into two, `TypeError` from `range` on strings otherwise |
| LegacyHelpers.ModifiedHeaderFails | pytest_smartcollect_helpers.py:57-72 | every rendered header fails, with `TypeError` exactly when both counts are written |
| LegacyHelpers.Interval | pytest_smartcollect_helpers.py:62 | `sorted(list(range(start, stop)))` lists `start, start+1, …`, with one line per element of the range |
| LegacyHelpers.IntervalMembers | pytest_smartcollect_helpers.py:62 | the list holds exactly the lines of the range, in increasing order |
| LegacyHelpers.MergeMembers | pytest_smartcollect_helpers.py:68-72 | the union holds exactly the lines of either list |
| LegacyHelpers.MergeIncreasing | pytest_smartcollect_helpers.py:68-72 | the union of two increasing lists is increasing, so it is sorted and has no repeats |
| LegacyHelpers.MergeLength | pytest_smartcollect_helpers.py:68-72 | the union is at most as long as both lists together, and exactly as long when they share no line |
| LegacyHelpers.MergedLinesSpec | pytest_smartcollect_helpers.py:68-72 | `sorted(set(range(p)) ∪ set(range(q)))` is increasing and holds exactly the lines of either range; its length is the sum exactly when the ranges are disjoint |
| LegacyHelpers.ModifiedMerged | pytest_smartcollect_helpers.py:57-72 | the corrected older Modified branch succeeds exactly when the newer corrected reading does, and gives an increasing line list |
| LegacyHelpers.ModifiedMergedOfHeader | pytest_smartcollect_helpers.py:64-72 | a rendered header reads back as the sorted union of its two unified-format ranges |
| LegacyHelpers.LegacyDispatch | pytest_smartcollect_helpers.py:52-87 | M always raises; an unknown letter raises; A succeeds exactly for a readable file and gets lines `1 .. n-1`; D takes `a_path`, R `b_path`, T the `bytes` `b_rawpath`; only A carries lines |
| LegacyHelpers.LegacyEntry | pytest_smartcollect_helpers.py:48-93 | the header is read first and its failure propagates; otherwise the entry is the branch's record |
| LegacyHelpers.Store | pytest_smartcollect_helpers.py:89-93 | the stored records have distinct keys, each its own path |
| LegacyHelpers.LegacyFindChangedFiles | pytest_smartcollect_helpers.py:42-95 | the call succeeds exactly when every entry does, and otherwise raises the exception of the first failing entry; keys are distinct and each is its record's path |
| LegacyHelpers.LegacyKeys | pytest_smartcollect_helpers.py:89-93 | every entry yields a key, its own path, whatever its extension |
| LegacyHelpers.LegacyLastRecordWins | pytest_smartcollect_helpers.py:89-93 | a path seen twice keeps the record of its last entry |
| LegacyHelpers.ModifiedDiffFails | pytest_smartcollect_helpers.py:57-72 | a diff with any Modified entry makes the whole call raise |
| LegacyHelpers.LegacyEntryFixed | pytest_smartcollect_helpers.py:57-72 | the corrected entry agrees with the written one except on M, where it gives an increasing line list |
| LegacyHelpers.ModifiedEntryOfHeader | pytest_smartcollect_helpers.py:57-72 | a Modified entry with a rendered header fails as written and gives the merged lines when corrected |
| LegacyPlugin.FromImports | pytest_smartcollect.py:45 | never more modules than statements; the modules are those of the top-level `from`-imports (see `FromImportsContents`) |
| LegacyPlugin.FromImportsContents | pytest_smartcollect.py:45 | the modules are exactly those of the top-level `from`-imports; plain `import` contributes nothing |
| LegacyPlugin.LegacyImportMembers | pytest_smartcollect.py:48-51 | `from . import x` has no module name and raises `AttributeError`; an empty name raises `ValueError`; a missing module raises; any other import failure propagates; a module without `__file__` raises `AttributeError`; a module whose file is changed contributes that file's members; any other contributes nothing |
| LegacyPlugin.LegacyMembers | pytest_smartcollect.py:46-51 | collecting succeeds exactly when every import does, and otherwise fails with the error of the first failing import |
| LegacyPlugin.LegacyMembersContents | pytest_smartcollect.py:46-51 | the collected members are exactly those reported by the changed modules the test imports |
| LegacyPlugin.Removed | pytest_smartcollect.py:53-64 | a test with no changed member is kept; a removed test had some; a collection error propagates; a test with changed members but no function of its own name raises `IndexError` |
| LegacyPlugin.RemovedIff | pytest_smartcollect.py:53-64 | a test is removed exactly when some changed member was reported, its function exists, and it calls none of the reported names |
| LegacyPlugin.Flags | pytest_smartcollect.py:41-64 | the loop succeeds exactly when every decision does, gives each test its own decision, and otherwise fails with the error of the first failing decision |
| LegacyPlugin.MarkedIndices | pytest_smartcollect.py:41-64 | `deleted_indices` is strictly increasing and in bounds, and holds exactly the flagged positions |
| LegacyPlugin.PopStep | pytest_smartcollect.py:66-69 | each `pop(d - deleted)` is in range and keeps the loop's relation between the popped list and the original |
| LegacyPlugin.PopDone | pytest_smartcollect.py:66-69 | once every index is popped the list is the original without them |
| LegacyPlugin.PopAll | pytest_smartcollect.py:66-69 | the pop loop leaves the items without exactly the marked positions, in their original order, one item shorter per index |
| LegacyPlugin.LegacyModifyItems | pytest_smartcollect.py:41-69 | the loops fail exactly when some decision does, with the error of the first failing one; otherwise `items` loses exactly the tests decided for removal, in order |
| LegacyPlugin.LegacyHook | pytest_smartcollect.py:29-69 | `repo.head` on the fixture function raises `AttributeError`; on a repository, the first failing diff entry's exception propagates; otherwise the hook fails exactly when some decision does, with the first failing decision's exception, and otherwise leaves `items` without the flagged tests |
| LegacyPlugin.LegacyHookAsWritten | pytest_smartcollect.py:29-31 | line 31 as written raises `AttributeError` on every run |
| LegacyPlugin.NoMembersKept | pytest_smartcollect.py:53-64 | a test with no changed member is never removed |
| LegacyPlugin.StubMembers | pytest_smartcollect.py:48-51 | with the stub, collecting raises `TypeError` exactly when some import loads a changed file, and otherwise gives no member |
| LegacyPlugin.StubItemKept | pytest_smartcollect.py:53-64 | with the stub, a test whose decision does not raise is kept |
| LegacyPlugin.MarkedNone | pytest_smartcollect.py:63-64 | with no test flagged, `deleted_indices` stays empty |
| LegacyPlugin.StubRemovesNothing | pytest_smartcollect.py:29-69 | with the stub, the hook either raises or leaves `items` as it was |

## Left out

- git: `Repo`, `iter_commits` and `head.commit.diff`. The diff is a list of `DiffEntry` records: letter, `a_path`, `b_path` and patch text. The commit count is a number.
- `commit_range`: it only chooses which diff is read, and the diff is an input.
- File reading: the line count of each readable file is a map, and a missing file is the Added branch's `FileNotFound`.
- `ast.parse`: modules are given as lists of `Ast.Node` statements. The AST keeps only the node kinds the visitors and the span loop look at.
- `import_module` and `__file__`: an input function from module names to outcomes.
- `find_import`: its file-system walk and imports are an input function from a path to its importers or an error.
- `find_git_repo_root` and `find_all_files` are not part of this model. The list of all files is an input dictionary.
- `find_changed_members` as the newer plugin calls it is an input function. It returns a flat list of names. The list of lists `helpers.py` returns is not composed with the plugin, because the plugin calls it with more arguments than `helpers.py` accepts.
- The older hook calls `find_changed_files` with the fixture function `git_repo_root` instead of a repository, so `repo.head.commit` raises `AttributeError` on every run and the decision loop is never reached as written. `LegacyPlugin.LegacyHook` models both that argument and a repository; `LegacyPlugin.LegacyModifyItems` models the loops from line 41 on, as they would run on a dictionary.
- `d.diff.decode('utf-8')` (`helpers.py:66`, `pytest_smartcollect_helpers.py:49`) raises `UnicodeDecodeError` on a patch that is not UTF-8. The patch is modelled as text already decoded (`Diffs.DiffEntry`), so that failure is not modelled.
- pytest option registration, the fixtures, marker objects, the `config.cache` lookup mechanics, logging and the coverage-plugin warning. The last-failed cache is a set of node ids. The skip marker is a boolean. A log message is a `Plugin.Warning`.
- Message texts of the exceptions are kept only where they tell errors apart.
- PyStr.ParseInt: only ASCII digits are accepted, while Python's `int()` also reads other Unicode decimal digits. It also accepts no sign, but the line specification has had its signs removed before `int()` sees it.
- The stdout redirection inside `extract`: the model states what is printed and what is returned.

## Findings

| source | as written | input that shows it | evidently intended | confidence | as-written member | corrected member |
|---|---|---|---|---|---|---|
| pytest_smartcollect/helpers.py:75-88 | A single-piece specification hands two strings to `range`. A side whose count is left out fails the two-value unpack. | the header `@@ -5 +5 @@` of a one-line change gives `5 5`, which fails with `ValueError`; the specification `5,2` fails with `TypeError` | read each side as `start[,count]` with the count defaulting to 1, as the unified format says | not executed | ChangedFiles.CountlessHeaderFails | ChangedFiles.ModifiedFixedOfHeader |
| pytest_smartcollect/helpers.py:70-73 | An Added file's lines are `range(1, len(lines))`. | a 3-line added file gets `[1, 2]`; a 1-line file gets `[]` | every line of the new file, `1 .. n` | not executed | Diffs.AddedLinesDropLast | Diffs.AllFileLinesCover |
| pytest_smartcollect/helpers.py:120-122 | A declaration's span is `range(lineno, body[idx + 1].lineno - 1)`. It skips the line just before the next statement, and the last declaration raises. | `def f` on line 1 with its body on line 2 and `def g` on line 3: a change to line 2 reports nothing. A module ending in a function raises `IndexError`. | a declaration owns the lines up to the next statement, and the last one owns the rest of the file | not executed | ChangedMembers.BodyLineMissed | ChangedMembers.FixedChangedMembersContents |
| pytest_smartcollect_helpers.py:57-72 | The range endpoints are never converted to `int`. | any Modified entry, such as the header `@@ -1,2 +1,3 @@`, makes `find_changed_files` raise | convert with `int()`, then take the sorted union of the two ranges | not executed | LegacyHelpers.ModifiedDiffFails | LegacyHelpers.ModifiedMergedOfHeader |
| pytest_smartcollect/plugin.py:176-186 | Every imported name goes to `import_module`, and `m.__file__` is read unguarded; only `ImportError` is caught. | a test module without imports gives the name `''`, and `import_module('')` raises `ValueError`; `import sys` gives a module without `__file__`, which raises `AttributeError` | an import that loads no changed file contributes nothing | not executed | Plugin.NoImportsRaises | Plugin.ImportMembersFixed |
| pytest_smartcollect.py:31 | The fixture function `git_repo_root` itself is passed as `repo`. | any run: the function object has no `head` | open the repository at the `--git-repo-root` path and pass it | not executed | LegacyPlugin.LegacyHookAsWritten | LegacyPlugin.LegacyHook |
| pytest_smartcollect/plugin.py:88-95 | A file is kept when some ignore path does not contain it. | `a/x.py` ignored with `--ignore-source a --ignore-source b` is kept | drop a file that lies under any ignore path, as the option's help text describes | not executed | Paths.IgnoredFileKept | Paths.DroppedUnderAny |

=== FILE: ast.dfy ===
/**
 * A small abstract syntax tree standing in for what `ast.parse` returns.
 *
 * Only the node classes the plugin tests for get their own constructor;
 * every other node is `Other`.  Child nodes are listed in the order
 * `ast.NodeVisitor.generic_visit` visits the node's fields.  A module is
 * the sequence of its top-level statements (`module_ast.body`).
 */
module Ast {

  import opened Outcome

  datatype Node =
    | FunctionDef(name: string, lineno: nat, fields: seq<Node>)
    | ClassDef(name: string, lineno: nat, fields: seq<Node>)
    | Assign(lineno: nat, fields: seq<Node>)
      /** `import a, b`: the alias names in order; there is always a first one */
    | Import(lineno: nat, firstAlias: string, moreAliases: seq<string>)
      /** `from m import x`: `moduleName` is `None` for `from . import x` */
    | ImportFrom(lineno: nat, moduleName: Option<string>, aliases: seq<string>)
    | Call(lineno: nat, func: Node, args: seq<Node>)
    | Name(lineno: nat, id: string)
    | Other(lineno: nat, fields: seq<Node>)

  /** The statement kinds `find_changed_members` treats as declarations. */
  predicate IsDeclaration(n: Node) {
    n.Assign? || n.FunctionDef? || n.ClassDef?
  }

  predicate IsFunctionNamed(n: Node, name: string) {
    n.FunctionDef? && n.name == name
  }

  /**
   * `list(filter(lambda x: FunctionDef named name, body))[0]`: the first
   * top-level function called `name`, and `IndexError` when there is none.
   */
  function FirstFunctionNamed(body: seq<Node>, name: string): (r: Result<Node>)
    ensures r.Ok? ==> exists i :: 0 <= i < |body| && body[i] == r.value && IsFunctionNamed(r.value, name)
                                  && forall j :: 0 <= j < i ==> !IsFunctionNamed(body[j], name)
    ensures r.Err? <==> forall i :: 0 <= i < |body| ==> !IsFunctionNamed(body[i], name)
    ensures r.Err? ==> r.error.IndexError?
  {
    if |body| == 0 then Err(IndexError("list index out of range"))
    else if IsFunctionNamed(body[0], name) then Ok(body[0])
    else
      var r := FirstFunctionNamed(body[1..], name);
      assert r.Ok? ==> exists i :: 0 <= i < |body| && body[i] == r.value && IsFunctionNamed(r.value, name)
                                  && forall j :: 0 <= j < i ==> !IsFunctionNamed(body[j], name) by {
        if r.Ok? {
          var i :| 0 <= i < |body[1..]| && body[1..][i] == r.value && IsFunctionNamed(r.value, name)
                   && forall j :: 0 <= j < i ==> !IsFunctionNamed(body[1..][j], name);
          assert body[i + 1] == r.value;
          forall j | 0 <= j < i + 1 ensures !IsFunctionNamed(body[j], name) {
            if j > 0 {
              assert body[j] == body[1..][j - 1];
            }
          }
        }
      }
      assert r.Err? ==> forall i :: 0 <= i < |body| ==> !IsFunctionNamed(body[i], name) by {
        if r.Err? {
          forall i | 0 <= i < |body| ensures !IsFunctionNamed(body[i], name) {
            if i > 0 {
              assert body[i] == body[1..][i - 1];
            }
          }
        }
      }
      r
  }
}

=== FILE: changed_files.dfy ===
/**
 * `find_changed_files` of `pytest_smartcollect/helpers.py`: one changed-file
 * record per diff entry whose path has the wanted extension, keyed by that
 * path.  The line specification of the first hunk header is read for every
 * entry; a Modified entry turns it into two half-open line ranges, an Added
 * entry takes every line but the last of the file.
 */
module ChangedFiles {

  import opened Outcome
  import opened PyStr
  import opened PyDict
  import opened Diffs

  /** `ChangedFile(change_type, current_filepath, old_filepath, changed_lines)` */
  datatype ChangedFile = ChangedFile(changeType: string, currentPath: string, oldPath: Option<string>, changedLines: ChangedLines)

  /** The number of lines `readlines()` returns for each file `open` can read. */
  type FileLines = map<string, nat>

  // ---------------------------------------------------------------------------
  // Modified entries: the two ranges of the line specification

  /** `[int(x) for x in pieces]`: `ValueError` as soon as one piece is not a literal. */
  function ParseAll(pieces: seq<string>): (r: Result<seq<nat>>)
    ensures r.Ok? <==> forall i :: 0 <= i < |pieces| ==> ParseInt(pieces[i]).Some?
    ensures r.Ok? ==> |r.value| == |pieces|
    ensures r.Ok? ==> forall i :: 0 <= i < |pieces| ==> ParseInt(pieces[i]) == Some(r.value[i])
    ensures r.Err? ==> r.error == ValueError("invalid literal for int()")
  {
    if |pieces| == 0 then Ok([])
    else
      match ParseInt(pieces[0])
      case None => Err(ValueError("invalid literal for int()"))
      case Some(v) =>
        var rest := ParseAll(pieces[1..]);
        assert forall i :: 1 <= i < |pieces| ==> pieces[i] == pieces[1..][i - 1];
        if rest.Err? then rest.PropagateFailure() else Ok([v] + rest.value)
  }

  /** `start,count` with both parts decimal literals. */
  predicate IntPair(t: string) {
    var p := SplitOn(t, ",");
    |p| == 2 && ParseInt(p[0]).Some? && ParseInt(p[1]).Some?
  }

  /** `g` is `range(start, start + count)` for the two literals of `t`. */
  predicate RangeOfPair(g: LineRange, t: string) {
    var p := SplitOn(t, ",");
    |p| == 2 && ParseInt(p[0]) == Some(g.start) && ParseInt(p[1]) == Some(g.stop - g.start)
  }

  /** `start, count = [int(x) for x in t.split(',')]`, made into `range(start, start + count)`. */
  function PairRange(t: string): (r: Result<LineRange>)
    ensures r.Ok? <==> IntPair(t)
    ensures r.Ok? ==> RangeOfPair(r.value, t) && r.value.start <= r.value.stop
    ensures r.Err? ==> r.error.ValueError?
  {
    var p := SplitOn(t, ",");
    var ints := ParseAll(p);
    if ints.Err? then ints.PropagateFailure()
    else if |ints.value| != 2 then Err(ValueError("wrong number of values to unpack"))
    else
      var g := LineRange(ints.value[0], ints.value[0] + ints.value[1]);
      assert ParseInt(p[0]) == Some(g.start) && ParseInt(p[1]) == Some(g.stop - g.start);
      Ok(g)
  }

  /**
   * The Modified branch on a line specification.  With fewer than two
   * space-separated pieces the code adds the two strings and hands them to
   * `range`, which can only fail: `ValueError` when the piece does not split
   * into two, `TypeError` otherwise.  With two or more pieces the first two
   * must each be `start,count`.
   */
  function ModifiedRanges(spec: string): (r: Result<ChangedLines>)
    ensures var rs := SplitOn(spec, " ");
            r.Ok? <==> |rs| >= 2 && IntPair(rs[0]) && IntPair(rs[1])
    ensures var rs := SplitOn(spec, " ");
            r.Ok? ==> r.value.RangeList? && |r.value.ranges| == 2
                      && RangeOfPair(r.value.ranges[0], rs[0]) && RangeOfPair(r.value.ranges[1], rs[1])
    ensures var rs := SplitOn(spec, " ");
            |rs| < 2 ==> r.Err? && (r.error.TypeError? <==> |SplitOn(rs[0], ",")| == 2)
    ensures r.Err? ==> r.error.ValueError? || r.error.TypeError?
    ensures |SplitOn(spec, " ")| >= 2 && r.Err? ==> r.error.ValueError?
  {
    var rs := SplitOn(spec, " ");
    if |rs| < 2 then
      if |SplitOn(rs[0], ",")| != 2 then Err(ValueError("wrong number of values to unpack"))
      else Err(TypeError("'str' object cannot be interpreted as an integer"))
    else
      var pre := PairRange(rs[0]);
      if pre.Err? then pre.PropagateFailure()
      else
        var post := PairRange(rs[1]);
        if post.Err? then post.PropagateFailure()
        else Ok(RangeList([pre.value, post.value]))
  }

  lemma {:induction false} DigitsFree(t: string, c: char)
    requires AllDigits(t) && !IsDigit(c)
    ensures c !in t
  {
  }

  lemma {:induction false} CountedPieces(start: nat, count: nat)
    ensures SplitOn(SideText(Side(start, Some(count))), ",") == [Decimal(start), Decimal(count)]
  {
    DigitsFree(Decimal(start), ',');
    DigitsFree(Decimal(count), ',');
    var parts := [Decimal(start), Decimal(count)];
    assert Join(parts, ",") == SideText(Side(start, Some(count)));
    SplitJoin(parts, ",");
  }

  lemma {:induction false} UncountedPieces(start: nat)
    ensures SplitOn(SideText(Side(start, None)), ",") == [Decimal(start)]
  {
    DigitsFree(Decimal(start), ',');
    assert SideText(Side(start, None)) == Decimal(start);
    SplitOnNone(Decimal(start), ",");
  }

  /** How one rendered side of a hunk header splits on `,` and what its parts parse to. */
  lemma {:induction false} SidePieces(s: Side)
    ensures SplitOn(SideText(s), ",") == if s.count.Some? then [Decimal(s.start), Decimal(s.count.value)] else [Decimal(s.start)]
    ensures ParseInt(Decimal(s.start)) == Some(s.start)
    ensures s.count.Some? ==> ParseInt(Decimal(s.count.value)) == Some(s.count.value)
  {
    ParseDecimal(s.start);
    if s.count.Some? {
      ParseDecimal(s.count.value);
      CountedPieces(s.start, s.count.value);
    } else {
      UncountedPieces(s.start);
    }
  }


  /** The rendered header's specification splits into its two sides. */
  lemma {:induction false} SpecPieces(pre: Side, post: Side)
    ensures SplitOn(SideText(pre) + " " + SideText(post), " ") == [SideText(pre), SideText(post)]
  {
    SideTextChars(pre);
    SideTextChars(post);
    NumberTextFree(SideText(pre), ' ');
    NumberTextFree(SideText(post), ' ');
    var parts := [SideText(pre), SideText(post)];
    assert Join(parts, " ") == SideText(pre) + " " + SideText(post);
    SplitJoin(parts, " ");
  }

  /** `start,count` reads back as `range(start, start + count)`. */
  lemma {:induction false} CountedPairRange(start: nat, count: nat)
    ensures IntPair(SideText(Side(start, Some(count))))
    ensures PairRange(SideText(Side(start, Some(count)))) == Ok(LineRange(start, start + count))
  {
    SidePieces(Side(start, Some(count)));
    PairOfPieces(SideText(Side(start, Some(count))), Decimal(start), Decimal(count), start, count);
  }

  /** Text that splits on `,` into two literals reads back as the range they give. */
  lemma PairOfPieces(t: string, a: string, b: string, x: nat, y: nat)
    requires SplitOn(t, ",") == [a, b] && ParseInt(a) == Some(x) && ParseInt(b) == Some(y)
    ensures IntPair(t) && PairRange(t) == Ok(LineRange(x, x + y))
  {
    var g := PairRange(t).value;
    assert RangeOfPair(g, t);
  }

  /** A side whose count was left out is a single literal, not a pair. */
  lemma {:induction false} UncountedNoPair(start: nat)
    ensures !IntPair(SideText(Side(start, None)))
  {
    SidePieces(Side(start, None));
  }

  /** A side whose count was left out fails the two-value unpack. */
  lemma {:induction false} UncountedPairRange(start: nat)
    ensures PairRange(SideText(Side(start, None))) == Err(ValueError("wrong number of values to unpack"))
  {
    var t := SideText(Side(start, None));
    SidePieces(Side(start, None));
    var ints := ParseAll(SplitOn(t, ","));
    assert ints.Ok? && |ints.value| == 1;
  }

  /** A side reads back as a pair exactly when it carries a count, and then as its line range. */
  lemma {:induction false} SidePairRange(s: Side)
    ensures IntPair(SideText(s)) <==> s.count.Some?
    ensures s.count.Some? ==> PairRange(SideText(s)) == Ok(SideRange(s))
  {
    if s.count.Some? {
      CountedPairRange(s.start, s.count.value);
    } else {
      UncountedNoPair(s.start);
    }
  }

  /**
   * On the specification of a rendered header `@@ -pre +post @@` the
   * Modified branch gives the preimage range then the postimage range
   * exactly when both sides carry a count; a side whose count of 1 was left
   * out makes it fail with `ValueError`.
   */
  lemma {:induction false} ModifiedOfHeader(pre: Side, post: Side)
    ensures ModifiedRanges(SideText(pre) + " " + SideText(post))
            == if pre.count.Some? && post.count.Some? then Ok(RangeList([SideRange(pre), SideRange(post)]))
               else Err(ValueError("wrong number of values to unpack"))
  {
    SpecPieces(pre, post);
    SidePairRange(pre);
    SidePairRange(post);
    if pre.count.None? {
      UncountedPairRange(pre.start);
    } else if post.count.None? {
      UncountedPairRange(post.start);
    }
  }


  /** A line specification of one piece, such as `5,2`, always fails: `range` gets two strings. */
  lemma {:induction false} SingleRangeFails(start: nat, count: nat)
    ensures ModifiedRanges(SideText(Side(start, Some(count)))) == Err(TypeError("'str' object cannot be interpreted as an integer"))
  {
    var t := SideText(Side(start, Some(count)));
    SidePieces(Side(start, Some(count)));
    SideTextChars(Side(start, Some(count)));
    NumberTextFree(t, ' ');
    SplitOnNone(t, " ");
    var rs := SplitOn(t, " ");
    assert rs == [t];
    assert |SplitOn(rs[0], ",")| == 2;
  }

  /**
   * One side `start[,count]` read as the unified format defines it: a
   * missing count means 1.
   */
  function SideRangeOf(t: string): (r: Result<LineRange>)
    ensures r.Ok? ==> r.value.start <= r.value.stop
    ensures r.Ok? <==> 1 <= |SplitOn(t, ",")| <= 2 && ParseAll(SplitOn(t, ",")).Ok?
  {
    var ints := ParseAll(SplitOn(t, ","));
    if ints.Err? then ints.PropagateFailure()
    else if |ints.value| == 1 then Ok(LineRange(ints.value[0], ints.value[0] + 1))
    else if |ints.value| == 2 then Ok(LineRange(ints.value[0], ints.value[0] + ints.value[1]))
    else Err(ValueError("wrong number of values to unpack"))
  }

  /**
   * The Modified branch as it was evidently meant to work: each side's
   * numbers converted to `int` with the count defaulting to 1, and a
   * specification of one side giving one range.
   */
  function ModifiedRangesFixed(spec: string): (r: Result<ChangedLines>)
    ensures r.Ok? ==> r.value.RangeList? && 1 <= |r.value.ranges| <= 2
  {
    var rs := SplitOn(spec, " ");
    var pre := SideRangeOf(rs[0]);
    if pre.Err? then pre.PropagateFailure()
    else if |rs| < 2 then Ok(RangeList([pre.value]))
    else
      var post := SideRangeOf(rs[1]);
      if post.Err? then post.PropagateFailure()
      else Ok(RangeList([pre.value, post.value]))
  }

  /** On `start,count` the corrected reading agrees with the written one. */
  lemma {:induction false} SideRangeOfPair(t: string)
    requires IntPair(t)
    ensures SideRangeOf(t) == PairRange(t)
  {
    var ints := ParseAll(SplitOn(t, ","));
    assert ints.Ok? && |ints.value| == 2;
  }

  lemma {:induction false} CountedSideRange(start: nat, count: nat)
    ensures SideRangeOf(SideText(Side(start, Some(count)))) == Ok(LineRange(start, start + count))
  {
    CountedPairRange(start, count);
    SideRangeOfPair(SideText(Side(start, Some(count))));
  }


  lemma {:induction false} UncountedSideRange(start: nat)
    ensures SideRangeOf(SideText(Side(start, None))) == Ok(LineRange(start, start + 1))
  {
    var t := SideText(Side(start, None));
    SidePieces(Side(start, None));
    var p := SplitOn(t, ",");
    assert p == [Decimal(start)];
    var ints := ParseAll(p);
    assert ints.Ok?;
    assert ints.value[0] == start;
  }

  /** Each rendered side reads back as its unified-format range. */
  lemma {:induction false} SideRangeOfText(s: Side)
    ensures SideRangeOf(SideText(s)) == Ok(SideRange(s))
  {
    if s.count.Some? {
      CountedSideRange(s.start, s.count.value);
    } else {
      UncountedSideRange(s.start);
    }
  }

  /** The corrected branch reads every rendered header back as its two unified-format ranges. */
  lemma {:induction false} ModifiedFixedOfHeader(pre: Side, post: Side)
    ensures ModifiedRangesFixed(SideText(pre) + " " + SideText(post)) == Ok(RangeList([SideRange(pre), SideRange(post)]))
  {
    SpecPieces(pre, post);
    SideRangeOfText(pre);
    SideRangeOfText(post);
  }

  /** Where the two branches differ: a header that leaves a count of 1 out fails as written and reads back when corrected. */
  lemma {:induction false} CountlessHeaderFails(start: nat)
    ensures ModifiedRanges(SideText(Side(start, None)) + " " + SideText(Side(start, None))).Err?
    ensures ModifiedRangesFixed(SideText(Side(start, None)) + " " + SideText(Side(start, None)))
            == Ok(RangeList([LineRange(start, start + 1), LineRange(start, start + 1)]))
  {
    var s := Side(start, None);
    assert SideRange(s) == LineRange(start, start + 1);
    ModifiedOfHeader(s, s);
    ModifiedFixedOfHeader(s, s);
  }


  // ---------------------------------------------------------------------------
  // Dispatch on the change letter

  /** What the branch for a change letter computed: the path, the old path and the lines. */
  datatype Dispatched = Dispatched(path: PathValue, oldPath: Option<string>, lines: ChangedLines)

  predicate KnownChange(letter: string) {
    letter == "A" || letter == "M" || letter == "D" || letter == "R" || letter == "T"
  }

  /** The `if`/`elif` chain on `d.change_type`, given the entry's line specification. */
  function Dispatch(d: DiffEntry, spec: string, files: FileLines): (r: Result<Dispatched>)
    ensures r.Err? <==> !KnownChange(d.changeType)
                        || (d.changeType == "A" && d.aPath !in files)
                        || (d.changeType == "M" && ModifiedRanges(spec).Err?)
    ensures !KnownChange(d.changeType) ==> r == Err(UnknownChangeType(d.changeType))
    ensures r.Ok? ==> (r.value.oldPath.Some? <==> d.changeType == "R")
    ensures r.Ok? ==> r.value.path == (if d.changeType == "T" then Bytes(d.bPath)
                                       else if d.changeType == "R" then Str(d.bPath) else Str(d.aPath))
    ensures r.Ok? && d.changeType == "R" ==> r.value.oldPath == Some(d.aPath)
    ensures r.Ok? ==> (r.value.lines.NoLines? <==> d.changeType in {"D", "R", "T"})
  {
    if d.changeType == "A" then
      if d.aPath !in files then Err(FileNotFound(d.aPath))
      else Ok(Dispatched(Str(d.aPath), None, LineList(AddedLines(files[d.aPath]))))
    else if d.changeType == "M" then
      var lines := ModifiedRanges(spec);
      if lines.Err? then lines.PropagateFailure()
      else Ok(Dispatched(Str(d.aPath), None, lines.value))
    else if d.changeType == "D" then Ok(Dispatched(Str(d.aPath), None, NoLines))
    else if d.changeType == "R" then Ok(Dispatched(Str(d.bPath), Some(d.aPath), NoLines))
    else if d.changeType == "T" then Ok(Dispatched(Bytes(d.bPath), None, NoLines))
    else Err(UnknownChangeType(d.changeType))
  }

  /** `os.path.splitext(filepath)[-1] == ext`: a `bytes` path never equals a `str` extension. */
  predicate HasExtension(p: PathValue, ext: string) {
    p.Str? && Extension(p.text) == ext
  }

  /**
   * One pass of the loop body: the header is read first (so an entry
   * without `@@` fails whatever its letter), then the branch runs, then the
   * extension decides whether a record is stored.
   */
  function EntryRecord(d: DiffEntry, ext: string, files: FileLines): (r: Result<Option<ChangedFile>>)
    ensures HunkSpec(d.patch).Err? ==> r == HunkSpec(d.patch).PropagateFailure()
    ensures HunkSpec(d.patch).Ok? ==>
              (r.Err? <==> Dispatch(d, HunkSpec(d.patch).value, files).Err?)
    ensures HunkSpec(d.patch).Ok? && Dispatch(d, HunkSpec(d.patch).value, files).Err?
            ==> r == Dispatch(d, HunkSpec(d.patch).value, files).PropagateFailure()
    ensures r.Ok? && r.value.Some? ==>
              HunkSpec(d.patch).Ok? && Dispatch(d, HunkSpec(d.patch).value, files).Ok?
              && var x := Dispatch(d, HunkSpec(d.patch).value, files).value;
                 r.value.value.oldPath == x.oldPath && r.value.value.changedLines == x.lines
    ensures r.Ok? && r.value.Some? ==>
              var c := r.value.value;
              && c.changeType == d.changeType
              && Extension(c.currentPath) == ext
              && c.currentPath == (if d.changeType == "R" then d.bPath else d.aPath)
              && (c.oldPath.Some? <==> d.changeType == "R")
    ensures r.Ok? && r.value.None? ==>
              var x := Dispatch(d, HunkSpec(d.patch).value, files).value;
              !HasExtension(x.path, ext)
  {
    var spec := HunkSpec(d.patch);
    if spec.Err? then spec.PropagateFailure()
    else
      var x := Dispatch(d, spec.value, files);
      if x.Err? then x.PropagateFailure()
      else if HasExtension(x.value.path, ext) then
        Ok(Some(ChangedFile(d.changeType, x.value.path.text, x.value.oldPath, x.value.lines)))
      else Ok(None)
  }

  /** A retyped entry (`T`) never yields a record: its path is `bytes`. */
  lemma {:induction false} RetypedNeverKept(d: DiffEntry, ext: string, files: FileLines)
    requires d.changeType == "T"
    ensures EntryRecord(d, ext, files).Ok? ==> EntryRecord(d, ext, files).value.None?
  {
  }

  /**
   * A Modified entry whose patch starts with a rendered header yields the
   * two ranges of that header when both sides carry a count and the path
   * has the extension, and fails with `ValueError` when a count was left out.
   */
  lemma {:induction false} ModifiedEntryOfHeader(path: string, b: string, pre: Side, post: Side, tail: string, ext: string, files: FileLines)
    ensures var r := EntryRecord(DiffEntry("M", path, b, HunkHeader(pre, post) + tail), ext, files);
            && (r.Err? <==> pre.count.None? || post.count.None?)
            && (r.Err? ==> r.error.ValueError?)
            && (r.Ok? && Extension(path) == ext ==>
                  r.value == Some(ChangedFile("M", path, None, RangeList([SideRange(pre), SideRange(post)]))))
            && (r.Ok? && Extension(path) != ext ==> r.value == None)
  {
    HunkSpecOfHeader(pre, post, tail);
    ModifiedOfHeader(pre, post);
  }

  /** An Added entry with a header yields lines `1 .. n-1` of its `n`-line file. */
  lemma {:induction false} AddedEntryLines(path: string, b: string, patch: string, ext: string, files: FileLines)
    requires HunkSpec(patch).Ok? && path in files && Extension(path) == ext
    ensures EntryRecord(DiffEntry("A", path, b, patch), ext, files)
            == Ok(Some(ChangedFile("A", path, None, LineList(AddedLines(files[path])))))
  {
  }

  // ---------------------------------------------------------------------------
  // The whole diff

  /** Every record is stored under its own current path, which has the extension, and no key repeats. */
  predicate WellKeyed(d: Dict<string, ChangedFile>, ext: string) {
    && DistinctKeys(d)
    && forall i :: 0 <= i < |d| ==> d[i].value.currentPath == d[i].key && Extension(d[i].key) == ext
  }

  /** A per-entry outcome that stores a record under `k`. */
  predicate StoresUnder(rec: Result<Option<ChangedFile>>, k: string) {
    rec.Ok? && rec.value.Some? && rec.value.value.currentPath == k
  }

  /**
   * The loop over the per-entry outcomes, in order: the first exception, or
   * `changed_files[filepath] = record` for every record.
   */
  function Collect(recs: seq<Result<Option<ChangedFile>>>): (r: Result<Dict<string, ChangedFile>>)
    ensures r.Ok? <==> forall i :: 0 <= i < |recs| ==> recs[i].Ok?
    ensures r.Ok? ==> DistinctKeys(r.value)
    ensures r.Ok? ==> forall i :: 0 <= i < |r.value| ==> r.value[i].value.currentPath == r.value[i].key
    ensures r.Ok? ==> forall i :: 0 <= i < |r.value| ==> Ok(Some(r.value[i].value)) in recs
    ensures r.Err? ==> exists i :: 0 <= i < |recs| && recs[i] == Err(r.error) && forall j :: 0 <= j < i ==> recs[j].Ok?
    decreases |recs|
  {
    if |recs| == 0 then Ok([])
    else
      var n := |recs| - 1;
      var prev := Collect(recs[..n]);
      assert forall i :: 0 <= i < n ==> recs[..n][i] == recs[i];
      if prev.Err? then prev.PropagateFailure()
      else if recs[n].Err? then recs[n].PropagateFailure()
      else if recs[n].value.None? then prev
      else
        var c := recs[n].value.value;
        var r := Put(prev.value, c.currentPath, c);
        PutDistinct(prev.value, c.currentPath, c);
        assert forall i :: 0 <= i < |r| ==> r[i] == Entry(c.currentPath, c) || (i < |prev.value| && r[i] == prev.value[i]);
        Ok(r)
  }

  /** The keys are exactly the paths the outcomes store under. */
  lemma {:induction false} CollectKeys(recs: seq<Result<Option<ChangedFile>>>, k: string)
    requires Collect(recs).Ok?
    ensures k in Keys(Collect(recs).value) <==> exists j :: 0 <= j < |recs| && StoresUnder(recs[j], k)
    decreases |recs|
  {
    if |recs| > 0 {
      var n := |recs| - 1;
      CollectKeys(recs[..n], k);
      StoredStep(recs, recs[..n], k);
      var prev := Collect(recs[..n]).value;
      assert k in Keys(Collect(recs).value) <==> k in Keys(prev) || StoresUnder(recs[n], k);
    }
  }

  /** Some outcome among the first `n + 1` stores under `k` exactly when one of the first `n` or the last one does. */
  lemma StoredStep(recs: seq<Result<Option<ChangedFile>>>, pre: seq<Result<Option<ChangedFile>>>, k: string)
    requires |recs| > 0 && pre == recs[..|recs| - 1]
    ensures (exists j :: 0 <= j < |recs| && StoresUnder(recs[j], k))
            <==> (exists j :: 0 <= j < |pre| && StoresUnder(pre[j], k)) || StoresUnder(recs[|recs| - 1], k)
  {
    var n := |recs| - 1;
    if exists j :: 0 <= j < |recs| && StoresUnder(recs[j], k) {
      var j :| 0 <= j < |recs| && StoresUnder(recs[j], k);
      if j < n {
        assert StoresUnder(pre[j], k);
      }
    }
    if exists j :: 0 <= j < n && StoresUnder(pre[j], k) {
      var j :| 0 <= j < n && StoresUnder(pre[j], k);
      assert StoresUnder(recs[j], k);
    }
  }

  /** The record kept under a path is that of the last outcome storing under it. */
  lemma {:induction false} CollectLastWins(recs: seq<Result<Option<ChangedFile>>>, j: int)
    requires Collect(recs).Ok?
    requires 0 <= j < |recs| && recs[j].Ok? && recs[j].value.Some?
    requires forall j' :: j < j' < |recs| ==> !StoresUnder(recs[j'], recs[j].value.value.currentPath)
    ensures Get(Collect(recs).value, recs[j].value.value.currentPath) == Some(recs[j].value.value)
    decreases |recs|
  {
    var n := |recs| - 1;
    var c := recs[j].value.value;
    var prev := Collect(recs[..n]);
    if j < n {
      assert recs[..n][j] == recs[j];
      assert forall j' :: j < j' < n ==> recs[..n][j'] == recs[j'];
      CollectLastWins(recs[..n], j);
      assert !StoresUnder(recs[n], c.currentPath);
      if recs[n].value.Some? {
        PutOther(prev.value, recs[n].value.value.currentPath, recs[n].value.value, c.currentPath);
      }
    }
  }

  /** The outcome of each entry of the diff, in order. */
  function Records(diffs: seq<DiffEntry>, ext: string, files: FileLines): (recs: seq<Result<Option<ChangedFile>>>)
    ensures |recs| == |diffs|
    ensures forall i :: 0 <= i < |diffs| ==> recs[i] == EntryRecord(diffs[i], ext, files)
  {
    seq(|diffs|, i requires 0 <= i < |diffs| => EntryRecord(diffs[i], ext, files))
  }

  /**
   * `find_changed_files(repo, ext)` on the entries of the diff, in order:
   * the first failing entry's exception, or the dictionary of records where
   * a later entry for the same path replaces an earlier one in place.
   */
  function FindChangedFiles(diffs: seq<DiffEntry>, ext: string, files: FileLines): (r: Result<Dict<string, ChangedFile>>)
    ensures r.Ok? <==> forall i :: 0 <= i < |diffs| ==> EntryRecord(diffs[i], ext, files).Ok?
    ensures r.Ok? ==> WellKeyed(r.value, ext)
    ensures r.Err? ==> exists i :: 0 <= i < |diffs| && EntryRecord(diffs[i], ext, files) == Err(r.error)
                                   && forall j :: 0 <= j < i ==> EntryRecord(diffs[j], ext, files).Ok?
  {
    var recs := Records(diffs, ext, files);
    var r := Collect(recs);
    assert r.Ok? ==> forall i :: 0 <= i < |r.value| ==> Extension(r.value[i].key) == ext by {
      if r.Ok? {
        forall i | 0 <= i < |r.value| ensures Extension(r.value[i].key) == ext {
          var j :| 0 <= j < |recs| && recs[j] == Ok(Some(r.value[i].value));
          assert EntryRecord(diffs[j], ext, files) == Ok(Some(r.value[i].value));
        }
      }
    }
    r
  }

  /** The keys of the result are exactly the paths of the entries that yield a record. */
  lemma ChangedFileKeys(diffs: seq<DiffEntry>, ext: string, files: FileLines, k: string)
    requires FindChangedFiles(diffs, ext, files).Ok?
    ensures k in Keys(FindChangedFiles(diffs, ext, files).value)
            <==> exists j :: 0 <= j < |diffs| && StoresUnder(EntryRecord(diffs[j], ext, files), k)
  {
    CollectKeys(Records(diffs, ext, files), k);
  }

  /** The record stored under a path is that of the last entry for the path. */
  lemma LastRecordWins(diffs: seq<DiffEntry>, ext: string, files: FileLines, j: int, c: ChangedFile)
    requires FindChangedFiles(diffs, ext, files).Ok?
    requires 0 <= j < |diffs| && EntryRecord(diffs[j], ext, files) == Ok(Some(c))
    requires forall j' :: j < j' < |diffs| ==> !StoresUnder(EntryRecord(diffs[j'], ext, files), c.currentPath)
    ensures Get(FindChangedFiles(diffs, ext, files).value, c.currentPath) == Some(c)
  {
    CollectLastWins(Records(diffs, ext, files), j);
  }
}

=== FILE: changed_members.dfy ===
/**
 * `find_changed_members` of `pytest_smartcollect/helpers.py`: for every
 * top-level declaration (an assignment, a function or a class) the lines it
 * owns are taken to be `range(lineno, next.lineno - 1)`, and for every
 * changed range that shares a line with that span the call names found
 * inside the declaration are appended once.
 *
 * The module's source is taken as its parsed top-level statements; reading
 * and parsing the file are not part of this model.
 */
module ChangedMembers {

  import opened Outcome
  import opened Ast
  import opened Visitors
  import opened Diffs

  // ---------------------------------------------------------------------------
  // Spans and intersection

  /** `range(body[i].lineno, body[i + 1].lineno - 1)`, defined when a next statement exists. */
  function DeclSpan(body: seq<Node>, i: int): LineRange
    requires 0 <= i < |body| - 1
  {
    LineRange(body[i].lineno, body[i + 1].lineno - 1)
  }

  /** The span of statement `i`, or the `IndexError` of `module_ast.body[idx + 1]` for the last statement. */
  function Span(body: seq<Node>, i: int): (r: Result<LineRange>)
    requires 0 <= i < |body|
    ensures r.Err? <==> i == |body| - 1
    ensures r.Err? ==> r.error.IndexError?
    ensures r.Ok? ==> r.value == DeclSpan(body, i)
  {
    if i + 1 < |body| then Ok(DeclSpan(body, i)) else Err(IndexError("list index out of range"))
  }

  function Max(a: int, b: int): int { if a < b then b else a }
  function Min(a: int, b: int): int { if a < b then a else b }

  /** `set(a).intersection(set(b))` is non-empty, decided on the bounds alone. */
  predicate Overlaps(a: LineRange, b: LineRange) {
    Max(a.start, b.start) < Min(a.stop, b.stop)
  }

  /** The bound test agrees with the set intersection: some line lies in both ranges. */
  lemma OverlapsIff(a: LineRange, b: LineRange)
    ensures Overlaps(a, b) <==> exists l :: InRange(a, l) && InRange(b, l)
  {
    if Overlaps(a, b) {
      assert InRange(a, Max(a.start, b.start)) && InRange(b, Max(a.start, b.start));
    }
  }

  /** The same, stated on the line sets Python builds. */
  lemma OverlapsLines(a: LineRange, b: LineRange)
    ensures Overlaps(a, b) <==> Lines(a) * Lines(b) != {}
  {
    OverlapsIff(a, b);
    if Overlaps(a, b) {
      var l := Max(a.start, b.start);
      assert l in Lines(a) * Lines(b);
    }
  }

  // ---------------------------------------------------------------------------
  // The inner loop over the changed lines

  /** Indices of the changed ranges that share a line with `span`. */
  ghost function HitIndices(rs: seq<LineRange>, span: LineRange): set<int> {
    set k | 0 <= k < |rs| && Overlaps(rs[k], span)
  }

  /** One copy of the declaration's call names per changed range that meets its span. */
  function RangeHits(rs: seq<LineRange>, span: LineRange, node: Node): (r: seq<seq<string>>)
    ensures |r| == |HitIndices(rs, span)|
    ensures forall k :: 0 <= k < |r| ==> r[k] == ExtractCalls(node)
    decreases |rs|
  {
    if |rs| == 0 then []
    else
      var n := |rs| - 1;
      var prev := RangeHits(rs[..n], span, node);
      assert HitIndices(rs, span) == HitIndices(rs[..n], span) + (if Overlaps(rs[n], span) then {n} else {}) by {
        assert forall k :: 0 <= k < n ==> rs[..n][k] == rs[k];
      }
      prev + (if Overlaps(rs[n], span) then [ExtractCalls(node)] else [])
  }

  /** The declaration's call names are appended exactly when some changed range meets the span. */
  lemma RangeHitsContents(rs: seq<LineRange>, span: LineRange, node: Node, names: seq<string>)
    ensures names in RangeHits(rs, span, node)
            <==> names == ExtractCalls(node) && exists k :: 0 <= k < |rs| && Overlaps(rs[k], span)
  {
    var hits := RangeHits(rs, span, node);
    if names in hits {
      var k' :| k' in HitIndices(rs, span);
    }
    if names == ExtractCalls(node) && exists k :: 0 <= k < |rs| && Overlaps(rs[k], span) {
      var k' :| 0 <= k' < |rs| && Overlaps(rs[k'], span);
      assert k' in HitIndices(rs, span);
      assert hits[0] == names;
    }
  }

  /**
   * `changed_module.changed_lines` cannot be iterated as the loop expects:
   * `None` is not iterable, and an element of a list of line numbers is an
   * `int`, which `set()` rejects.
   */
  predicate Breaks(lines: ChangedLines) {
    lines.NoLines? || (lines.LineList? && |lines.lines| > 0)
  }

  /** `for ch in changed_lines: if set(ch).intersection(set(r)): append(extract(node))` */
  function Hits(lines: ChangedLines, span: LineRange, node: Node): (r: Result<seq<seq<string>>>)
    ensures r.Err? <==> Breaks(lines)
    ensures r.Err? ==> r.error.TypeError?
    ensures r.Ok? && lines.LineList? ==> r.value == []
    ensures lines.RangeList? ==> r == Ok(RangeHits(lines.ranges, span, node))
  {
    match lines
    case NoLines => Err(TypeError("'NoneType' object is not iterable"))
    case LineList(ls) => if |ls| == 0 then Ok([]) else Err(TypeError("'int' object is not iterable"))
    case RangeList(rs) => Ok(RangeHits(rs, span, node))
  }

  // ---------------------------------------------------------------------------
  // The outer loop over the top-level statements

  /** The loop over `enumerate(module_ast.body)` after its first `k` statements. */
  function MembersUpTo(body: seq<Node>, lines: ChangedLines, k: int): (r: Result<seq<seq<string>>>)
    requires 0 <= k <= |body|
    decreases k
  {
    if k == 0 then Ok([])
    else
      var prev := MembersUpTo(body, lines, k - 1);
      if prev.Err? || !IsDeclaration(body[k - 1]) then prev
      else
        var span := Span(body, k - 1);
        if span.Err? then span.PropagateFailure()
        else
          var hits := Hits(lines, span.value, body[k - 1]);
          if hits.Err? then hits.PropagateFailure() else Ok(prev.value + hits.value)
  }

  /** `find_changed_members(changed_module)` for a module whose top-level statements are `body`. */
  function FindChangedMembers(body: seq<Node>, lines: ChangedLines): (r: Result<seq<seq<string>>>)
  {
    MembersUpTo(body, lines, |body|)
  }

  predicate HasDeclaration(body: seq<Node>, k: int)
    requires 0 <= k <= |body|
  {
    exists i :: 0 <= i < k && IsDeclaration(body[i])
  }

  /**
   * The loop fails exactly when it reaches a declaration it cannot handle:
   * with iterable changed lines only a declaration in last position fails
   * (`IndexError`); with `None` or a list of ints the first declaration
   * fails.
   */
  lemma {:induction false} MembersUpToFails(body: seq<Node>, lines: ChangedLines, k: int)
    requires 0 <= k <= |body|
    ensures !Breaks(lines) ==>
              (MembersUpTo(body, lines, k).Err? <==> k == |body| && k > 0 && IsDeclaration(body[k - 1]))
    ensures Breaks(lines) ==> (MembersUpTo(body, lines, k).Err? <==> HasDeclaration(body, k))
    ensures MembersUpTo(body, lines, k).Err? ==>
              MembersUpTo(body, lines, k).error.IndexError? || MembersUpTo(body, lines, k).error.TypeError?
    decreases k
  {
    if k > 0 {
      MembersUpToFails(body, lines, k - 1);
      if Breaks(lines) && HasDeclaration(body, k - 1) {
        var i :| 0 <= i < k - 1 && IsDeclaration(body[i]);
        assert 0 <= i < k && IsDeclaration(body[i]);
      }
    }
  }

  /**
   * With a list of ranges, `find_changed_members` fails (with `IndexError`)
   * exactly when the module's last statement is a declaration.
   */
  lemma FailsOnLastDeclaration(body: seq<Node>, rs: seq<LineRange>)
    ensures var r := FindChangedMembers(body, RangeList(rs));
            (r.Err? <==> |body| > 0 && IsDeclaration(body[|body| - 1]))
            && (r.Err? ==> r.error.IndexError?)
  {
    MembersUpToFails(body, RangeList(rs), |body|);
    MembersUpToIndexError(body, rs, |body|);
  }

  lemma {:induction false} MembersUpToIndexError(body: seq<Node>, rs: seq<LineRange>, k: int)
    requires 0 <= k <= |body|
    ensures MembersUpTo(body, RangeList(rs), k).Err? ==> MembersUpTo(body, RangeList(rs), k).error.IndexError?
    decreases k
  {
    if k > 0 {
      MembersUpToIndexError(body, rs, k - 1);
    }
  }

  /** Without any declaration nothing is reported and nothing fails, whatever the changed lines. */
  lemma {:induction false} NoDeclarationsNoMembers(body: seq<Node>, lines: ChangedLines, k: int)
    requires 0 <= k <= |body|
    requires forall i :: 0 <= i < |body| ==> !IsDeclaration(body[i])
    ensures MembersUpTo(body, lines, k) == Ok([])
    decreases k
  {
    if k > 0 {
      NoDeclarationsNoMembers(body, lines, k - 1);
    }
  }

  /** Declaration `i` is reported with these call names: some changed range meets its span. */
  ghost predicate Reported(body: seq<Node>, rs: seq<LineRange>, i: int, names: seq<string>)
    requires 0 <= i < |body| - 1
  {
    && IsDeclaration(body[i])
    && names == ExtractCalls(body[i])
    && exists k :: 0 <= k < |rs| && Overlaps(rs[k], DeclSpan(body, i))
  }

  /** One step of the loop on a list of ranges that does not fail. */
  lemma MembersUpToStep(body: seq<Node>, rs: seq<LineRange>, k: int)
    requires 0 < k <= |body|
    requires MembersUpTo(body, RangeList(rs), k).Ok?
    ensures MembersUpTo(body, RangeList(rs), k - 1).Ok?
    ensures IsDeclaration(body[k - 1]) ==> k - 1 < |body| - 1
    ensures MembersUpTo(body, RangeList(rs), k).value
            == MembersUpTo(body, RangeList(rs), k - 1).value
               + (if IsDeclaration(body[k - 1]) then RangeHits(rs, DeclSpan(body, k - 1), body[k - 1]) else [])
  {
  }

  /** Declarations before `k` that report `names`: those before `k - 1`, and `k - 1` itself. */
  lemma ReportedStep(body: seq<Node>, rs: seq<LineRange>, k: int, names: seq<string>)
    requires 0 < k <= |body|
    ensures (exists i :: 0 <= i < k && i < |body| - 1 && Reported(body, rs, i, names))
            <==> (exists i :: 0 <= i < k - 1 && i < |body| - 1 && Reported(body, rs, i, names))
                 || (k - 1 < |body| - 1 && Reported(body, rs, k - 1, names))
  {
    if exists i :: 0 <= i < k && i < |body| - 1 && Reported(body, rs, i, names) {
      var i :| 0 <= i < k && i < |body| - 1 && Reported(body, rs, i, names);
      if i < k - 1 {
        assert exists i :: 0 <= i < k - 1 && i < |body| - 1 && Reported(body, rs, i, names);
      }
    }
  }

  /**
   * What the result holds: a list of call names is reported exactly when it
   * belongs to a declaration (not the last statement) whose span some
   * changed range meets.
   */
  lemma {:induction false} MembersUpToContents(body: seq<Node>, rs: seq<LineRange>, k: int, names: seq<string>)
    requires 0 <= k <= |body|
    requires MembersUpTo(body, RangeList(rs), k).Ok?
    ensures names in MembersUpTo(body, RangeList(rs), k).value
            <==> exists i :: 0 <= i < k && i < |body| - 1 && Reported(body, rs, i, names)
    decreases k
  {
    if k > 0 {
      MembersUpToStep(body, rs, k);
      MembersUpToContents(body, rs, k - 1, names);
      ReportedStep(body, rs, k, names);
      var node := body[k - 1];
      if IsDeclaration(node) {
        RangeHitsContents(rs, DeclSpan(body, k - 1), node, names);
      }
    }
  }

  /** `find_changed_members` on a list of ranges reports exactly the declarations some range meets. */
  lemma ChangedMembersContents(body: seq<Node>, rs: seq<LineRange>, names: seq<string>)
    requires FindChangedMembers(body, RangeList(rs)).Ok?
    ensures names in FindChangedMembers(body, RangeList(rs)).value
            <==> exists i :: 0 <= i < |body| - 1 && Reported(body, rs, i, names)
  {
    MembersUpToContents(body, rs, |body|, names);
  }

  /** The line just before the next statement is never in a declaration's span. */
  lemma SpanMissesLineBeforeNext(body: seq<Node>, i: int)
    requires 0 <= i < |body| - 1
    ensures !InRange(DeclSpan(body, i), body[i + 1].lineno - 1)
  {
  }

  // ---------------------------------------------------------------------------
  // The evidently intended spans

  /**
   * `range(lineno, next.lineno)`, and for the last statement every line up
   * to the end of the file: the lines a statement actually owns.
   */
  function OwnedSpan(body: seq<Node>, i: int, lineCount: nat): LineRange
    requires 0 <= i < |body|
  {
    LineRange(body[i].lineno, if i + 1 < |body| then body[i + 1].lineno else lineCount + 1)
  }

  /** Statements in source order, all inside a file of `lineCount` lines. */
  predicate InSourceOrder(body: seq<Node>, lineCount: nat) {
    && (forall i :: 0 <= i < |body| - 1 ==> body[i].lineno < body[i + 1].lineno)
    && (|body| > 0 ==> body[|body| - 1].lineno <= lineCount)
  }

  lemma {:induction false} LinenoIncreasing(body: seq<Node>, lineCount: nat, i: int, j: int)
    requires InSourceOrder(body, lineCount)
    requires 0 <= i < j < |body|
    ensures body[i].lineno < body[j].lineno
    decreases j - i
  {
    if j > i + 1 {
      LinenoIncreasing(body, lineCount, i + 1, j);
    }
  }

  /**
   * The owned spans tile the file from the first statement to the last
   * line: every such line belongs to exactly one statement.
   */
  lemma OwnedSpansTile(body: seq<Node>, lineCount: nat, l: int)
    requires InSourceOrder(body, lineCount) && |body| > 0
    requires body[0].lineno <= l <= lineCount
    ensures exists i :: 0 <= i < |body| && InRange(OwnedSpan(body, i, lineCount), l)
    ensures forall i, j :: 0 <= i < j < |body| && InRange(OwnedSpan(body, i, lineCount), l)
                           ==> !InRange(OwnedSpan(body, j, lineCount), l)
  {
    OwnedSpanFind(body, lineCount, l, 0);
    forall i, j | 0 <= i < j < |body| && InRange(OwnedSpan(body, i, lineCount), l)
      ensures !InRange(OwnedSpan(body, j, lineCount), l)
    {
      if i + 1 < j {
        LinenoIncreasing(body, lineCount, i + 1, j);
      }
    }
  }

  lemma {:induction false} OwnedSpanFind(body: seq<Node>, lineCount: nat, l: int, i: int)
    requires InSourceOrder(body, lineCount)
    requires 0 <= i < |body| && body[i].lineno <= l <= lineCount
    ensures exists j :: i <= j < |body| && InRange(OwnedSpan(body, j, lineCount), l)
    decreases |body| - i
  {
    if !InRange(OwnedSpan(body, i, lineCount), l) {
      OwnedSpanFind(body, lineCount, l, i + 1);
    }
  }

  /** The owned span of a statement followed by another includes the line just before it. */
  lemma OwnedSpanHasLineBeforeNext(body: seq<Node>, lineCount: nat, i: int)
    requires InSourceOrder(body, lineCount)
    requires 0 <= i < |body| - 1
    ensures InRange(OwnedSpan(body, i, lineCount), body[i + 1].lineno - 1)
  {
  }

  /**
   * The changed lines as ranges: `None` changes nothing, and a list of line
   * numbers is one single-line range per number.
   */
  function AsRanges(lines: ChangedLines): (rs: seq<LineRange>)
    ensures lines.RangeList? ==> rs == lines.ranges
    ensures lines.LineList? ==> |rs| == |lines.lines|
                                && forall k :: 0 <= k < |rs| ==> Lines(rs[k]) == {lines.lines[k]}
    ensures lines.NoLines? ==> rs == []
  {
    match lines
    case NoLines => []
    case RangeList(rs) => rs
    case LineList(ls) =>
      var rs := seq(|ls|, k requires 0 <= k < |ls| => LineRange(ls[k], ls[k] + 1));
      assert forall k :: 0 <= k < |rs| ==> Lines(rs[k]) == {ls[k]} by {
        forall k | 0 <= k < |rs| ensures Lines(rs[k]) == {ls[k]} {
          assert ls[k] in Lines(rs[k]);
        }
      }
      rs
  }

  /** The corrected loop over the first `k` statements: owned spans, and nothing raised. */
  function FixedMembersUpTo(body: seq<Node>, rs: seq<LineRange>, lineCount: nat, k: int): seq<seq<string>>
    requires 0 <= k <= |body|
    decreases k
  {
    if k == 0 then []
    else
      var prev := FixedMembersUpTo(body, rs, lineCount, k - 1);
      if IsDeclaration(body[k - 1]) then prev + RangeHits(rs, OwnedSpan(body, k - 1, lineCount), body[k - 1])
      else prev
  }

  /** `find_changed_members` with owned spans and every kind of changed lines read as ranges. */
  function FindChangedMembersFixed(body: seq<Node>, lines: ChangedLines, lineCount: nat): seq<seq<string>>
  {
    FixedMembersUpTo(body, AsRanges(lines), lineCount, |body|)
  }

  /** Declaration `i` owns a line some changed range covers. */
  ghost predicate Touched(body: seq<Node>, rs: seq<LineRange>, lineCount: nat, i: int, names: seq<string>)
    requires 0 <= i < |body|
  {
    && IsDeclaration(body[i])
    && names == ExtractCalls(body[i])
    && exists k :: 0 <= k < |rs| && Overlaps(rs[k], OwnedSpan(body, i, lineCount))
  }

  /** Declarations before `k` that own a touched line: those before `k - 1`, and `k - 1` itself. */
  lemma TouchedStep(body: seq<Node>, rs: seq<LineRange>, lineCount: nat, k: int, names: seq<string>)
    requires 0 < k <= |body|
    ensures (exists i :: 0 <= i < k && Touched(body, rs, lineCount, i, names))
            <==> (exists i :: 0 <= i < k - 1 && Touched(body, rs, lineCount, i, names))
                 || Touched(body, rs, lineCount, k - 1, names)
  {
    if exists i :: 0 <= i < k && Touched(body, rs, lineCount, i, names) {
      var i :| 0 <= i < k && Touched(body, rs, lineCount, i, names);
      if i < k - 1 {
        assert exists i :: 0 <= i < k - 1 && Touched(body, rs, lineCount, i, names);
      }
    }
  }

  /** A declaration's hits report its names exactly when it owns a touched line. */
  lemma TouchedHits(body: seq<Node>, rs: seq<LineRange>, lineCount: nat, i: int, names: seq<string>)
    requires 0 <= i < |body| && IsDeclaration(body[i])
    ensures names in RangeHits(rs, OwnedSpan(body, i, lineCount), body[i]) <==> Touched(body, rs, lineCount, i, names)
  {
    RangeHitsContents(rs, OwnedSpan(body, i, lineCount), body[i], names);
  }

  lemma {:induction false} FixedMembersUpToContents(body: seq<Node>, rs: seq<LineRange>, lineCount: nat, k: int, names: seq<string>)
    requires 0 <= k <= |body|
    ensures names in FixedMembersUpTo(body, rs, lineCount, k)
            <==> exists i :: 0 <= i < k && Touched(body, rs, lineCount, i, names)
    decreases k
  {
    if k > 0 {
      FixedMembersUpToContents(body, rs, lineCount, k - 1, names);
      TouchedStep(body, rs, lineCount, k, names);
      if IsDeclaration(body[k - 1]) {
        TouchedHits(body, rs, lineCount, k - 1, names);
      }
    }
  }


  /**
   * The corrected loop never fails and reports a declaration, the last one
   * included, exactly when a changed range meets a line it owns.
   */
  lemma FixedChangedMembersContents(body: seq<Node>, lines: ChangedLines, lineCount: nat, names: seq<string>)
    ensures names in FindChangedMembersFixed(body, lines, lineCount)
            <==> exists i :: 0 <= i < |body| && Touched(body, AsRanges(lines), lineCount, i, names)
  {
    FixedMembersUpToContents(body, AsRanges(lines), lineCount, |body|, names);
  }

  // ---------------------------------------------------------------------------
  // Two modules on which the written spans go wrong

  /** `def f` on line 1 with its body on line 2, `def g` on line 3, another statement on line 4. */
  function TwoFunctions(): seq<Node> {
    [FunctionDef("f", 1, []), FunctionDef("g", 3, []), Other(4, [])]
  }

  /** A change to line 2, the body of `f`, is missed as written and found with owned spans. */
  lemma BodyLineMissed()
    ensures FindChangedMembers(TwoFunctions(), RangeList([LineRange(2, 3)])) == Ok([])
    ensures FindChangedMembersFixed(TwoFunctions(), RangeList([LineRange(2, 3)]), 4)
            == [ExtractCalls(FunctionDef("f", 1, []))]
  {
    WrittenSpansMissBody();
    OwnedSpansFindBody();
  }

  lemma WrittenSpansMissBody()
    ensures FindChangedMembers(TwoFunctions(), RangeList([LineRange(2, 3)])) == Ok([])
  {
    var body := TwoFunctions();
    var rs := [LineRange(2, 3)];
    assert !Overlaps(rs[0], DeclSpan(body, 0));
    assert !Overlaps(rs[0], DeclSpan(body, 1));
    assert HitIndices(rs, DeclSpan(body, 0)) == {};
    assert HitIndices(rs, DeclSpan(body, 1)) == {};
  }

  lemma OwnedSpansFindBody()
    ensures FindChangedMembersFixed(TwoFunctions(), RangeList([LineRange(2, 3)]), 4)
            == [ExtractCalls(FunctionDef("f", 1, []))]
  {
    var body := TwoFunctions();
    var rs := [LineRange(2, 3)];
    assert Overlaps(rs[0], OwnedSpan(body, 0, 4));
    assert !Overlaps(rs[0], OwnedSpan(body, 1, 4));
    assert HitIndices(rs, OwnedSpan(body, 0, 4)) == {0};
    assert HitIndices(rs, OwnedSpan(body, 1, 4)) == {};
    var first := [ExtractCalls(body[0])];
    assert FixedMembersUpTo(body, rs, 4, 1) == first;
    assert FixedMembersUpTo(body, rs, 4, 2) == first;
    assert FixedMembersUpTo(body, rs, 4, 3) == first;
  }

  /** A module that ends with a function fails with `IndexError` as written. */
  lemma LastFunctionRaises()
    ensures FindChangedMembers([FunctionDef("f", 1, [])], RangeList([LineRange(1, 2)])).Err?
    ensures FindChangedMembersFixed([FunctionDef("f", 1, [])], RangeList([LineRange(1, 2)]), 1)
            == [ExtractCalls(FunctionDef("f", 1, []))]
  {
    var body := [FunctionDef("f", 1, [])];
    var rs := [LineRange(1, 2)];
    assert Overlaps(rs[0], OwnedSpan(body, 0, 1));
    assert HitIndices(rs, OwnedSpan(body, 0, 1)) == {0};
  }
}

=== FILE: diffs.dfy ===
/**
 * What both generations of `find_changed_files` share: the diff entry they
 * read, the line-range values they build, and the expression that pulls the
 * line specification out of the first hunk header of a patch.
 *
 * The hunk header is the one of the GNU unified diff format,
 * `@@ -<start>[,<count>] +<start>[,<count>] @@`, where a count of 1 is
 * left out.
 */
module Diffs {

  import opened Outcome
  import opened PyStr

  /**
   * One entry of `repo.head.commit.diff("HEAD~1", create_patch=True)`:
   * the change letter, both paths and the patch text (already decoded).
   */
  datatype DiffEntry = DiffEntry(changeType: string, aPath: string, bPath: string, patch: string)

  /** A path as Python holds it: `a_path` and `b_path` are `str`, `b_rawpath` is `bytes`. */
  datatype PathValue = Str(text: string) | Bytes(raw: string)

  /** `range(start, stop)`: the lines `start <= l < stop`. */
  datatype LineRange = LineRange(start: int, stop: int)

  /**
   * The `changed_lines` attribute of a changed-file record: `None`, a list
   * of line numbers, or a list of `range` objects.
   */
  datatype ChangedLines = NoLines | LineList(lines: seq<int>) | RangeList(ranges: seq<LineRange>)

  predicate InRange(r: LineRange, l: int) {
    r.start <= l < r.stop
  }

  /** `set(r)` */
  ghost function Lines(r: LineRange): set<int> {
    set l | r.start <= l < r.stop && InRange(r, l)
  }

  /** `len(r)` of a Python range: how many lines it holds. */
  function RangeLength(r: LineRange): nat {
    if r.stop <= r.start then 0 else r.stop - r.start
  }

  // ---------------------------------------------------------------------------
  // The line specification of the first hunk header

  /**
   * `d.diff.decode('utf-8').replace('\r', '').split('\n')[0].split('@@')[1]
   *  .strip().replace('+', '').replace('-', '')`: the text between the first
   * two `@@` of the first line, stripped, with every `+` and `-` removed.
   * `IndexError` when the first line holds no `@@` (an empty patch too).
   */
  function HunkSpec(patch: string): (r: Result<string>)
    ensures r.Ok? ==> '+' !in r.value && '-' !in r.value
    ensures r.Err? ==> r.error.IndexError?
  {
    var line := SplitOn(RemoveAll(patch, '\r'), "\n")[0];
    var pieces := SplitOn(line, "@@");
    if |pieces| < 2 then Err(IndexError("list index out of range"))
    else
      var cleaned := RemoveAll(Strip(pieces[1]), '+');
      RemoveAllMembers(cleaned, '-', '+');
      Ok(RemoveAll(cleaned, '-'))
  }

  /** Only the first line of a patch is read: later hunks and lines change nothing. */
  lemma HunkSpecReadsFirstLine(line: string, rest: string)
    requires '\n' !in line
    ensures HunkSpec(line + "\n" + rest) == HunkSpec(line)
  {
    RemoveAllConcat(line + "\n", rest, '\r');
    RemoveAllConcat(line, "\n", '\r');
    RemoveAllAbsent("\n", '\r');
    var l := RemoveAll(line, '\r');
    RemoveAllMembers(line, '\r', '\n');
    SplitFirstPiece(l, RemoveAll(rest, '\r'), "\n");
    SplitOnNone(l, "\n");
  }

  /** A patch without any `@` (a binary or content-free diff, the empty patch) fails with `IndexError`. */
  lemma NoHeaderFails(patch: string)
    requires '@' !in patch
    ensures HunkSpec(patch) == Err(IndexError("list index out of range"))
  {
    var cleaned := RemoveAll(patch, '\r');
    SplitFirstIsPrefix(cleaned, "\n");
    var line := SplitOn(cleaned, "\n")[0];
    RemoveAllMembers(patch, '\r', '@');
    SplitOnNone(line, "@@");
  }

  // ---------------------------------------------------------------------------
  // Rendering a hunk header

  /** One side of a hunk header: a start line and a count that may be left out. */
  datatype Side = Side(start: nat, count: Option<nat>)

  /** `start` or `start,count` */
  function SideText(s: Side): string {
    Decimal(s.start) + (if s.count.Some? then "," + Decimal(s.count.value) else "")
  }

  /** `@@ -<pre> +<post> @@` */
  function HunkHeader(pre: Side, post: Side): string {
    "@@ -" + SideText(pre) + " +" + SideText(post) + " @@"
  }

  /** The lines a side of a hunk covers under the unified format: the count defaults to 1. */
  function SideRange(s: Side): LineRange {
    LineRange(s.start, s.start + (if s.count.Some? then s.count.value else 1))
  }

  /** Text made only of digits and commas. */
  predicate NumberText(t: string) {
    forall i :: 0 <= i < |t| ==> IsDigit(t[i]) || t[i] == ','
  }

  lemma SideTextChars(s: Side)
    ensures |SideText(s)| > 0 && NumberText(SideText(s))
    ensures IsDigit(SideText(s)[|SideText(s)| - 1])
  {
    var t := SideText(s);
    var d := Decimal(s.start);
    if s.count.Some? {
      var c := Decimal(s.count.value);
      assert t == d + ([','] + c);
      forall i | 0 <= i < |t| ensures IsDigit(t[i]) || t[i] == ',' {
        if i < |d| {
          assert t[i] == d[i];
        } else if i > |d| {
          assert t[i] == c[i - |d| - 1];
        }
      }
      assert t[|t| - 1] == c[|c| - 1];
    } else {
      assert t == d;
    }
  }

  lemma NumberTextFree(t: string, c: char)
    requires NumberText(t)
    requires !IsDigit(c) && c != ','
    ensures c !in t
  {
  }

  /** The first line of a patch that starts with a header is the header and the rest of its line. */
  lemma HeaderLine(h: string, tail: string)
    requires '\r' !in h && '\n' !in h
    ensures SplitOn(RemoveAll(h + tail, '\r'), "\n")[0] == h + SplitOn(RemoveAll(tail, '\r'), "\n")[0]
  {
    RemoveAllConcat(h, tail, '\r');
    RemoveAllAbsent(h, '\r');
    SplitOnPrefix(h, RemoveAll(tail, '\r'), "\n");
  }

  /** The second `@@`-piece of `@@x@@...` is `x`. */
  lemma SecondAtPiece(x: string, after: string)
    requires '@' !in x
    ensures |SplitOn("@@" + x + "@@" + after, "@@")| >= 2
    ensures SplitOn("@@" + x + "@@" + after, "@@")[1] == x
  {
    assert "@@" + x + "@@" + after == "@@" + (x + "@@" + after);
    SplitOnLeadingSep(x + "@@" + after, "@@");
    SplitFirstPiece(x, after, "@@");
  }

  lemma {:induction false} DropPlus(s1: string, s2: string)
    requires '+' !in s1 && '+' !in s2
    ensures RemoveAll("-" + s1 + " +" + s2, '+') == "-" + s1 + " " + s2
  {
    var a := "-" + s1 + " ";
    assert "-" + s1 + " +" + s2 == a + ['+'] + s2;
    RemoveOne(a, s2, '+');
  }

  lemma {:induction false} DropMinus(s1: string, s2: string)
    requires '-' !in s1 && '-' !in s2
    ensures RemoveAll("-" + s1 + " " + s2, '-') == s1 + " " + s2
  {
    var b := s1 + " " + s2;
    assert "-" + s1 + " " + s2 == [] + ['-'] + b;
    RemoveOne([], b, '-');
  }

  /** Stripping ` -s1 +s2 ` and dropping the signs leaves `s1 s2`. */
  lemma {:induction false} CleanSpec(s1: string, s2: string)
    requires NumberText(s1) && NumberText(s2)
    requires |s2| > 0 && IsDigit(s2[|s2| - 1])
    ensures RemoveAll(RemoveAll(Strip(" -" + s1 + " +" + s2 + " "), '+'), '-') == s1 + " " + s2
  {
    var m := "-" + s1 + " +" + s2;
    assert " -" + s1 + " +" + s2 + " " == " " + m + " ";
    StripPadded(" ", m, " ");
    NumberTextFree(s1, '+'); NumberTextFree(s2, '+');
    NumberTextFree(s1, '-'); NumberTextFree(s2, '-');
    DropPlus(s1, s2);
    DropMinus(s1, s2);
  }

  /**
   * The line specification read back from a rendered header is the two
   * sides separated by one space, whatever follows the header.
   */
  lemma {:induction false} HunkSpecOfHeader(pre: Side, post: Side, tail: string)
    ensures HunkSpec(HunkHeader(pre, post) + tail) == Ok(SideText(pre) + " " + SideText(post))
  {
    var s1 := SideText(pre);
    var s2 := SideText(post);
    SideTextChars(pre);
    SideTextChars(post);
    NumberTextFree(s1, '\r'); NumberTextFree(s2, '\r');
    NumberTextFree(s1, '\n'); NumberTextFree(s2, '\n');
    NumberTextFree(s1, '@'); NumberTextFree(s2, '@');
    var h := HunkHeader(pre, post);
    var x := " -" + s1 + " +" + s2 + " ";
    assert h == "@@" + x + "@@";
    HeaderLine(h, tail);
    var after := SplitOn(RemoveAll(tail, '\r'), "\n")[0];
    SecondAtPiece(x, after);
    assert h + after == "@@" + x + "@@" + after;
    CleanSpec(s1, s2);
  }

  // ---------------------------------------------------------------------------
  // Added files

  /**
   * `list(range(1, len(f.readlines())))` for a file of `n` lines: the
   * numbers `1 .. n - 1`, in order.
   */
  function AddedLines(n: nat): (r: seq<int>)
    ensures |r| == if n == 0 then 0 else n - 1
    ensures forall i :: 0 <= i < |r| ==> r[i] == i + 1
  {
    if n <= 1 then [] else AddedLines(n - 1) + [n - 1]
  }

  /** The last line of an added file is never among its changed lines, and a one-line file has none. */
  lemma AddedMissesLastLine(n: nat)
    requires n >= 1
    ensures n !in AddedLines(n)
    ensures n == 1 ==> AddedLines(n) == []
  {
  }

  /**
   * Every line of an `n`-line file, `1 .. n`: what an added file evidently
   * should report, since all of its lines are new.
   */
  function AllFileLines(n: nat): (r: seq<int>)
    ensures |r| == n
    ensures forall i :: 0 <= i < |r| ==> r[i] == i + 1
  {
    if n == 0 then [] else AllFileLines(n - 1) + [n]
  }

  /** The corrected list holds exactly the lines of the file, the last one included. */
  lemma AllFileLinesCover(n: nat, l: int)
    ensures l in AllFileLines(n) <==> 1 <= l <= n
  {
    if 1 <= l <= n {
      assert AllFileLines(n)[l - 1] == l;
    }
  }

  /** As written, the last line of an added file is missing: `n` lies in the corrected list but not in `AddedLines(n)`. */
  lemma AddedLinesDropLast(n: nat)
    requires n >= 1
    ensures AddedLines(n) + [n] == AllFileLines(n)
  {
    var a := AddedLines(n) + [n];
    assert |a| == n;
    assert forall i :: 0 <= i < n ==> a[i] == i + 1;
  }
}

=== FILE: legacy_helpers.dfy ===
/**
 * `find_changed_files` and `find_changed_members` of the older helper module
 * `pytest_smartcollect_helpers.py`.
 *
 * Every diff entry yields a record keyed by its path, with no extension
 * filter, and a Modified entry was meant to carry the sorted union of the
 * lines of its two hunk ranges.  The range endpoints are never converted to
 * `int`, so as written a Modified entry can only raise; `ModifiedMerged` is
 * the branch with the conversion.
 */
module LegacyHelpers {

  import opened Outcome
  import opened PyStr
  import opened PyDict
  import opened Diffs
  import opened ChangedFiles
  import opened Results

  /** `ChangedFile(change_type, filepath, changed_lines)` of the older module: no old path. */
  datatype LegacyFile = LegacyFile(changeType: string, path: PathValue, changedLines: ChangedLines)

  // ---------------------------------------------------------------------------
  // The Modified branch as written

  /** `a, b = t.split(',')` succeeds: exactly two pieces. */
  predicate Unpacks(t: string) {
    |SplitOn(t, ",")| == 2
  }

  /**
   * The Modified branch on a line specification.  The unpacked pieces stay
   * strings, `start + count` concatenates them, and `range` refuses a
   * string: the branch raises `ValueError` when an unpack finds the wrong
   * number of pieces and `TypeError` otherwise.
   */
  function ModifiedAsWritten(spec: string): (r: Result<ChangedLines>)
    ensures r.Err?
    ensures var rs := SplitOn(spec, " ");
            r.error.TypeError? <==> Unpacks(rs[0]) && (|rs| < 2 || Unpacks(rs[1]))
    ensures r.error.ValueError? || r.error.TypeError?
  {
    var rs := SplitOn(spec, " ");
    if |rs| < 2 then
      if !Unpacks(rs[0]) then Err(ValueError("wrong number of values to unpack"))
      else Err(TypeError("'str' object cannot be interpreted as an integer"))
    else if !Unpacks(rs[0]) || !Unpacks(rs[1]) then Err(ValueError("wrong number of values to unpack"))
    else Err(TypeError("'str' object cannot be interpreted as an integer"))
  }

  /**
   * Even a well-formed header with both counts fails: the unpacks succeed
   * and `range` then receives strings.  A count left out fails the unpack.
   */
  lemma {:induction false} ModifiedHeaderFails(pre: Side, post: Side)
    ensures var r := ModifiedAsWritten(SideText(pre) + " " + SideText(post));
            r.Err? && (r.error.TypeError? <==> pre.count.Some? && post.count.Some?)
  {
    var rs := SplitOn(SideText(pre) + " " + SideText(post), " ");
    SpecPieces(pre, post);
    assert |rs| == 2 && rs[0] == SideText(pre) && rs[1] == SideText(post);
    SideUnpacks(pre);
    SideUnpacks(post);
  }

  /** A rendered header side unpacks into two exactly when its count is written. */
  lemma SideUnpacks(s: Side)
    ensures Unpacks(SideText(s)) <==> s.count.Some?
  {
    SidePieces(s);
  }

  // ---------------------------------------------------------------------------
  // The sorted union of two ranges

  predicate Increasing(xs: seq<int>) {
    forall i, j :: 0 <= i < j < |xs| ==> xs[i] < xs[j]
  }

  /** `sorted(list(range(start, stop)))` */
  function Interval(g: LineRange): (r: seq<int>)
    ensures |r| == RangeLength(g)
    ensures forall i :: 0 <= i < |r| ==> r[i] == g.start + i
    decreases g.stop - g.start
  {
    if g.stop <= g.start then [] else [g.start] + Interval(LineRange(g.start + 1, g.stop))
  }

  lemma IntervalMembers(g: LineRange, l: int)
    ensures l in Interval(g) <==> InRange(g, l)
    ensures Increasing(Interval(g))
  {
    if InRange(g, l) {
      assert Interval(g)[l - g.start] == l;
    }
  }

  /** The union of two increasing lists as an increasing list without repeats. */
  function Merge(xs: seq<int>, ys: seq<int>): seq<int>
    decreases |xs| + |ys|
  {
    if |xs| == 0 then ys
    else if |ys| == 0 then xs
    else if xs[0] < ys[0] then [xs[0]] + Merge(xs[1..], ys)
    else if ys[0] < xs[0] then [ys[0]] + Merge(xs, ys[1..])
    else [xs[0]] + Merge(xs[1..], ys[1..])
  }

  lemma {:induction false} MergeMembers(xs: seq<int>, ys: seq<int>, l: int)
    ensures l in Merge(xs, ys) <==> l in xs || l in ys
    decreases |xs| + |ys|
  {
    if |xs| > 0 && |ys| > 0 {
      assert xs == [xs[0]] + xs[1..] && ys == [ys[0]] + ys[1..];
      if xs[0] < ys[0] {
        MergeMembers(xs[1..], ys, l);
      } else if ys[0] < xs[0] {
        MergeMembers(xs, ys[1..], l);
      } else {
        MergeMembers(xs[1..], ys[1..], l);
      }
    }
  }

  lemma ConsIncreasing(x: int, m: seq<int>)
    requires Increasing(m)
    requires forall j :: 0 <= j < |m| ==> x < m[j]
    ensures Increasing([x] + m)
  {
    var r := [x] + m;
    forall i, j | 0 <= i < j < |r| ensures r[i] < r[j] {
      assert r[j] == m[j - 1];
      if i > 0 {
        assert r[i] == m[i - 1];
      }
    }
  }

  /** Every element of the merge is at least the smaller head. */
  lemma MergeAbove(xs: seq<int>, ys: seq<int>, x: int)
    requires Increasing(xs) && Increasing(ys)
    requires forall i :: 0 <= i < |xs| ==> x < xs[i]
    requires forall i :: 0 <= i < |ys| ==> x < ys[i]
    ensures forall j :: 0 <= j < |Merge(xs, ys)| ==> x < Merge(xs, ys)[j]
  {
    forall j | 0 <= j < |Merge(xs, ys)| ensures x < Merge(xs, ys)[j] {
      MergeMembers(xs, ys, Merge(xs, ys)[j]);
    }
  }

  lemma {:induction false} MergeIncreasing(xs: seq<int>, ys: seq<int>)
    requires Increasing(xs) && Increasing(ys)
    ensures Increasing(Merge(xs, ys))
    decreases |xs| + |ys|
  {
    if |xs| > 0 && |ys| > 0 {
      if xs[0] < ys[0] {
        MergeIncreasing(xs[1..], ys);
        MergeAbove(xs[1..], ys, xs[0]);
        ConsIncreasing(xs[0], Merge(xs[1..], ys));
      } else if ys[0] < xs[0] {
        MergeIncreasing(xs, ys[1..]);
        MergeAbove(xs, ys[1..], ys[0]);
        ConsIncreasing(ys[0], Merge(xs, ys[1..]));
      } else {
        MergeIncreasing(xs[1..], ys[1..]);
        MergeAbove(xs[1..], ys[1..], xs[0]);
        ConsIncreasing(xs[0], Merge(xs[1..], ys[1..]));
      }
    }
  }

  /** No value lies in both lists. */
  predicate Disjoint(xs: seq<int>, ys: seq<int>) {
    forall l :: l in xs ==> l !in ys
  }

  lemma {:induction false} MergeLength(xs: seq<int>, ys: seq<int>)
    requires Increasing(xs) && Increasing(ys)
    ensures |Merge(xs, ys)| <= |xs| + |ys|
    ensures |Merge(xs, ys)| == |xs| + |ys| <==> Disjoint(xs, ys)
    decreases |xs| + |ys|
  {
    if |xs| > 0 && |ys| > 0 {
      assert xs == [xs[0]] + xs[1..] && ys == [ys[0]] + ys[1..];
      if xs[0] < ys[0] {
        MergeLength(xs[1..], ys);
        assert xs[0] !in ys;
      } else if ys[0] < xs[0] {
        MergeLength(xs, ys[1..]);
        assert ys[0] !in xs;
      } else {
        MergeLength(xs[1..], ys[1..]);
        assert xs[0] in xs && xs[0] in ys;
      }
    }
  }

  /**
   * `sorted(list(set(range(ps, ps + pc)).union(set(range(qs, qs + qc)))))`
   * once the endpoints are numbers.
   */
  function MergedLines(a: LineRange, b: LineRange): (r: seq<int>)
    ensures |r| <= RangeLength(a) + RangeLength(b)
  {
    IntervalMembers(a, a.start);
    IntervalMembers(b, b.start);
    MergeLength(Interval(a), Interval(b));
    Merge(Interval(a), Interval(b))
  }

  /**
   * The merged list is strictly increasing, holds exactly the lines of
   * either range, and is as long as both ranges together exactly when they
   * share no line.
   */
  lemma MergedLinesSpec(a: LineRange, b: LineRange, l: int)
    ensures Increasing(MergedLines(a, b))
    ensures l in MergedLines(a, b) <==> InRange(a, l) || InRange(b, l)
    ensures |MergedLines(a, b)| == RangeLength(a) + RangeLength(b)
            <==> forall m :: InRange(a, m) ==> !InRange(b, m)
  {
    IntervalMembers(a, l);
    IntervalMembers(b, l);
    MergeIncreasing(Interval(a), Interval(b));
    MergeMembers(Interval(a), Interval(b), l);
    MergeLength(Interval(a), Interval(b));
    if Disjoint(Interval(a), Interval(b)) {
      forall m | InRange(a, m) ensures !InRange(b, m) {
        IntervalMembers(a, m);
        IntervalMembers(b, m);
      }
    }
    if forall m :: InRange(a, m) ==> !InRange(b, m) {
      forall m | m in Interval(a) ensures m !in Interval(b) {
        IntervalMembers(a, m);
        IntervalMembers(b, m);
      }
    }
  }

  /**
   * The Modified branch with the conversion to `int` it evidently lacks:
   * each side read as in the unified format, one side giving its lines in
   * order and two giving the sorted union.
   */
  function ModifiedMerged(spec: string): (r: Result<ChangedLines>)
    ensures r.Ok? <==> ModifiedRangesFixed(spec).Ok?
    ensures r.Ok? ==> r.value.LineList? && Increasing(r.value.lines)
  {
    var rl :- ModifiedRangesFixed(spec);
    var g := rl.ranges;
    if |g| == 1 then
      IntervalMembers(g[0], g[0].start);
      Ok(LineList(Interval(g[0])))
    else
      MergedLinesSpec(g[0], g[1], g[0].start);
      Ok(LineList(MergedLines(g[0], g[1])))
  }

  /** A rendered header reads back as the sorted union of its two unified-format ranges. */
  lemma {:induction false} ModifiedMergedOfHeader(pre: Side, post: Side)
    ensures ModifiedMerged(SideText(pre) + " " + SideText(post)) == Ok(LineList(MergedLines(SideRange(pre), SideRange(post))))
  {
    ModifiedFixedOfHeader(pre, post);
  }

  // ---------------------------------------------------------------------------
  // Dispatch and the whole diff

  /** The `if`/`elif` chain on `d.change_type`, given the entry's line specification. */
  function LegacyDispatch(d: DiffEntry, spec: string, files: FileLines): (r: Result<LegacyFile>)
    ensures d.changeType == "M" ==> r.Err?
    ensures !KnownChange(d.changeType) ==> r == Err(UnknownChangeType(d.changeType))
    ensures d.changeType == "A" ==> (r.Ok? <==> d.aPath in files)
    ensures r.Ok? ==> r.value.changeType == d.changeType
    ensures r.Ok? ==> r.value.path == (if d.changeType == "T" then Bytes(d.bPath)
                                       else if d.changeType == "R" then Str(d.bPath) else Str(d.aPath))
    ensures r.Ok? ==> (r.value.changedLines.NoLines? <==> d.changeType != "A")
    ensures r.Ok? && d.changeType == "A" ==> d.aPath in files && r.value.changedLines == LineList(AddedLines(files[d.aPath]))
  {
    if d.changeType == "A" then
      if d.aPath !in files then Err(FileNotFound(d.aPath))
      else Ok(LegacyFile("A", Str(d.aPath), LineList(AddedLines(files[d.aPath]))))
    else if d.changeType == "M" then
      // `ModifiedAsWritten` never succeeds, so the branch only ever raises
      Err(ModifiedAsWritten(spec).error)
    else if d.changeType == "D" then Ok(LegacyFile("D", Str(d.aPath), NoLines))
    else if d.changeType == "R" then Ok(LegacyFile("R", Str(d.bPath), NoLines))
    else if d.changeType == "T" then Ok(LegacyFile("T", Bytes(d.bPath), NoLines))
    else Err(UnknownChangeType(d.changeType))
  }

  /** One pass of the loop body: the header first, then the branch; there is no extension filter. */
  function LegacyEntry(d: DiffEntry, files: FileLines): (r: Result<LegacyFile>)
    ensures HunkSpec(d.patch).Err? ==> r == HunkSpec(d.patch).PropagateFailure()
    ensures HunkSpec(d.patch).Ok? ==> r == LegacyDispatch(d, HunkSpec(d.patch).value, files)
  {
    var spec :- HunkSpec(d.patch);
    LegacyDispatch(d, spec, files)
  }

  /** The records keyed by their paths. */
  function Keyed(recs: seq<LegacyFile>): (es: seq<Entry<PathValue, LegacyFile>>)
    ensures |es| == |recs|
    ensures forall i :: 0 <= i < |recs| ==> es[i] == Entry(recs[i].path, recs[i])
  {
    seq(|recs|, i requires 0 <= i < |recs| => Entry(recs[i].path, recs[i]))
  }

  /** `changed_files[filepath] = record` for every record, in order. */
  function Store(recs: seq<LegacyFile>): (d: Dict<PathValue, LegacyFile>)
    ensures DistinctKeys(d)
    ensures forall i :: 0 <= i < |d| ==> d[i].key == d[i].value.path
  {
    var es := Keyed(recs);
    PutAllShape([], es);
    var d := PutAll([], es);
    assert forall i :: 0 <= i < |d| ==> d[i].key == d[i].value.path by {
      forall i | 0 <= i < |d| ensures d[i].key == d[i].value.path {
        var j :| 0 <= j < |es| && es[j] == d[i];
      }
    }
    d
  }

  /** The outcome of each entry of the diff, in order. */
  function LegacyRecords(diffs: seq<DiffEntry>, files: FileLines): (rs: seq<Result<LegacyFile>>)
    ensures |rs| == |diffs|
    ensures forall i :: 0 <= i < |diffs| ==> rs[i] == LegacyEntry(diffs[i], files)
  {
    seq(|diffs|, i requires 0 <= i < |diffs| => LegacyEntry(diffs[i], files))
  }

  /** `find_changed_files(repo)` of the older module on the entries of the diff. */
  function LegacyFindChangedFiles(diffs: seq<DiffEntry>, files: FileLines): (r: Result<Dict<PathValue, LegacyFile>>)
    ensures r.Ok? <==> forall i :: 0 <= i < |diffs| ==> LegacyEntry(diffs[i], files).Ok?
    ensures r.Ok? ==> DistinctKeys(r.value) && forall i :: 0 <= i < |r.value| ==> r.value[i].key == r.value[i].value.path
    ensures r.Err? ==> exists i :: 0 <= i < |diffs| && LegacyEntry(diffs[i], files) == Err(r.error)
                                   && forall j :: 0 <= j < i ==> LegacyEntry(diffs[j], files).Ok?
  {
    var recs :- AllOk(LegacyRecords(diffs, files));
    Ok(Store(recs))
  }

  /** Every entry of the diff yields a key: its own path, whatever its extension. */
  lemma LegacyKeys(diffs: seq<DiffEntry>, files: FileLines, k: PathValue)
    requires LegacyFindChangedFiles(diffs, files).Ok?
    ensures k in Keys(LegacyFindChangedFiles(diffs, files).value)
            <==> exists j :: 0 <= j < |diffs| && LegacyEntry(diffs[j], files).value.path == k
  {
    var recs := AllOk(LegacyRecords(diffs, files)).value;
    var es := Keyed(recs);
    PutAllKeys([], es, k);
    assert |Keys<PathValue, LegacyFile>([])| == 0;
    assert forall j :: 0 <= j < |diffs| ==> es[j].key == LegacyEntry(diffs[j], files).value.path;
  }

  /** The record stored under a path is that of the last entry for the path. */
  lemma LegacyLastRecordWins(diffs: seq<DiffEntry>, files: FileLines, j: int)
    requires LegacyFindChangedFiles(diffs, files).Ok?
    requires 0 <= j < |diffs|
    requires forall j' :: j < j' < |diffs| ==> LegacyEntry(diffs[j'], files).value.path != LegacyEntry(diffs[j], files).value.path
    ensures Get(LegacyFindChangedFiles(diffs, files).value, LegacyEntry(diffs[j], files).value.path)
            == Some(LegacyEntry(diffs[j], files).value)
  {
    var recs := AllOk(LegacyRecords(diffs, files)).value;
    var es := Keyed(recs);
    PutAllLastWins([], es, j);
  }

  /** As written, a diff that holds any Modified entry makes the whole call raise. */
  lemma ModifiedDiffFails(diffs: seq<DiffEntry>, files: FileLines, j: int)
    requires 0 <= j < |diffs| && diffs[j].changeType == "M"
    ensures LegacyFindChangedFiles(diffs, files).Err?
  {
    assert LegacyEntry(diffs[j], files).Err?;
    assert LegacyRecords(diffs, files)[j].Err?;
  }

  /** The corrected Modified branch, which the rest of the module would use in place of `ModifiedAsWritten`. */
  function LegacyEntryFixed(d: DiffEntry, files: FileLines): (r: Result<LegacyFile>)
    ensures d.changeType != "M" ==> r == LegacyEntry(d, files)
    ensures r.Ok? && d.changeType == "M" ==> r.value.changedLines.LineList? && Increasing(r.value.changedLines.lines)
  {
    if d.changeType == "M" then
      var spec :- HunkSpec(d.patch);
      var lines :- ModifiedMerged(spec);
      Ok(LegacyFile("M", Str(d.aPath), lines))
    else LegacyEntry(d, files)
  }

  /** A Modified entry with a rendered header fails as written and yields the merged lines when corrected. */
  lemma {:induction false} ModifiedEntryOfHeader(a: string, b: string, pre: Side, post: Side, tail: string, files: FileLines)
    ensures LegacyEntry(DiffEntry("M", a, b, HunkHeader(pre, post) + tail), files).Err?
    ensures LegacyEntryFixed(DiffEntry("M", a, b, HunkHeader(pre, post) + tail), files)
            == Ok(LegacyFile("M", Str(a), LineList(MergedLines(SideRange(pre), SideRange(post)))))
  {
    HunkSpecOfHeader(pre, post, tail);
    ModifiedMergedOfHeader(pre, post);
  }

  // ---------------------------------------------------------------------------
  // find_changed_members

  /** The body of the older `find_changed_members` is `pass`: it returns `None` whatever the record. */
  function LegacyChangedMembers(c: LegacyFile): Option<seq<string>> {
    None
  }
}

=== FILE: legacy_plugin.dfy ===
/**
 * `pytest_collection_modifyitems` of the older plugin `pytest_smartcollect.py`:
 * each test is either kept or removed from `items`, and the removals are
 * carried out by popping the recorded indices in increasing order, each one
 * shifted down by the number already popped.
 *
 * The changed-file dictionary and the collaborators (`import_module` and
 * `find_changed_members`) are inputs.
 */
module LegacyPlugin {

  import opened Outcome
  import opened PyDict
  import opened Ast
  import opened Visitors
  import opened Diffs
  import opened ChangedFiles
  import opened LegacyHelpers
  import opened Results
  import opened Plugin

  /** What `import_module` gives for a name, and the changed members of a changed record (`None` from the stub). */
  datatype LegacyEnv = LegacyEnv(resolve: string -> Imported, membersOf: LegacyFile -> Option<seq<string>>)

  /** A collected test: its function's name and its module's statements. */
  datatype LegacyItem = LegacyItem(name: string, body: seq<Node>)

  // ---------------------------------------------------------------------------
  // The removal decision for one test

  /** `imp.module` for each `from`-import among the top-level statements, in order. */
  function FromImports(body: seq<Node>): (ms: seq<Option<string>>)
    ensures |ms| <= |body|
  {
    if |body| == 0 then []
    else (if body[0].ImportFrom? then [body[0].moduleName] else []) + FromImports(body[1..])
  }

  /**
   * Only top-level `from`-imports are read: plain `import` statements and
   * imports nested in other statements contribute nothing.
   */
  lemma {:induction false} FromImportsContents(body: seq<Node>, m: Option<string>)
    ensures m in FromImports(body) <==> exists i :: 0 <= i < |body| && body[i].ImportFrom? && body[i].moduleName == m
  {
    if |body| > 0 {
      FromImportsContents(body[1..], m);
      assert forall i :: 1 <= i < |body| ==> body[i] == body[1..][i - 1];
      if exists i :: 0 <= i < |body[1..]| && body[1..][i].ImportFrom? && body[1..][i].moduleName == m {
        var i :| 0 <= i < |body[1..]| && body[1..][i].ImportFrom? && body[1..][i].moduleName == m;
        assert body[i + 1] == body[1..][i];
      }
    }
  }

  /** The record stored under the `__file__` of the module `m` loads, if that file is a changed one. */
  function ChangedRecord(m: Option<string>, changed: Dict<PathValue, LegacyFile>, env: LegacyEnv): Option<LegacyFile> {
    if m.Some? && m.value != "" && env.resolve(m.value).Loaded? && env.resolve(m.value).file.Some?
    then Get(changed, Str(env.resolve(m.value).file.value))
    else None
  }

  /**
   * One iteration of `for imp in imports`.  Nothing is caught: `from . import x`
   * has module `None`, on which `import_module` raises `AttributeError`, and
   * `extend(None)` raises `TypeError`.
   */
  function LegacyImportMembers(m: Option<string>, changed: Dict<PathValue, LegacyFile>, env: LegacyEnv): (r: Result<seq<string>>)
    ensures m.None? ==> r.Err? && r.error.AttributeError?
    ensures m.Some? && m.value == "" ==> r.Err? && r.error.ValueError?
    ensures m.Some? && m.value != "" && env.resolve(m.value) == NotInstalled ==> r == Err(ModuleNotFound(m.value))
    ensures m.Some? && m.value != "" && env.resolve(m.value).ImportFails? ==> r == Err(Raised(env.resolve(m.value).message))
    ensures m.Some? && m.value != "" && env.resolve(m.value) == NoFileAttribute ==> r.Err? && r.error.AttributeError?
    ensures ChangedRecord(m, changed, env).Some? ==>
              r == (if env.membersOf(ChangedRecord(m, changed, env).value).Some?
                    then Ok(env.membersOf(ChangedRecord(m, changed, env).value).value)
                    else Err(TypeError("'NoneType' object is not iterable")))
    ensures m.Some? && m.value != "" && env.resolve(m.value).Loaded? && ChangedRecord(m, changed, env).None? ==> r == Ok([])
  {
    if m.None? then Err(AttributeError("'NoneType' object has no attribute 'startswith'"))
    else if m.value == "" then Err(ValueError("Empty module name"))
    else
      match env.resolve(m.value)
      case NotInstalled => Err(ModuleNotFound(m.value))
      case ImportFails(msg) => Err(Raised(msg))
      case NoFileAttribute => Err(AttributeError("module has no attribute '__file__'"))
      case Loaded(file) =>
        if file.None? then Ok([])
        else
          var c := Get(changed, Str(file.value));
          if c.None? then Ok([])
          else if env.membersOf(c.value).None? then Err(TypeError("'NoneType' object is not iterable"))
          else Ok(env.membersOf(c.value).value)
  }

  /** `changed_members` after the loop over the test module's `from`-imports. */
  function LegacyMembers(ms: seq<Option<string>>, changed: Dict<PathValue, LegacyFile>, env: LegacyEnv): (r: Result<seq<string>>)
    ensures r.Ok? <==> forall i :: 0 <= i < |ms| ==> LegacyImportMembers(ms[i], changed, env).Ok?
    ensures r.Err? ==> exists i :: 0 <= i < |ms| && LegacyImportMembers(ms[i], changed, env) == Err(r.error)
                                   && forall j :: 0 <= j < i ==> LegacyImportMembers(ms[j], changed, env).Ok?
  {
    var rs := seq(|ms|, i requires 0 <= i < |ms| => LegacyImportMembers(ms[i], changed, env));
    assert forall i :: 0 <= i < |ms| ==> rs[i] == LegacyImportMembers(ms[i], changed, env);
    Concat(rs)
  }

  /** `n` is among the changed members of the changed record that module `m` loads. */
  predicate LegacyReportedBy(n: string, m: Option<string>, changed: Dict<PathValue, LegacyFile>, env: LegacyEnv) {
    var c := ChangedRecord(m, changed, env);
    c.Some? && env.membersOf(c.value).Some? && n in env.membersOf(c.value).value
  }

  lemma LegacyMembersContents(ms: seq<Option<string>>, changed: Dict<PathValue, LegacyFile>, env: LegacyEnv, n: string)
    requires LegacyMembers(ms, changed, env).Ok?
    ensures n in LegacyMembers(ms, changed, env).value <==> exists i :: 0 <= i < |ms| && LegacyReportedBy(n, ms[i], changed, env)
  {
    var rs := seq(|ms|, i requires 0 <= i < |ms| => LegacyImportMembers(ms[i], changed, env));
    ConcatContents(rs, n);
    forall i | 0 <= i < |ms| ensures n in rs[i].value <==> LegacyReportedBy(n, ms[i], changed, env) {
      assert rs[i] == LegacyImportMembers(ms[i], changed, env);
    }
  }

  /**
   * The body of `for idx, i in enumerate(items)`: whether `idx` goes into
   * `deleted_indices`.  A test whose imports yield no changed member is
   * kept; otherwise it is removed when its function calls none of them.
   */
  function Removed(t: LegacyItem, changed: Dict<PathValue, LegacyFile>, env: LegacyEnv): (r: Result<bool>)
    ensures LegacyMembers(FromImports(t.body), changed, env) == Ok([]) ==> r == Ok(false)
    ensures r == Ok(true) ==> LegacyMembers(FromImports(t.body), changed, env).Ok? && |LegacyMembers(FromImports(t.body), changed, env).value| > 0
    ensures LegacyMembers(FromImports(t.body), changed, env).Err? ==> r == LegacyMembers(FromImports(t.body), changed, env).PropagateFailure()
    ensures var ms := LegacyMembers(FromImports(t.body), changed, env);
            ms.Ok? && |ms.value| > 0 && FirstFunctionNamed(t.body, t.name).Err? ==> r.Err? && r.error.IndexError?
  {
    var members :- LegacyMembers(FromImports(t.body), changed, env);
    if |members| == 0 then Ok(false)
    else
      var fn :- FirstFunctionNamed(t.body, t.name);
      Ok(!CallsMember(ExtractCalls(fn), members))
  }

  /**
   * A test whose `from`-imports all resolve is removed exactly when some
   * changed module it imports reports a changed member and its function
   * calls none of the reported names.
   */
  lemma RemovedIff(t: LegacyItem, changed: Dict<PathValue, LegacyFile>, env: LegacyEnv)
    requires LegacyMembers(FromImports(t.body), changed, env).Ok?
    ensures var ms := FromImports(t.body);
            var fn := FirstFunctionNamed(t.body, t.name);
            Removed(t, changed, env) == Ok(true)
            <==> (exists n, i :: 0 <= i < |ms| && LegacyReportedBy(n, ms[i], changed, env))
                 && fn.Ok?
                 && forall n, i :: n in ExtractCalls(fn.value) && 0 <= i < |ms| ==> !LegacyReportedBy(n, ms[i], changed, env)
  {
    var ms := FromImports(t.body);
    var members := LegacyMembers(ms, changed, env).value;
    var fn := FirstFunctionNamed(t.body, t.name);
    assert |members| > 0 <==> exists n, i :: 0 <= i < |ms| && LegacyReportedBy(n, ms[i], changed, env) by {
      if |members| > 0 {
        LegacyMembersContents(ms, changed, env, members[0]);
      }
      if exists n, i :: 0 <= i < |ms| && LegacyReportedBy(n, ms[i], changed, env) {
        var n, i :| 0 <= i < |ms| && LegacyReportedBy(n, ms[i], changed, env);
        LegacyMembersContents(ms, changed, env, n);
      }
    }
    if fn.Ok? {
      assert !CallsMember(ExtractCalls(fn.value), members)
             <==> forall n, i :: n in ExtractCalls(fn.value) && 0 <= i < |ms| ==> !LegacyReportedBy(n, ms[i], changed, env) by {
        forall n | n in ExtractCalls(fn.value)
          ensures n in members <==> exists i :: 0 <= i < |ms| && LegacyReportedBy(n, ms[i], changed, env)
        {
          LegacyMembersContents(ms, changed, env, n);
        }
      }
    }
  }

  // ---------------------------------------------------------------------------
  // deleted_indices and the pop loop

  /** The removal decision of every test, stopping at the first exception. */
  function Flags(items: seq<LegacyItem>, changed: Dict<PathValue, LegacyFile>, env: LegacyEnv): (r: Result<seq<bool>>)
    ensures r.Ok? <==> forall i :: 0 <= i < |items| ==> Removed(items[i], changed, env).Ok?
    ensures r.Ok? ==> |r.value| == |items| && forall i :: 0 <= i < |items| ==> Ok(r.value[i]) == Removed(items[i], changed, env)
    ensures r.Err? ==> exists i :: 0 <= i < |items| && Removed(items[i], changed, env) == Err(r.error)
                                   && forall j :: 0 <= j < i ==> Removed(items[j], changed, env).Ok?
  {
    var rs := seq(|items|, i requires 0 <= i < |items| => Removed(items[i], changed, env));
    assert forall i :: 0 <= i < |items| ==> rs[i] == Removed(items[i], changed, env);
    AllOk(rs)
  }

  /** `deleted_indices`: the positions of the flagged tests, appended as `enumerate` reaches them. */
  function MarkedIndices(flags: seq<bool>): (ds: seq<int>)
    ensures Increasing(ds)
    ensures forall j :: 0 <= j < |ds| ==> 0 <= ds[j] < |flags| && flags[ds[j]]
    ensures forall i :: 0 <= i < |flags| && flags[i] ==> i in ds
    decreases |flags|
  {
    if |flags| == 0 then []
    else
      var n := |flags| - 1;
      var prev := MarkedIndices(flags[..n]);
      assert forall i :: 0 <= i < n ==> flags[..n][i] == flags[i];
      prev + (if flags[n] then [n] else [])
  }

  /** The items among the first `m` whose position is not in `ds`, in their original order. */
  function KeepUpTo<T>(items: seq<T>, ds: seq<int>, m: int): seq<T>
    requires 0 <= m <= |items|
  {
    if m == 0 then [] else KeepUpTo(items, ds, m - 1) + (if m - 1 in ds then [] else [items[m - 1]])
  }

  /** `items` with the positions in `ds` removed. */
  function Without<T>(items: seq<T>, ds: seq<int>): seq<T> {
    KeepUpTo(items, ds, |items|)
  }

  /** A stretch with no removed position is kept whole. */
  lemma {:induction false} KeepRun<T>(items: seq<T>, ds: seq<int>, p: int, m: int)
    requires 0 <= p <= m <= |items|
    requires forall x :: p <= x < m ==> x !in ds
    ensures KeepUpTo(items, ds, m) == KeepUpTo(items, ds, p) + items[p..m]
    decreases m
  {
    if m > p {
      KeepRun(items, ds, p, m - 1);
      assert items[p..m] == items[p..m - 1] + [items[m - 1]];
    }
  }

  /** Two lists of positions that agree below `m` keep the same items there. */
  lemma {:induction false} KeepAgree<T>(items: seq<T>, ds: seq<int>, es: seq<int>, m: int)
    requires 0 <= m <= |items|
    requires forall x :: 0 <= x < m ==> (x in ds <==> x in es)
    ensures KeepUpTo(items, ds, m) == KeepUpTo(items, es, m)
    decreases m
  {
    if m > 0 {
      KeepAgree(items, ds, es, m - 1);
    }
  }

  /** Removing nothing keeps every item. */
  lemma WithoutNothing<T>(items: seq<T>)
    ensures Without(items, []) == items
  {
    KeepRun(items, [], 0, |items|);
  }

  /**
   * The state of the pop loop after `deleted` pops, `p` being one past the
   * last popped position: every popped position is below `p`, every pending
   * one at or above it, and `out` is the kept items before `p` followed by
   * all items from `p` on.
   */
  ghost predicate PopState<T>(items: seq<T>, ds: seq<int>, deleted: int, p: int, out: seq<T>) {
    && 0 <= deleted <= |ds|
    && 0 <= p <= |items|
    && (forall j :: 0 <= j < deleted ==> ds[j] < p)
    && (forall j :: deleted <= j < |ds| ==> p <= ds[j])
    && |KeepUpTo(items, ds[..deleted], p)| == p - deleted
    && out == KeepUpTo(items, ds[..deleted], p) + items[p..]
  }

  /**
   * One pop: the next marked position `d` sits at `d - deleted` in `out`,
   * and popping it there gives the state after `deleted + 1` pops.
   */
  lemma {:induction false} PopStep<T>(items: seq<T>, ds: seq<int>, deleted: int, p: int, out: seq<T>)
    requires Increasing(ds)
    requires forall j :: 0 <= j < |ds| ==> 0 <= ds[j] < |items|
    requires PopState(items, ds, deleted, p, out) && deleted < |ds|
    ensures 0 <= ds[deleted] - deleted < |out|
    ensures PopState(items, ds, deleted + 1, ds[deleted] + 1,
                     out[..ds[deleted] - deleted] + out[ds[deleted] - deleted + 1..])
  {
    var d := ds[deleted];
    var before := ds[..deleted];
    var after := ds[..deleted + 1];
    assert after == before + [d];
    forall x | 0 <= x < p ensures x in before <==> x in after {
      if x in before {
        var j :| 0 <= j < |before| && before[j] == x;
      }
    }
    KeepAgree(items, before, after, p);
    KeepRun(items, after, p, d);
    var kept := KeepUpTo(items, before, p);
    assert KeepUpTo(items, after, d + 1) == kept + items[p..d];
    assert out[..d - deleted] == kept + items[p..d];
    assert out[d - deleted + 1..] == items[d + 1..];
  }

  /** Once every position is popped, `out` is `items` without them. */
  lemma PopDone<T>(items: seq<T>, ds: seq<int>, p: int, out: seq<T>)
    requires PopState(items, ds, |ds|, p, out)
    ensures out == Without(items, ds)
    ensures |out| == |items| - |ds|
  {
    assert ds[..|ds|] == ds;
    assert forall x :: p <= x < |items| ==> x !in ds;
    KeepRun(items, ds, p, |items|);
  }

  /**
   * `for d in sorted(deleted_indices): items.pop(d - deleted); deleted += 1`
   * on indices that are already increasing (so `sorted` returns them as
   * they are): every pop is in range, and the result is `items` without the
   * marked positions, one item shorter per index.
   */
  method PopAll<T>(items: seq<T>, deletedIndices: seq<int>) returns (out: seq<T>)
    requires Increasing(deletedIndices)
    requires forall j :: 0 <= j < |deletedIndices| ==> 0 <= deletedIndices[j] < |items|
    ensures out == Without(items, deletedIndices)
    ensures |out| == |items| - |deletedIndices|
  {
    out := items;
    var deleted := 0;
    var p := 0;
    assert deletedIndices[..0] == [];
    assert PopState(items, deletedIndices, deleted, p, out);
    while deleted < |deletedIndices|
      invariant PopState(items, deletedIndices, deleted, p, out)
      decreases |deletedIndices| - deleted
    {
      var d := deletedIndices[deleted];
      PopStep(items, deletedIndices, deleted, p, out);
      out := out[..d - deleted] + out[d - deleted + 1..];
      deleted := deleted + 1;
      p := d + 1;
    }
    PopDone(items, deletedIndices, p, out);
  }

  /**
   * `pytest_collection_modifyitems(config, items)`: the first exception of
   * the decision loop, or `items` without the tests it marked.
   */
  method LegacyModifyItems(items: seq<LegacyItem>, changed: Dict<PathValue, LegacyFile>, env: LegacyEnv)
    returns (r: Result<seq<LegacyItem>>)
    ensures r.Ok? <==> forall i :: 0 <= i < |items| ==> Removed(items[i], changed, env).Ok?
    ensures r.Err? ==> exists i :: 0 <= i < |items| && Removed(items[i], changed, env) == Err(r.error)
                                   && forall j :: 0 <= j < i ==> Removed(items[j], changed, env).Ok?
    ensures r.Ok? ==> var marked := MarkedIndices(Flags(items, changed, env).value);
                      && r.value == Without(items, marked)
                      && |r.value| == |items| - |marked|
                      && forall i :: 0 <= i < |items| ==> (i in marked <==> Removed(items[i], changed, env) == Ok(true))
  {
    var flags := Flags(items, changed, env);
    if flags.Err? {
      return flags.PropagateFailure();
    }
    var marked := MarkedIndices(flags.value);
    var out := PopAll(items, marked);
    return Ok(out);
  }

  /** What the older hook hands to `find_changed_files` as `repo`. */
  datatype RepoArg =
      /** the `git_repo_root` fixture function itself, which has no `head` */
    | FixtureFunction
      /** a repository whose head commit differs from `HEAD~1` by `diffs` */
    | GitRepo(diffs: seq<DiffEntry>)

  /**
   * The older hook from `find_changed_files(repo)` on: the first exception of
   * building the dictionary (`repo.head` first of all), or the decision and
   * pop loops run on that dictionary.
   */
  method LegacyHook(items: seq<LegacyItem>, repo: RepoArg, files: FileLines, env: LegacyEnv)
    returns (r: Result<seq<LegacyItem>>)
    ensures repo.FixtureFunction? ==> r.Err? && r.error.AttributeError?
    ensures repo.GitRepo? && LegacyFindChangedFiles(repo.diffs, files).Err?
            ==> r == Err(LegacyFindChangedFiles(repo.diffs, files).error)
    ensures repo.GitRepo? && LegacyFindChangedFiles(repo.diffs, files).Ok? ==>
              var changed := LegacyFindChangedFiles(repo.diffs, files).value;
              && (r.Ok? <==> forall i :: 0 <= i < |items| ==> Removed(items[i], changed, env).Ok?)
              && (r.Ok? ==> r.value == Without(items, MarkedIndices(Flags(items, changed, env).value)))
              && (r.Err? ==> exists i :: 0 <= i < |items| && Removed(items[i], changed, env) == Err(r.error)
                                         && forall j :: 0 <= j < i ==> Removed(items[j], changed, env).Ok?)
  {
    if repo.FixtureFunction? {
      return Err(AttributeError("'function' object has no attribute 'head'"));
    }
    var changed := LegacyFindChangedFiles(repo.diffs, files);
    if changed.Err? {
      return Err(changed.error);
    }
    r := LegacyModifyItems(items, changed.value, env);
  }

  /** Line 31 as written passes the fixture function, so every run raises before any test is looked at. */
  method LegacyHookAsWritten(items: seq<LegacyItem>, files: FileLines, env: LegacyEnv) returns (r: Result<seq<LegacyItem>>)
    ensures r.Err? && r.error.AttributeError?
  {
    r := LegacyHook(items, FixtureFunction, files, env);
  }

  /** A test whose imports yield no changed member is never removed. */
  lemma NoMembersKept(items: seq<LegacyItem>, changed: Dict<PathValue, LegacyFile>, env: LegacyEnv, i: int)
    requires 0 <= i < |items| && LegacyMembers(FromImports(items[i].body), changed, env) == Ok([])
    requires Flags(items, changed, env).Ok?
    ensures i !in MarkedIndices(Flags(items, changed, env).value)
  {
  }

  // ---------------------------------------------------------------------------
  // Composed with the stub `find_changed_members`

  /** `from m import ...` loads a module whose file is a changed one. */
  predicate ImportsChangedFile(m: Option<string>, changed: Dict<PathValue, LegacyFile>, env: LegacyEnv) {
    ChangedRecord(m, changed, env).Some?
  }

  /**
   * With the stub that returns `None`, a test whose `from`-imports all load
   * raises `TypeError` exactly when one of them loads a changed file, and
   * otherwise collects no changed member at all.
   */
  lemma StubMembers(ms: seq<Option<string>>, changed: Dict<PathValue, LegacyFile>, env: LegacyEnv)
    requires forall c :: env.membersOf(c) == LegacyChangedMembers(c)
    requires forall i :: 0 <= i < |ms| ==> ms[i].Some? && ms[i].value != "" && env.resolve(ms[i].value).Loaded?
    ensures LegacyMembers(ms, changed, env).Err? <==> exists i :: 0 <= i < |ms| && ImportsChangedFile(ms[i], changed, env)
    ensures LegacyMembers(ms, changed, env).Err? ==> LegacyMembers(ms, changed, env).error.TypeError?
    ensures LegacyMembers(ms, changed, env).Ok? ==> LegacyMembers(ms, changed, env).value == []
  {
    var rs := seq(|ms|, i requires 0 <= i < |ms| => LegacyImportMembers(ms[i], changed, env));
    forall i | 0 <= i < |ms| ensures rs[i] == (if ImportsChangedFile(ms[i], changed, env) then Err(TypeError("'NoneType' object is not iterable")) else Ok([])) {
      assert rs[i] == LegacyImportMembers(ms[i], changed, env);
    }
    ConcatEmpty(rs);
  }

  /** With the stub, a test whose decision does not raise is kept. */
  lemma StubItemKept(t: LegacyItem, changed: Dict<PathValue, LegacyFile>, env: LegacyEnv)
    requires forall c :: env.membersOf(c) == LegacyChangedMembers(c)
    requires Removed(t, changed, env).Ok?
    ensures Removed(t, changed, env) == Ok(false)
  {
    var ms := FromImports(t.body);
    var rs := seq(|ms|, j requires 0 <= j < |ms| => LegacyImportMembers(ms[j], changed, env));
    assert LegacyMembers(ms, changed, env) == Concat(rs);
    forall j | 0 <= j < |ms| ensures rs[j] == Ok([]) {
      assert rs[j] == LegacyImportMembers(ms[j], changed, env);
    }
    ConcatEmpty(rs);
  }

  /** No flag set, no index recorded. */
  lemma MarkedNone(flags: seq<bool>)
    requires forall i :: 0 <= i < |flags| ==> !flags[i]
    ensures MarkedIndices(flags) == []
  {
  }

  /** Composed with the stub, the hook either raises or leaves `items` as it was. */
  lemma StubRemovesNothing(items: seq<LegacyItem>, changed: Dict<PathValue, LegacyFile>, env: LegacyEnv)
    requires forall c :: env.membersOf(c) == LegacyChangedMembers(c)
    requires Flags(items, changed, env).Ok?
    ensures MarkedIndices(Flags(items, changed, env).value) == []
    ensures Without(items, MarkedIndices(Flags(items, changed, env).value)) == items
  {
    var flags := Flags(items, changed, env).value;
    forall i | 0 <= i < |items| ensures !flags[i] {
      StubItemKept(items[i], changed, env);
    }
    MarkedNone(flags);
    WithoutNothing(items);
  }
}

=== FILE: outcome.dfy ===
/**
 * Failure-compatible wrappers shared by every module of the model.
 *
 * Python's `None` becomes `Option.None`, and every exception the plugin can
 * raise becomes an `Err` carrying an `Error` that names the exception class
 * (and, where the source builds one, the data of its message).
 */
module Outcome {

  datatype Option<+T> = None | Some(value: T)

  /** The exceptions raised by the modelled code, by Python class. */
  datatype Error =
    | IndexError(what: string)
    | ValueError(what: string)
    | TypeError(what: string)
    | AttributeError(what: string)
    /** `open` of a path that is not in the modelled file system */
    | FileNotFound(path: string)
    /** `find_changed_files` on a change letter other than A, M, D, R, T */
    | UnknownChangeType(letter: string)
    /** `import_module` failed for an import of a test module (plugin.py wraps it) */
    | ModuleNotInstalled(moduleName: string, nodeId: string)
    /** `import_module` failed and nothing wraps the error */
    | ModuleNotFound(moduleName: string)
    /** an exception that an abstract collaborator raised, re-raised unchanged */
    | Raised(message: string)
    /** a deleted, renamed or retyped file that some project file still imports */
    | DanglingImport(changeType: string, path: string, importers: seq<string>)

  datatype Result<+T> = Ok(value: T) | Err(error: Error) {

    predicate IsFailure() {
      Err?
    }

    function PropagateFailure<U>(): Result<U>
      requires Err?
    {
      Err(error)
    }

    function Extract(): T
      requires Ok?
    {
      value
    }
  }
}

=== FILE: paths.dfy ===
/**
 * `os.path.commonpath` for two POSIX paths, and the `--ignore-source` filter
 * of `pytest_smartcollect/plugin.py` built on it.
 *
 * `commonpath` splits each path on `/`, drops empty and `.` components,
 * refuses to mix an absolute with a relative path, and joins the longest
 * common run of leading components back together, with a leading `/` when
 * the paths are absolute.
 */
module Paths {

  import opened Outcome
  import opened PyStr
  import opened PyDict
  import opened ChangedFiles
  import opened Results

  // ---------------------------------------------------------------------------
  // commonpath

  predicate IsAbs(p: string) {
    |p| > 0 && p[0] == '/'
  }

  /** A component `commonpath` keeps: not empty and not `.`. */
  predicate Kept(c: string) {
    c != "" && c != "."
  }

  function KeepComponents(pieces: seq<string>): (cs: seq<string>)
    ensures |cs| <= |pieces|
    ensures forall i :: 0 <= i < |cs| ==> Kept(cs[i]) && cs[i] in pieces
  {
    if |pieces| == 0 then []
    else (if Kept(pieces[0]) then [pieces[0]] else []) + KeepComponents(pieces[1..])
  }

  /** A component of a path: non-empty, not `.`, free of `/`. */
  predicate Component(c: string) {
    Kept(c) && '/' !in c
  }

  /** `[c for c in p.split('/') if c and c != '.']` */
  function Components(p: string): (cs: seq<string>)
    ensures forall i :: 0 <= i < |cs| ==> Component(cs[i])
  {
    SplitPiecesFree(p, '/');
    KeepComponents(SplitOn(p, "/"))
  }

  /** The longest common run of leading components. */
  function CommonPrefix(a: seq<string>, b: seq<string>): (r: seq<string>)
    ensures r <= a && r <= b
    ensures |r| == |a| || |r| == |b| || a[|r|] != b[|r|]
  {
    if |a| == 0 || |b| == 0 || a[0] != b[0] then []
    else [a[0]] + CommonPrefix(a[1..], b[1..])
  }

  /** `prefix + '/'.join(components)` */
  function Render(abs: bool, cs: seq<string>): string {
    (if abs then "/" else "") + Join(cs, "/")
  }

  /** `os.path.commonpath([a, b])` */
  function CommonPath(a: string, b: string): (r: Result<string>)
    ensures r.Err? <==> IsAbs(a) != IsAbs(b)
    ensures r.Err? ==> r.error.ValueError?
    ensures r.Ok? ==> exists cs :: cs <= Components(a) && cs <= Components(b) && r.value == Render(IsAbs(a), cs)
  {
    if IsAbs(a) != IsAbs(b) then Err(ValueError("Can't mix absolute and relative paths"))
    else Ok(Render(IsAbs(a), CommonPrefix(Components(a), Components(b))))
  }

  /** A path already in the form `commonpath` returns: no empty or `.` component, no trailing `/`. */
  predicate Normal(p: string) {
    p == Render(IsAbs(p), Components(p))
  }

  /** Different lists of components render differently. */
  lemma {:induction false} JoinComponentsInjective(a: seq<string>, b: seq<string>)
    requires forall i :: 0 <= i < |a| ==> Component(a[i])
    requires forall i :: 0 <= i < |b| ==> Component(b[i])
    requires Join(a, "/") == Join(b, "/")
    ensures a == b
  {
    if |a| == 0 && |b| > 0 {
      JoinStartsWithFirst(b, "/");
    } else if |a| > 0 && |b| == 0 {
      JoinStartsWithFirst(a, "/");
    } else if |a| > 0 {
      SplitJoin(a, "/");
      SplitJoin(b, "/");
    }
  }

  lemma RenderInjective(abs: bool, a: seq<string>, b: seq<string>)
    requires forall i :: 0 <= i < |a| ==> Component(a[i])
    requires forall i :: 0 <= i < |b| ==> Component(b[i])
    requires Render(abs, a) == Render(abs, b)
    ensures a == b
  {
    if abs {
      assert Join(a, "/") == Render(abs, a)[1..];
      assert Join(b, "/") == Render(abs, b)[1..];
    } else {
      assert Join(a, "/") == Render(abs, a) && Join(b, "/") == Render(abs, b);
    }
    JoinComponentsInjective(a, b);
  }

  /**
   * For an ignore path in normal form, `commonpath([f, y]) == y` exactly
   * when `f` lies under `y`: the two agree on being absolute and the
   * components of `y` lead those of `f`.
   */
  lemma {:induction false} CommonPathIsAncestor(f: string, y: string)
    requires Normal(y)
    ensures CommonPath(f, y) == Ok(y) <==> IsAbs(f) == IsAbs(y) && Components(y) <= Components(f)
  {
    if IsAbs(f) == IsAbs(y) {
      var cp := CommonPrefix(Components(f), Components(y));
      if Components(y) <= Components(f) {
        PrefixIsCommon(Components(f), Components(y));
      }
      if CommonPath(f, y) == Ok(y) {
        assert forall i :: 0 <= i < |cp| ==> cp[i] == Components(f)[i];
        RenderInjective(IsAbs(y), cp, Components(y));
      }
    }
  }

  lemma {:induction false} PrefixIsCommon(a: seq<string>, b: seq<string>)
    requires b <= a
    ensures CommonPrefix(a, b) == b
  {
    if |b| > 0 {
      assert b[1..] <= a[1..];
      PrefixIsCommon(a[1..], b[1..]);
    }
  }

  // ---------------------------------------------------------------------------
  // The ignore filter

  /**
   * One `--ignore-source` value: a path, or the `True` that the option's
   * `const` stores when the flag is given without a value.
   */
  datatype IgnoreArg = IgnorePath(path: string) | BareFlag

  /** `os.path.commonpath([f, y]) != y`; `os.fspath(True)` raises `TypeError`. */
  function DiffersFrom(f: string, y: IgnoreArg): (r: Result<bool>)
    ensures y.BareFlag? ==> r.Err? && r.error.TypeError?
    ensures y.IgnorePath? ==> (r.Err? <==> CommonPath(f, y.path).Err?)
    ensures r.Ok? ==> (r.value <==> CommonPath(f, y.path) != Ok(y.path))
  {
    match y
    case BareFlag => Err(TypeError("expected str, bytes or os.PathLike object, not bool"))
    case IgnorePath(p) =>
      var c := CommonPath(f, p);
      if c.Err? then c.PropagateFailure() else Ok(c.value != p)
  }

  /**
   * The inner loop over the ignore paths for one file: every path is
   * compared (so every error surfaces), and the file is kept when any
   * comparison differs.
   */
  function KeepsFile(f: string, ys: seq<IgnoreArg>): (r: Result<bool>)
    ensures r.Err? <==> exists i :: 0 <= i < |ys| && DiffersFrom(f, ys[i]).Err?
    ensures r.Ok? ==> (r.value <==> exists i :: 0 <= i < |ys| && DiffersFrom(f, ys[i]) == Ok(true))
  {
    var vs :- AllOk(Comparisons(f, ys));
    Ok(exists i :: 0 <= i < |vs| && vs[i])
  }

  /** `commonpath([f, y]) != y` for each ignore path in turn. */
  function Comparisons(f: string, ys: seq<IgnoreArg>): (rs: seq<Result<bool>>)
    ensures |rs| == |ys|
    ensures forall i :: 0 <= i < |ys| ==> rs[i] == DiffersFrom(f, ys[i])
  {
    seq(|ys|, i requires 0 <= i < |ys| => DiffersFrom(f, ys[i]))
  }

  /**
   * The loop over `changed_files.items()` after its first `k` entries, given
   * the outcome of the ignore test for each entry.
   */
  function FilterUpTo<K(==), V>(d: Dict<K, V>, keeps: seq<Result<bool>>, k: int): (r: Result<Dict<K, V>>)
    requires |keeps| == |d| && 0 <= k <= |d|
    ensures r.Ok? <==> forall j :: 0 <= j < k ==> keeps[j].Ok?
    decreases k
  {
    if k == 0 then Ok([])
    else
      var prev := FilterUpTo(d, keeps, k - 1);
      if prev.Err? then prev
      else if keeps[k - 1].Err? then keeps[k - 1].PropagateFailure()
      else if keeps[k - 1].value then Ok(Put(prev.value, d[k - 1].key, d[k - 1].value))
      else prev
  }

  /** Every entry the filter keeps is one of the first `k` entries. */
  lemma {:induction false} FilterUpToFrom<K, V>(d: Dict<K, V>, keeps: seq<Result<bool>>, k: int)
    requires |keeps| == |d| && 0 <= k <= |d|
    requires FilterUpTo(d, keeps, k).Ok?
    ensures forall i :: 0 <= i < |FilterUpTo(d, keeps, k).value| ==> FilterUpTo(d, keeps, k).value[i] in d[..k]
    decreases k
  {
    if k > 0 {
      FilterUpToFrom(d, keeps, k - 1);
      var prev := FilterUpTo(d, keeps, k - 1).value;
      var r := FilterUpTo(d, keeps, k).value;
      assert d[..k] == d[..k - 1] + [d[k - 1]];
      forall i | 0 <= i < |r| ensures r[i] in d[..k] {
        if keeps[k - 1] == Ok(true) {
          assert r[i] == d[k - 1] || (i < |prev| && r[i] == prev[i]);
        } else {
          assert r[i] == prev[i];
        }
      }
    }
  }

  /** The ignore test for each entry, in order. */
  function KeepVerdicts(d: Dict<string, ChangedFile>, ys: seq<IgnoreArg>): (keeps: seq<Result<bool>>)
    ensures |keeps| == |d|
    ensures forall j :: 0 <= j < |d| ==> keeps[j] == KeepsFile(d[j].value.currentPath, ys)
  {
    seq(|d|, j requires 0 <= j < |d| => KeepsFile(d[j].value.currentPath, ys))
  }

  /**
   * `if len(ignore_source) > 0:` rebuild the dictionary from the entries
   * the ignore paths keep.
   */
  function IgnoreFilter(d: Dict<string, ChangedFile>, ys: seq<IgnoreArg>): (r: Result<Dict<string, ChangedFile>>)
    ensures |ys| == 0 ==> r == Ok(d)
    ensures |ys| > 0 ==> (r.Err? <==> exists j :: 0 <= j < |d| && KeepsFile(d[j].value.currentPath, ys).Err?)
    ensures r.Ok? ==> forall i :: 0 <= i < |r.value| ==> r.value[i] in d
  {
    if |ys| == 0 then Ok(d)
    else
      var keeps := KeepVerdicts(d, ys);
      var r := FilterUpTo(d, keeps, |d|);
      if r.Ok? then
        FilterUpToFrom(d, keeps, |d|);
        assert d[..|d|] == d;
        r
      else r
  }

  /** The key of entry `k - 1` is not among those kept from the entries before it. */
  lemma FilterFreshKey<K, V>(d: Dict<K, V>, keeps: seq<Result<bool>>, k: int)
    requires |keeps| == |d| && 0 < k <= |d| && DistinctKeys(d)
    requires FilterUpTo(d, keeps, k - 1).Ok?
    ensures d[k - 1].key !in Keys(FilterUpTo(d, keeps, k - 1).value)
  {
    var prev := FilterUpTo(d, keeps, k - 1).value;
    FilterUpToFrom(d, keeps, k - 1);
    forall i | 0 <= i < |prev| ensures Keys(prev)[i] != d[k - 1].key {
      assert prev[i] in d[..k - 1];
      var j :| 0 <= j < k - 1 && d[..k - 1][j] == prev[i];
      assert d[j].key != d[k - 1].key;
    }
  }

  /** One step of the filter: a kept entry is appended, since its key is new. */
  lemma FilterUpToStep<K, V>(d: Dict<K, V>, keeps: seq<Result<bool>>, k: int)
    requires |keeps| == |d| && 0 < k <= |d| && DistinctKeys(d)
    requires FilterUpTo(d, keeps, k).Ok?
    ensures FilterUpTo(d, keeps, k).value
            == FilterUpTo(d, keeps, k - 1).value + (if keeps[k - 1] == Ok(true) then [d[k - 1]] else [])
  {
    if keeps[k - 1] == Ok(true) {
      var prev := FilterUpTo(d, keeps, k - 1).value;
      FilterFreshKey(d, keeps, k);
      PutNew(prev, d[k - 1].key, d[k - 1].value);
    }
  }

  /** Entry `e` is among the first `k` entries with a verdict to keep it. */
  predicate KeptBefore<K(==), V(==)>(d: Dict<K, V>, keeps: seq<Result<bool>>, k: int, e: Entry<K, V>)
    requires |keeps| == |d| && 0 <= k <= |d|
  {
    exists j :: 0 <= j < k && d[j] == e && keeps[j] == Ok(true)
  }

  lemma KeptBeforeStep<K, V>(d: Dict<K, V>, keeps: seq<Result<bool>>, k: int, e: Entry<K, V>)
    requires |keeps| == |d| && 0 < k <= |d|
    ensures KeptBefore(d, keeps, k, e) <==> KeptBefore(d, keeps, k - 1, e) || (d[k - 1] == e && keeps[k - 1] == Ok(true))
  {
    if KeptBefore(d, keeps, k, e) {
      var j :| 0 <= j < k && d[j] == e && keeps[j] == Ok(true);
      if j < k - 1 {
        assert KeptBefore(d, keeps, k - 1, e);
      }
    }
    if KeptBefore(d, keeps, k - 1, e) {
      var j :| 0 <= j < k - 1 && d[j] == e && keeps[j] == Ok(true);
      assert KeptBefore(d, keeps, k, e);
    }
    if d[k - 1] == e && keeps[k - 1] == Ok(true) {
      assert KeptBefore(d, keeps, k, e);
    }
  }

  lemma {:induction false} FilterUpToContents<K, V>(d: Dict<K, V>, keeps: seq<Result<bool>>, k: int, e: Entry<K, V>)
    requires |keeps| == |d| && 0 <= k <= |d| && DistinctKeys(d)
    requires FilterUpTo(d, keeps, k).Ok?
    ensures e in FilterUpTo(d, keeps, k).value <==> KeptBefore(d, keeps, k, e)
    decreases k
  {
    if k > 0 {
      FilterUpToStep(d, keeps, k);
      FilterUpToContents(d, keeps, k - 1, e);
      KeptBeforeStep(d, keeps, k, e);
    }
  }

  /** An entry kept by the filter: every comparison succeeds and one of them differs. */
  predicate KeptEntry(e: Entry<string, ChangedFile>, ys: seq<IgnoreArg>) {
    KeepsFile(e.value.currentPath, ys) == Ok(true)
  }

  /**
   * The filtered dictionary holds exactly the entries some ignore path
   * does not contain, each with its value unchanged.
   */
  lemma IgnoreFilterContents(d: Dict<string, ChangedFile>, ys: seq<IgnoreArg>, e: Entry<string, ChangedFile>)
    requires DistinctKeys(d) && |ys| > 0
    requires IgnoreFilter(d, ys).Ok?
    ensures e in IgnoreFilter(d, ys).value <==> e in d && KeptEntry(e, ys)
  {
    var keeps := KeepVerdicts(d, ys);
    FilterUpToContents(d, keeps, |d|, e);
    if e in d && KeptEntry(e, ys) {
      var j :| 0 <= j < |d| && d[j] == e;
      assert keeps[j] == Ok(true);
    }
    if KeptBefore(d, keeps, |d|, e) {
      var j :| 0 <= j < |d| && d[j] == e && keeps[j] == Ok(true);
    }
  }

  /** Every ignore argument is a normal path of the same kind (absolute or relative) as `f`. */
  predicate ComparablePaths(f: string, ys: seq<IgnoreArg>) {
    forall i :: 0 <= i < |ys| ==> ys[i].IgnorePath? && Normal(ys[i].path) && IsAbs(ys[i].path) == IsAbs(f)
  }

  /**
   * As written, a file survives the filter unless it lies under every
   * ignore path: one ignore path it is not under is enough to keep it.
   */
  lemma KeptUnlessUnderEvery(f: string, ys: seq<IgnoreArg>)
    requires ComparablePaths(f, ys)
    ensures KeepsFile(f, ys) == Ok(exists i :: 0 <= i < |ys| && !(Components(ys[i].path) <= Components(f)))
  {
    forall i | 0 <= i < |ys|
      ensures DiffersFrom(f, ys[i]) == Ok(!(Components(ys[i].path) <= Components(f)))
    {
      CommonPathIsAncestor(f, ys[i].path);
    }
  }

  // ---------------------------------------------------------------------------
  // The filter as the option's help text describes it

  /** The corrected test: a file is kept only when it lies under none of the ignore paths. */
  function KeepsFileFixed(f: string, ys: seq<IgnoreArg>): (r: Result<bool>)
    ensures r.Err? <==> exists i :: 0 <= i < |ys| && DiffersFrom(f, ys[i]).Err?
    ensures r.Ok? ==> (r.value <==> forall i :: 0 <= i < |ys| ==> DiffersFrom(f, ys[i]) == Ok(true))
  {
    var vs :- AllOk(Comparisons(f, ys));
    Ok(forall i :: 0 <= i < |vs| ==> vs[i])
  }

  /** With the corrected test a file under any ignore path is dropped. */
  lemma DroppedUnderAny(f: string, ys: seq<IgnoreArg>)
    requires ComparablePaths(f, ys)
    ensures KeepsFileFixed(f, ys) == Ok(forall i :: 0 <= i < |ys| ==> !(Components(ys[i].path) <= Components(f)))
  {
    forall i | 0 <= i < |ys|
      ensures DiffersFrom(f, ys[i]) == Ok(!(Components(ys[i].path) <= Components(f)))
    {
      CommonPathIsAncestor(f, ys[i].path);
    }
  }

  /** A single component is a relative path in normal form with itself as only component. */
  lemma {:induction false} SingleComponent(c: string)
    requires Component(c)
    ensures Components(c) == [c] && Normal(c) && !IsAbs(c)
  {
    SplitOnNone(c, "/");
    assert KeepComponents([c]) == [c] + KeepComponents([]);
    assert Render(false, [c]) == c;
  }

  lemma {:induction false} TwoComponents(dir: string, name: string)
    requires Component(dir) && Component(name)
    ensures Components(dir + "/" + name) == [dir, name] && !IsAbs(dir + "/" + name)
  {
    SplitOnNone(name, "/");
    SplitOnLeadingSep(name, "/");
    SplitOnPrefix(dir, "/" + name, "/");
    assert dir + "/" + name == dir + ("/" + name);
    var pieces := SplitOn(dir + "/" + name, "/");
    assert SplitOn("/" + name, "/") == ["", name];
    assert dir + "" == dir;
    assert pieces == [dir, name];
    assert KeepComponents(pieces) == [dir] + KeepComponents([name]);
    assert KeepComponents([name]) == [name] + KeepComponents([]);
  }

  /**
   * A file `dir/name` with ignore paths `dir` and another directory: kept as
   * written, because it is not under the second one, and dropped when
   * corrected, because it is under the first.
   */
  lemma IgnoredFileKept(dir: string, other: string, name: string)
    requires Component(dir) && Component(other) && Component(name) && dir != other
    ensures KeepsFile(dir + "/" + name, [IgnorePath(dir), IgnorePath(other)]) == Ok(true)
    ensures KeepsFileFixed(dir + "/" + name, [IgnorePath(dir), IgnorePath(other)]) == Ok(false)
  {
    var f := dir + "/" + name;
    var ys := [IgnorePath(dir), IgnorePath(other)];
    SingleComponent(dir);
    SingleComponent(other);
    TwoComponents(dir, name);
    assert ComparablePaths(f, ys);
    assert KeepsFile(f, ys) == Ok(true) by {
      KeptUnlessUnderEvery(f, ys);
      assert !(Components(ys[1].path) <= Components(f));
    }
    assert KeepsFileFixed(f, ys) == Ok(false) by {
      DroppedUnderAny(f, ys);
      assert Components(ys[0].path) <= Components(f);
    }
  }
}

=== FILE: plugin.dfy ===
/**
 * `pytest_collection_modifyitems` of `pytest_smartcollect/plugin.py`: which
 * tests the smart collection marks to be skipped.
 *
 * Everything the hook asks of git, the file system and the interpreter is an
 * input: the two candidate changed-file dictionaries (every file, or the
 * diff), the outcome of `find_import` for a path, the module that
 * `import_module` loads for a name, and the changed members of a changed
 * file.  The hook's effect on a test is a `Verdict`: left alone, marked
 * skip, or selected to run.
 */
module Plugin {

  import opened Outcome
  import opened PyStr
  import opened PyDict
  import opened Ast
  import opened Visitors
  import opened ChangedFiles
  import opened Paths
  import opened Results

  /** The options the hook reads (`commit_range` only reaches the diff, which is an input). */
  datatype Config = Config(smartCollect: bool, ignoreSource: seq<IgnoreArg>, allowPreemptiveFailures: bool)

  /** The outcome of `find_import(rootdir, path)`: the importing files, or the message of what it raised. */
  datatype Scan = Found(importers: seq<string>) | ScanError(message: string)

  /** What `import_module(name)` gives. */
  datatype Imported =
      /** an `ImportError` */
    | NotInstalled
      /** any other exception raised while importing */
    | ImportFails(message: string)
      /** a module without a `__file__` attribute (a namespace package, a built-in) */
    | NoFileAttribute
      /** a module and its `__file__`, which may be `None` */
    | Loaded(file: Option<string>)

  /** The collaborators of the hook that reach outside the plugin, and the last-failed cache. */
  datatype Env = Env(
    scan: Option<string> -> Scan,
    resolve: string -> Imported,
    membersOf: ChangedFile -> Result<seq<string>>,
    lastFailed: set<string>)

  /** A collected test: its node id, its function's name, whether it already has a skip marker, and its module's statements. */
  datatype TestItem = TestItem(nodeId: string, name: string, skipMarked: bool, body: seq<Node>)

  /** What the hook does to one test. */
  datatype Verdict =
      /** `continue`: no marker is added */
    | Leave
      /** `test.add_marker(pytest.mark.skip(...))` */
    | Skip
      /** the test touches changed code and keeps running */
    | Select

  /** A warning logged instead of an exception. */
  datatype Warning =
    | ScanFailed(message: string)
    | StillImported(changeType: string, path: string, importers: seq<string>)

  datatype Collection = Collection(warnings: seq<Warning>, verdicts: seq<Verdict>)

  // ---------------------------------------------------------------------------
  // Which files count as changed

  /** `if total_commits_on_head < 2: find_all_files(...) else: find_changed_files(...)` */
  function ChangeSource(totalCommits: nat, allFiles: Result<Dict<string, ChangedFile>>,
                        diffFiles: Result<Dict<string, ChangedFile>>): Result<Dict<string, ChangedFile>>
  {
    if totalCommits < 2 then allFiles else diffFiles
  }

  /** The changed files the rest of the hook works on: the source, then the ignore filter. */
  function ChangedSet(cfg: Config, totalCommits: nat, allFiles: Result<Dict<string, ChangedFile>>,
                      diffFiles: Result<Dict<string, ChangedFile>>): (r: Result<Dict<string, ChangedFile>>)
    ensures |cfg.ignoreSource| == 0 ==> r == ChangeSource(totalCommits, allFiles, diffFiles)
    ensures r.Ok? ==> ChangeSource(totalCommits, allFiles, diffFiles).Ok?
                      && forall i :: 0 <= i < |r.value| ==> r.value[i] in ChangeSource(totalCommits, allFiles, diffFiles).value
  {
    var source :- ChangeSource(totalCommits, allFiles, diffFiles);
    IgnoreFilter(source, cfg.ignoreSource)
  }

  // ---------------------------------------------------------------------------
  // The preflight over deleted, renamed and retyped files

  /** `'%s' % p`: the text of a path that may be `None`. */
  function PathText(p: Option<string>): string {
    if p.Some? then p.value else "None"
  }

  /**
   * What one scan leads to.  A scan that raised is re-raised when the flag
   * is set or when the caller does not catch it (`catches` is false for the
   * `T` branch, which has no `try`), and is logged otherwise; importers
   * found are an exception when the flag is set and a warning otherwise.
   */
  function Screen(changeType: string, path: Option<string>, s: Scan, allow: bool, catches: bool): (r: Result<seq<Warning>>)
    ensures s == Found([]) ==> r == Ok([])
    ensures r.Err? <==> s != Found([]) && (allow || (s.ScanError? && !catches))
    ensures r.Ok? ==> |r.value| <= 1
  {
    match s
    case ScanError(msg) =>
      if allow || !catches then Err(Raised(msg)) else Ok([ScanFailed(msg)])
    case Found(importers) =>
      if |importers| == 0 then Ok([])
      else if allow then Err(DanglingImport(changeType, PathText(path), importers))
      else Ok([StillImported(changeType, PathText(path), importers)])
  }

  /** The change types the preflight looks at. */
  predicate Watched(ch: ChangedFile) {
    ch.changeType == "D" || ch.changeType == "R"
    || (ch.changeType == "T" && ch.oldPath.Some? && Extension(ch.oldPath.value) == ".py")
  }

  /** The path whose importers are searched: the current path of a deleted file, the old path otherwise. */
  function ScannedPath(ch: ChangedFile): Option<string> {
    if ch.changeType == "D" then Some(ch.currentPath) else ch.oldPath
  }

  /** The preflight for one changed file. */
  function CheckOne(ch: ChangedFile, allow: bool, scan: Option<string> -> Scan): (r: Result<seq<Warning>>)
    ensures !Watched(ch) && !(ch.changeType == "T" && ch.oldPath.None?) ==> r == Ok([])
    ensures ch.changeType == "T" && ch.oldPath.None? ==> r.Err? && r.error.TypeError?
    ensures Watched(ch) ==> r == Screen(ch.changeType, ScannedPath(ch), scan(ScannedPath(ch)), allow, ch.changeType != "T")
  {
    if ch.changeType == "D" then
      Screen("D", Some(ch.currentPath), scan(Some(ch.currentPath)), allow, true)
    else if ch.changeType == "R" then
      Screen("R", ch.oldPath, scan(ch.oldPath), allow, true)
    else if ch.changeType == "T" then
      if ch.oldPath.None? then Err(TypeError("expected str, bytes or os.PathLike object, not NoneType"))
      else if Extension(ch.oldPath.value) == ".py" then Screen("T", ch.oldPath, scan(ch.oldPath), allow, false)
      else Ok([])
    else Ok([])
  }

  /** The loop over `changed_files.values()`, stopping at the first exception. */
  function Preflight(changed: Dict<string, ChangedFile>, allow: bool, scan: Option<string> -> Scan): (r: Result<seq<Warning>>)
    ensures r.Ok? <==> forall i :: 0 <= i < |changed| ==> CheckOne(changed[i].value, allow, scan).Ok?
    ensures r.Err? ==> exists i :: 0 <= i < |changed| && CheckOne(changed[i].value, allow, scan) == Err(r.error)
                                   && forall j :: 0 <= j < i ==> CheckOne(changed[j].value, allow, scan).Ok?
  {
    var rs := seq(|changed|, i requires 0 <= i < |changed| => CheckOne(changed[i].value, allow, scan));
    assert forall i :: 0 <= i < |changed| ==> rs[i] == CheckOne(changed[i].value, allow, scan);
    Concat(rs)
  }

  /**
   * Without `--allow-preemptive-failures` the preflight only warns about
   * deleted and renamed files; only a retyped file can still make it raise
   * (its old path missing, or the scan itself failing).
   */
  lemma PreflightWarnsOnly(changed: Dict<string, ChangedFile>, scan: Option<string> -> Scan)
    requires forall i :: 0 <= i < |changed| ==> changed[i].value.changeType != "T"
    ensures Preflight(changed, false, scan).Ok?
  {
  }

  /**
   * With `--allow-preemptive-failures` the preflight passes only when no
   * deleted, renamed or (Python) retyped file is imported anywhere and no
   * scan failed.
   */
  lemma PreflightStrict(changed: Dict<string, ChangedFile>, scan: Option<string> -> Scan, i: int)
    requires 0 <= i < |changed| && Watched(changed[i].value)
    ensures Preflight(changed, true, scan).Ok? ==> scan(ScannedPath(changed[i].value)) == Found([])
  {
  }

  /** A warning is only ever logged when the flag is off. */
  lemma {:induction false} WarningsOnlyWhenLenient(changed: Dict<string, ChangedFile>, scan: Option<string> -> Scan)
    requires Preflight(changed, true, scan).Ok?
    ensures Preflight(changed, true, scan) == Ok([])
  {
    var rs := seq(|changed|, i requires 0 <= i < |changed| => CheckOne(changed[i].value, true, scan));
    forall i | 0 <= i < |rs| ensures rs[i] == Ok([]) {
      assert rs[i].Ok?;
    }
    ConcatEmpty(rs);
  }

  // ---------------------------------------------------------------------------
  // The decision for one test

  /**
   * One iteration of `for imp in imports`: the changed members of the
   * imported module's file when that file is a changed one.
   * `import_module('')` raises `ValueError`, which the `except ImportError`
   * does not catch.
   */
  function ImportMembers(imp: string, nodeId: string, changed: Dict<string, ChangedFile>, env: Env): (r: Result<seq<string>>)
    ensures imp == "" ==> r.Err? && r.error.ValueError?
    ensures imp != "" && env.resolve(imp) == NotInstalled ==> r == Err(ModuleNotInstalled(imp, nodeId))
    ensures imp != "" && env.resolve(imp).ImportFails? ==> r == Err(Raised(env.resolve(imp).message))
    ensures imp != "" && env.resolve(imp) == NoFileAttribute ==> r.Err? && r.error.AttributeError?
    ensures imp != "" && env.resolve(imp).Loaded? && env.resolve(imp).file.Some? && Get(changed, env.resolve(imp).file.value).Some?
            ==> r == env.membersOf(Get(changed, env.resolve(imp).file.value).value)
    ensures imp != "" && env.resolve(imp).Loaded? && (env.resolve(imp).file.None? || env.resolve(imp).file.value !in Keys(changed))
            ==> r == Ok([])
  {
    if imp == "" then Err(ValueError("Empty module name"))
    else
      match env.resolve(imp)
      case NotInstalled => Err(ModuleNotInstalled(imp, nodeId))
      case ImportFails(msg) => Err(Raised(msg))
      case NoFileAttribute => Err(AttributeError("module has no attribute '__file__'"))
      case Loaded(file) =>
        if file.None? then Ok([])
        else
          var c := Get(changed, file.value);
          if c.Some? then env.membersOf(c.value) else Ok([])
  }

  /** `changed_members` after the loop over the test module's imports. */
  function Members(imports: seq<string>, nodeId: string, changed: Dict<string, ChangedFile>, env: Env): (r: Result<seq<string>>)
    ensures r.Ok? <==> forall i :: 0 <= i < |imports| ==> ImportMembers(imports[i], nodeId, changed, env).Ok?
    ensures r.Err? ==> exists i :: 0 <= i < |imports| && ImportMembers(imports[i], nodeId, changed, env) == Err(r.error)
                                   && forall j :: 0 <= j < i ==> ImportMembers(imports[j], nodeId, changed, env).Ok?
  {
    var rs := seq(|imports|, i requires 0 <= i < |imports| => ImportMembers(imports[i], nodeId, changed, env));
    assert forall i :: 0 <= i < |imports| ==> rs[i] == ImportMembers(imports[i], nodeId, changed, env);
    Concat(rs)
  }

  /** `n` is a changed member of the changed file that `imp` loads. */
  predicate ReportedBy(n: string, imp: string, changed: Dict<string, ChangedFile>, env: Env) {
    imp != "" && env.resolve(imp).Loaded? && env.resolve(imp).file.Some?
    && Get(changed, env.resolve(imp).file.value).Some?
    && env.membersOf(Get(changed, env.resolve(imp).file.value).value).Ok?
    && n in env.membersOf(Get(changed, env.resolve(imp).file.value).value).value
  }

  /** The collected members are exactly those the changed modules the test imports report. */
  lemma MembersContents(imports: seq<string>, nodeId: string, changed: Dict<string, ChangedFile>, env: Env, n: string)
    requires Members(imports, nodeId, changed, env).Ok?
    ensures n in Members(imports, nodeId, changed, env).value <==> exists i :: 0 <= i < |imports| && ReportedBy(n, imports[i], changed, env)
  {
    var rs := seq(|imports|, i requires 0 <= i < |imports| => ImportMembers(imports[i], nodeId, changed, env));
    ConcatContents(rs, n);
    forall i | 0 <= i < |imports| ensures n in rs[i].value <==> ReportedBy(n, imports[i], changed, env) {
      assert rs[i] == ImportMembers(imports[i], nodeId, changed, env);
    }
  }

  /**
   * The body of `for test in items` when changed files remain: last-failed
   * and skip-marked tests are left alone, a test whose imports yield no
   * changed member is skipped, and otherwise the test runs when its
   * function calls one of them.
   */
  function TestVerdict(t: TestItem, env: Env, changed: Dict<string, ChangedFile>): (r: Result<Verdict>)
    ensures t.nodeId in env.lastFailed ==> r == Ok(Leave)
    ensures t.skipMarked ==> r == Ok(Leave)
    ensures r == Ok(Leave) ==> t.nodeId in env.lastFailed || t.skipMarked
    ensures Members(ExtractImports(t.body), t.nodeId, changed, env) == Ok([]) && t.nodeId !in env.lastFailed && !t.skipMarked
            ==> r == Ok(Skip)
    ensures var ms := Members(ExtractImports(t.body), t.nodeId, changed, env);
            t.nodeId !in env.lastFailed && !t.skipMarked && ms.Err? ==> r == Err(ms.error)
    ensures var ms := Members(ExtractImports(t.body), t.nodeId, changed, env);
            t.nodeId !in env.lastFailed && !t.skipMarked && ms.Ok? && |ms.value| > 0 && FirstFunctionNamed(t.body, t.name).Err?
            ==> r.Err? && r.error.IndexError?
  {
    if t.nodeId in env.lastFailed then Ok(Leave)
    else if t.skipMarked then Ok(Leave)
    else
      var members :- Members(ExtractImports(t.body), t.nodeId, changed, env);
      if |members| == 0 then Ok(Skip)
      else
        var fn :- FirstFunctionNamed(t.body, t.name);
        if CallsMember(ExtractCalls(fn), members) then Ok(Select) else Ok(Skip)
  }

  /** A name the test's function calls that a changed module it imports reports as changed. */
  predicate CallsChangedName(t: TestItem, env: Env, changed: Dict<string, ChangedFile>) {
    var fn := FirstFunctionNamed(t.body, t.name);
    var imports := ExtractImports(t.body);
    fn.Ok? && exists n, i :: n in ExtractCalls(fn.value) && 0 <= i < |imports| && ReportedBy(n, imports[i], changed, env)
  }

  /**
   * A test that is neither last-failed nor skip-marked, and whose imports
   * all resolve, runs exactly when it calls a changed name of a changed
   * module it imports; otherwise it is skipped or the missing test
   * function raises `IndexError`.
   */
  lemma RunIffCallsChangedName(t: TestItem, env: Env, changed: Dict<string, ChangedFile>)
    requires t.nodeId !in env.lastFailed && !t.skipMarked
    requires Members(ExtractImports(t.body), t.nodeId, changed, env).Ok?
    ensures TestVerdict(t, env, changed) == Ok(Select) <==> CallsChangedName(t, env, changed)
    ensures TestVerdict(t, env, changed).Err? ==> TestVerdict(t, env, changed).error.IndexError?
  {
    var imports := ExtractImports(t.body);
    var members := Members(imports, t.nodeId, changed, env).value;
    var fn := FirstFunctionNamed(t.body, t.name);
    if CallsChangedName(t, env, changed) {
      var n, i :| n in ExtractCalls(fn.value) && 0 <= i < |imports| && ReportedBy(n, imports[i], changed, env);
      MembersContents(imports, t.nodeId, changed, env, n);
      assert n in members;
    }
    if TestVerdict(t, env, changed) == Ok(Select) {
      var n :| n in ExtractCalls(fn.value) && n in members;
      MembersContents(imports, t.nodeId, changed, env, n);
    }
  }

  /** A test whose imports bring no changed member is skipped, whatever its function calls. */
  lemma NoMembersSkipped(t: TestItem, env: Env, changed: Dict<string, ChangedFile>)
    requires t.nodeId !in env.lastFailed && !t.skipMarked
    requires forall i :: 0 <= i < |ExtractImports(t.body)| ==> ImportMembers(ExtractImports(t.body)[i], t.nodeId, changed, env) == Ok([])
    ensures TestVerdict(t, env, changed) == Ok(Skip)
  {
    var imports := ExtractImports(t.body);
    var rs := seq(|imports|, i requires 0 <= i < |imports| => ImportMembers(imports[i], t.nodeId, changed, env));
    ConcatEmpty(rs);
  }

  /**
   * As written, a test module without any import still yields the one name
   * `''`, and `import_module('')` raises `ValueError`, which the
   * `except ImportError` lets through.
   */
  lemma NoImportsRaises(t: TestItem, env: Env, changed: Dict<string, ChangedFile>)
    requires t.nodeId !in env.lastFailed && !t.skipMarked
    requires WellNamedIn(t.body) && ImportTargetsIn(t.body) == []
    ensures TestVerdict(t, env, changed).Err? && TestVerdict(t, env, changed).error.ValueError?
  {
    ExtractImportsResult(t.body);
    assert ExtractImports(t.body) == [""];
  }

  /**
   * As written, a test whose first import is a built-in module such as
   * `sys` reads the module's missing `__file__`, and the `AttributeError`
   * escapes the hook.
   */
  lemma BuiltinImportRaises(t: TestItem, env: Env, changed: Dict<string, ChangedFile>)
    requires t.nodeId !in env.lastFailed && !t.skipMarked
    requires WellNamedIn(t.body) && |ImportTargetsIn(t.body)| > 0
    requires env.resolve(ImportTargetsIn(t.body)[0]) == NoFileAttribute
    ensures TestVerdict(t, env, changed).Err? && TestVerdict(t, env, changed).error.AttributeError?
  {
    ExtractImportsResult(t.body);
    ImportTargetsInAreTokens(t.body);
    assert IsToken(ExtractImports(t.body)[0]);
  }

  /**
   * One import as evidently intended: an empty name and a module without
   * `__file__` bring no changed member instead of raising.
   */
  function ImportMembersFixed(imp: string, nodeId: string, changed: Dict<string, ChangedFile>, env: Env): (r: Result<seq<string>>)
    ensures imp == "" || env.resolve(imp) == NoFileAttribute ==> r == Ok([])
    ensures r.Err? <==> imp != "" && (env.resolve(imp).NotInstalled? || env.resolve(imp).ImportFails?
                                      || (env.resolve(imp).Loaded? && env.resolve(imp).file.Some?
                                          && Get(changed, env.resolve(imp).file.value).Some?
                                          && env.membersOf(Get(changed, env.resolve(imp).file.value).value).Err?))
    ensures imp != "" && env.resolve(imp) != NoFileAttribute ==> r == ImportMembers(imp, nodeId, changed, env)
  {
    match env.resolve(imp)
    case NotInstalled => if imp == "" then Ok([]) else Err(ModuleNotInstalled(imp, nodeId))
    case ImportFails(msg) => if imp == "" then Ok([]) else Err(Raised(msg))
    case NoFileAttribute => Ok([])
    case Loaded(file) =>
      if imp == "" || file.None? then Ok([])
      else
        var c := Get(changed, file.value);
        if c.Some? then env.membersOf(c.value) else Ok([])
  }

  // ---------------------------------------------------------------------------
  // The hook

  /** `for test in items` when changed files remain, stopping at the first exception. */
  function Verdicts(items: seq<TestItem>, env: Env, changed: Dict<string, ChangedFile>): (r: Result<seq<Verdict>>)
    ensures r.Ok? <==> forall i :: 0 <= i < |items| ==> TestVerdict(items[i], env, changed).Ok?
    ensures r.Ok? ==> |r.value| == |items| && forall i :: 0 <= i < |items| ==> Ok(r.value[i]) == TestVerdict(items[i], env, changed)
    ensures r.Err? ==> exists i :: 0 <= i < |items| && TestVerdict(items[i], env, changed) == Err(r.error)
                                   && forall j :: 0 <= j < i ==> TestVerdict(items[j], env, changed).Ok?
  {
    var rs := seq(|items|, i requires 0 <= i < |items| => TestVerdict(items[i], env, changed));
    assert forall i :: 0 <= i < |items| ==> rs[i] == TestVerdict(items[i], env, changed);
    AllOk(rs)
  }

  /** `for test in items` when no changed file remains: everything but the last-failed tests is skipped. */
  function SkipAll(items: seq<TestItem>, lastFailed: set<string>): (vs: seq<Verdict>)
    ensures |vs| == |items|
    ensures forall i :: 0 <= i < |items| ==> vs[i] != Select && (vs[i] == Leave <==> items[i].nodeId in lastFailed)
  {
    seq(|items|, i requires 0 <= i < |items| => if items[i].nodeId in lastFailed then Leave else Skip)
  }

  /** The hook once the changed files are known: the preflight and the per-test loop, or skip everything. */
  function AfterChanges(cfg: Config, changedSet: Result<Dict<string, ChangedFile>>, env: Env, items: seq<TestItem>): (r: Result<Collection>)
    ensures r.Ok? ==> |r.value.verdicts| == |items|
    ensures r.Ok? ==> forall i :: 0 <= i < |items| && items[i].nodeId in env.lastFailed ==> r.value.verdicts[i] == Leave
    ensures changedSet.Err? ==> r == Err(changedSet.error)
    ensures changedSet.Ok? && |changedSet.value| > 0 ==> PreflightThenVerdicts(r, cfg, changedSet.value, env, items)
  {
    var changed :- changedSet;
    if |changed| > 0 then
      var warnings :- Preflight(changed, cfg.allowPreemptiveFailures, env.scan);
      var verdicts :- Verdicts(items, env, changed);
      Ok(Collection(warnings, verdicts))
    else Ok(Collection([], SkipAll(items, env.lastFailed)))
  }

  /**
   * The preflight runs first and its exception wins; then the per-test loop
   * runs, and a hook that completes logged the preflight's warnings.
   */
  predicate PreflightThenVerdicts(r: Result<Collection>, cfg: Config, changed: Dict<string, ChangedFile>, env: Env, items: seq<TestItem>) {
    var p := Preflight(changed, cfg.allowPreemptiveFailures, env.scan);
    var vs := Verdicts(items, env, changed);
    && (r.Ok? <==> p.Ok? && vs.Ok?)
    && (p.Err? ==> r == Err(p.error))
    && (p.Ok? && vs.Err? ==> r == Err(vs.error))
    && (r.Ok? ==> r.value.warnings == p.value && r.value.verdicts == vs.value)
  }

  /** `pytest_collection_modifyitems(config, items)` */
  function CollectionModifyItems(cfg: Config, totalCommits: nat, allFiles: Result<Dict<string, ChangedFile>>,
                                 diffFiles: Result<Dict<string, ChangedFile>>, env: Env, items: seq<TestItem>): (r: Result<Collection>)
    ensures r.Ok? ==> |r.value.verdicts| == |items|
    ensures r.Ok? ==> forall i :: 0 <= i < |items| && items[i].nodeId in env.lastFailed ==> r.value.verdicts[i] == Leave
    ensures !cfg.smartCollect ==> r.Ok? && r.value.warnings == [] && forall i :: 0 <= i < |items| ==> r.value.verdicts[i] == Leave
    ensures var cs := ChangedSet(cfg, totalCommits, allFiles, diffFiles);
            cfg.smartCollect && cs.Err? ==> r == Err(cs.error)
    ensures var cs := ChangedSet(cfg, totalCommits, allFiles, diffFiles);
            cfg.smartCollect && cs.Ok? && |cs.value| > 0 ==> PreflightThenVerdicts(r, cfg, cs.value, env, items)
  {
    if !cfg.smartCollect then Ok(Collection([], seq(|items|, i => Leave)))
    else AfterChanges(cfg, ChangedSet(cfg, totalCommits, allFiles, diffFiles), env, items)
  }

  /**
   * When changed files remain and the hook completes, each test gets the
   * verdict of its own iteration; a skip-marked test is left alone.
   */
  lemma HookVerdicts(cfg: Config, totalCommits: nat, allFiles: Result<Dict<string, ChangedFile>>,
                     diffFiles: Result<Dict<string, ChangedFile>>, env: Env, items: seq<TestItem>, i: int)
    requires cfg.smartCollect && 0 <= i < |items|
    requires ChangedSet(cfg, totalCommits, allFiles, diffFiles).Ok? && |ChangedSet(cfg, totalCommits, allFiles, diffFiles).value| > 0
    requires CollectionModifyItems(cfg, totalCommits, allFiles, diffFiles, env, items).Ok?
    ensures Ok(CollectionModifyItems(cfg, totalCommits, allFiles, diffFiles, env, items).value.verdicts[i])
            == TestVerdict(items[i], env, ChangedSet(cfg, totalCommits, allFiles, diffFiles).value)
    ensures items[i].skipMarked ==> CollectionModifyItems(cfg, totalCommits, allFiles, diffFiles, env, items).value.verdicts[i] == Leave
  {
    var changed := ChangedSet(cfg, totalCommits, allFiles, diffFiles).value;
    var vs := Verdicts(items, env, changed);
    assert vs.Ok?;
    assert CollectionModifyItems(cfg, totalCommits, allFiles, diffFiles, env, items).value.verdicts == vs.value;
  }

  /** When no changed file remains, the hook never fails and skips every test that did not fail last time. */
  lemma NothingChangedSkipsAll(cfg: Config, totalCommits: nat, allFiles: Result<Dict<string, ChangedFile>>,
                               diffFiles: Result<Dict<string, ChangedFile>>, env: Env, items: seq<TestItem>)
    requires cfg.smartCollect
    requires ChangedSet(cfg, totalCommits, allFiles, diffFiles) == Ok([])
    ensures CollectionModifyItems(cfg, totalCommits, allFiles, diffFiles, env, items).Ok?
    ensures var c := CollectionModifyItems(cfg, totalCommits, allFiles, diffFiles, env, items).value;
            c.warnings == [] && forall i :: 0 <= i < |items| ==> (c.verdicts[i] == Skip <==> items[i].nodeId !in env.lastFailed)
  {
  }

  /**
   * With `--allow-preemptive-failures`, a hook that completes found no
   * importer of any deleted, renamed or (Python) retyped file, and no scan
   * of one failed.
   */
  lemma StrictHookFindsNoImporters(cfg: Config, totalCommits: nat, allFiles: Result<Dict<string, ChangedFile>>,
                                   diffFiles: Result<Dict<string, ChangedFile>>, env: Env, items: seq<TestItem>, i: int)
    requires cfg.smartCollect && cfg.allowPreemptiveFailures
    requires ChangedSet(cfg, totalCommits, allFiles, diffFiles).Ok?
    requires 0 <= i < |ChangedSet(cfg, totalCommits, allFiles, diffFiles).value|
    requires Watched(ChangedSet(cfg, totalCommits, allFiles, diffFiles).value[i].value)
    requires CollectionModifyItems(cfg, totalCommits, allFiles, diffFiles, env, items).Ok?
    ensures env.scan(ScannedPath(ChangedSet(cfg, totalCommits, allFiles, diffFiles).value[i].value)) == Found([])
  {
    var changed := ChangedSet(cfg, totalCommits, allFiles, diffFiles).value;
    assert Preflight(changed, true, env.scan).Ok?;
    PreflightStrict(changed, env.scan, i);
  }

  /** With fewer than two commits every file is a changed file: the diff is never consulted. */
  lemma ShortHistoryIgnoresDiff(cfg: Config, totalCommits: nat, allFiles: Result<Dict<string, ChangedFile>>,
                                diffA: Result<Dict<string, ChangedFile>>, diffB: Result<Dict<string, ChangedFile>>,
                                env: Env, items: seq<TestItem>)
    requires totalCommits < 2
    ensures CollectionModifyItems(cfg, totalCommits, allFiles, diffA, env, items)
            == CollectionModifyItems(cfg, totalCommits, allFiles, diffB, env, items)
  {
    assert ChangeSource(totalCommits, allFiles, diffA) == ChangeSource(totalCommits, allFiles, diffB);
    assert ChangedSet(cfg, totalCommits, allFiles, diffA) == ChangedSet(cfg, totalCommits, allFiles, diffB);
  }

  /** With two or more commits the diff decides: the list of all files is never consulted. */
  lemma LongHistoryIgnoresAllFiles(cfg: Config, totalCommits: nat, allA: Result<Dict<string, ChangedFile>>,
                                   allB: Result<Dict<string, ChangedFile>>, diffFiles: Result<Dict<string, ChangedFile>>,
                                   env: Env, items: seq<TestItem>)
    requires totalCommits >= 2
    ensures CollectionModifyItems(cfg, totalCommits, allA, diffFiles, env, items)
            == CollectionModifyItems(cfg, totalCommits, allB, diffFiles, env, items)
  {
    assert ChangeSource(totalCommits, allA, diffFiles) == ChangeSource(totalCommits, allB, diffFiles);
    assert ChangedSet(cfg, totalCommits, allA, diffFiles) == ChangedSet(cfg, totalCommits, allB, diffFiles);
  }
}

=== FILE: pydict.dfy ===
/**
 * A Python `dict` as the sequence of its entries in insertion order.
 * Assigning to a key that is present replaces its value in place; a new key
 * goes to the end, which is the order `dict.items()` later reports.
 */
module PyDict {

  import opened Outcome

  datatype Entry<K, V> = Entry(key: K, value: V)

  type Dict<K, V> = seq<Entry<K, V>>

  /** `list(d.keys())` */
  function Keys<K, V>(d: Dict<K, V>): (ks: seq<K>)
    ensures |ks| == |d|
    ensures forall i :: 0 <= i < |d| ==> ks[i] == d[i].key
  {
    if |d| == 0 then [] else [d[0].key] + Keys(d[1..])
  }

  predicate DistinctKeys<K(==), V>(d: Dict<K, V>) {
    forall i, j :: 0 <= i < j < |d| ==> d[i].key != d[j].key
  }

  /** The position of the entry stored under `k`: the first one whose key is `k`. */
  function IndexOf<K(==), V>(d: Dict<K, V>, k: K): (i: nat)
    requires k in Keys(d)
    ensures i < |d| && d[i].key == k
    ensures forall j :: 0 <= j < i ==> d[j].key != k
  {
    if d[0].key == k then 0
    else
      assert k in Keys(d[1..]) by {
        var j :| 0 <= j < |d| && Keys(d)[j] == k;
        assert Keys(d[1..])[j - 1] == k;
      }
      1 + IndexOf(d[1..], k)
  }

  /** An entry under `k` with none before it is the one `IndexOf` finds. */
  lemma IndexOfFirst<K, V>(d: Dict<K, V>, k: K, i: int)
    requires 0 <= i < |d| && d[i].key == k
    requires forall j :: 0 <= j < i ==> d[j].key != k
    ensures k in Keys(d) && IndexOf(d, k) == i
  {
    assert Keys(d)[i] == k;
  }

  /** `d.get(k)`: the value stored under `k`, if any. */
  function Get<K(==), V>(d: Dict<K, V>, k: K): (r: Option<V>)
    ensures r.Some? <==> k in Keys(d)
    ensures r.Some? ==> exists i :: 0 <= i < |d| && d[i] == Entry(k, r.value)
  {
    if k in Keys(d) then Some(d[IndexOf(d, k)].value) else None
  }

  /** `d[k] = v` */
  function Put<K(==), V>(d: Dict<K, V>, k: K, v: V): (r: Dict<K, V>)
    ensures Keys(r) == if k in Keys(d) then Keys(d) else Keys(d) + [k]
    ensures forall i :: 0 <= i < |r| ==> r[i] == Entry(k, v) || (i < |d| && r[i] == d[i])
    ensures forall i :: 0 <= i < |d| && d[i].key != k ==> r[i] == d[i]
    ensures Get(r, k) == Some(v)
  {
    if k in Keys(d) then
      var i := IndexOf(d, k);
      var r := d[i := Entry(k, v)];
      assert forall j :: 0 <= j < |r| ==> Keys(r)[j] == Keys(d)[j];
      IndexOfFirst(r, k, i);
      r
    else
      var r := d + [Entry(k, v)];
      assert forall j :: 0 <= j < |r| ==> Keys(r)[j] == (Keys(d) + [k])[j];
      assert forall j :: 0 <= j < |d| ==> Keys(d)[j] == r[j].key;
      IndexOfFirst(r, k, |d|);
      r
  }

  /** Assigning to a key leaves every other key's value as it was. */
  lemma PutOther<K, V>(d: Dict<K, V>, k: K, v: V, k': K)
    requires k' != k
    ensures Get(Put(d, k, v), k') == Get(d, k')
  {
    var r := Put(d, k, v);
    if k' in Keys(d) {
      var i := IndexOf(d, k');
      assert r[i] == d[i];
      forall j | 0 <= j < i ensures r[j].key != k' {
        assert r[j] == Entry(k, v) || r[j] == d[j];
      }
      IndexOfFirst(r, k', i);
    }
  }

  /** Assigning to a key that is not present appends it. */
  lemma PutNew<K, V>(d: Dict<K, V>, k: K, v: V)
    requires k !in Keys(d)
    ensures Put(d, k, v) == d + [Entry(k, v)]
  {
  }

  /** `for e in es: d[e.key] = e.value` */
  function PutAll<K(==), V>(d: Dict<K, V>, es: seq<Entry<K, V>>): (r: Dict<K, V>)
    decreases |es|
  {
    if |es| == 0 then d else PutAll(Put(d, es[0].key, es[0].value), es[1..])
  }

  /** The keys are those already present and those of the entries. */
  lemma {:induction false} PutAllKeys<K, V>(d: Dict<K, V>, es: seq<Entry<K, V>>, k: K)
    ensures k in Keys(PutAll(d, es)) <==> k in Keys(d) || exists j :: 0 <= j < |es| && es[j].key == k
    decreases |es|
  {
    if |es| > 0 {
      var d' := Put(d, es[0].key, es[0].value);
      assert PutAll(d, es) == PutAll(d', es[1..]);
      PutAllKeys(d', es[1..], k);
      assert k in Keys(d') <==> k in Keys(d) || k == es[0].key;
      AssignsStep(es, k);
    }
  }

  /** Some entry assigns `k` exactly when the first one or one of the rest does. */
  lemma AssignsStep<K, V>(es: seq<Entry<K, V>>, k: K)
    requires |es| > 0
    ensures (exists j :: 0 <= j < |es| && es[j].key == k)
            <==> es[0].key == k || exists j :: 0 <= j < |es[1..]| && es[1..][j].key == k
  {
    if exists j :: 0 <= j < |es[1..]| && es[1..][j].key == k {
      var j :| 0 <= j < |es[1..]| && es[1..][j].key == k;
      assert es[j + 1].key == k;
    }
    if exists j :: 0 <= j < |es| && es[j].key == k {
      var j :| 0 <= j < |es| && es[j].key == k;
      if j > 0 {
        assert es[1..][j - 1].key == k;
      }
    }
  }

  /** A key no entry assigns keeps the value it had. */
  lemma {:induction false} PutAllUntouched<K, V>(d: Dict<K, V>, es: seq<Entry<K, V>>, k: K)
    requires forall j :: 0 <= j < |es| ==> es[j].key != k
    ensures Get(PutAll(d, es), k) == Get(d, k)
    decreases |es|
  {
    if |es| > 0 {
      var d' := Put(d, es[0].key, es[0].value);
      assert PutAll(d, es) == PutAll(d', es[1..]);
      forall j | 0 <= j < |es[1..]| ensures es[1..][j].key != k {
        assert es[1..][j] == es[j + 1];
      }
      PutAllUntouched(d', es[1..], k);
      PutOther(d, es[0].key, es[0].value, k);
    }
  }

  /** The value stored under a key is that of the last entry assigning it. */
  lemma {:induction false} PutAllLastWins<K, V>(d: Dict<K, V>, es: seq<Entry<K, V>>, j: int)
    requires 0 <= j < |es|
    requires forall j' :: j < j' < |es| ==> es[j'].key != es[j].key
    ensures Get(PutAll(d, es), es[j].key) == Some(es[j].value)
    decreases |es|
  {
    var d' := Put(d, es[0].key, es[0].value);
    assert PutAll(d, es) == PutAll(d', es[1..]);
    if j == 0 {
      forall i | 0 <= i < |es[1..]| ensures es[1..][i].key != es[0].key {
        assert es[1..][i] == es[i + 1];
      }
      PutAllUntouched(d', es[1..], es[0].key);
    } else {
      assert es[1..][j - 1] == es[j];
      forall i | j - 1 < i < |es[1..]| ensures es[1..][i].key != es[j].key {
        assert es[1..][i] == es[i + 1];
      }
      PutAllLastWins(d', es[1..], j - 1);
    }
  }

  /** Assigning never breaks the distinctness of the keys, and each entry stored is a given one. */
  lemma {:induction false} PutAllShape<K, V>(d: Dict<K, V>, es: seq<Entry<K, V>>)
    requires DistinctKeys(d)
    ensures DistinctKeys(PutAll(d, es))
    ensures forall i :: 0 <= i < |PutAll(d, es)| ==> PutAll(d, es)[i] in d || PutAll(d, es)[i] in es
    decreases |es|
  {
    if |es| > 0 {
      var d' := Put(d, es[0].key, es[0].value);
      PutDistinct(d, es[0].key, es[0].value);
      PutAllShape(d', es[1..]);
      var r := PutAll(d, es);
      forall i | 0 <= i < |r| ensures r[i] in d || r[i] in es {
        if r[i] in d' {
          var j :| 0 <= j < |d'| && d'[j] == r[i];
          assert d'[j] == es[0] || (j < |d| && d'[j] == d[j]);
        } else {
          assert r[i] in es[1..];
        }
      }
    }
  }

  /** Assigning keeps the keys distinct. */
  lemma PutDistinct<K, V>(d: Dict<K, V>, k: K, v: V)
    requires DistinctKeys(d)
    ensures DistinctKeys(Put(d, k, v))
  {
    var r := Put(d, k, v);
    forall i, j | 0 <= i < j < |r| ensures r[i].key != r[j].key {
      assert Keys(r)[i] == r[i].key && Keys(r)[j] == r[j].key;
      if j < |d| {
        assert Keys(d)[i] == d[i].key && Keys(d)[j] == d[j].key;
      } else {
        assert r[j].key == k && k !in Keys(d);
        assert Keys(d)[i] == r[i].key;
      }
    }
  }
}

=== FILE: pystr.dfy ===
/**
 * The handful of Python `str` operations the plugin's parsing relies on,
 * written out with Python's semantics: `split(sep)`, `'\n'.join`,
 * `replace(c, '')`, `strip()`, `int()` on a decimal literal, and the
 * extension part of `os.path.splitext` for POSIX paths.
 */
module PyStr {

  import opened Outcome

  /** `str.isspace` for one character: the characters Python's `strip()` removes. */
  predicate IsSpace(c: char) {
    || c == ' ' || c == '\t' || c == '\n' || c == '\r'
    || c == '\U{0B}' || c == '\U{0C}'
    || ('\U{1C}' <= c <= '\U{1F}')
    || c == '\U{85}' || c == '\U{A0}' || c == '\U{1680}'
    || ('\U{2000}' <= c <= '\U{200A}')
    || c == '\U{2028}' || c == '\U{2029}' || c == '\U{202F}' || c == '\U{205F}' || c == '\U{3000}'
  }

  predicate IsDigit(c: char) {
    '0' <= c <= '9'
  }

  predicate AllDigits(s: string) {
    forall i :: 0 <= i < |s| ==> IsDigit(s[i])
  }

  predicate NoSpace(s: string) {
    forall i :: 0 <= i < |s| ==> !IsSpace(s[i])
  }

  predicate AllSpace(s: string) {
    forall i :: 0 <= i < |s| ==> IsSpace(s[i])
  }

  // ---------------------------------------------------------------------------
  // split / join

  /**
   * `s.split(sep)`: cut `s` at every occurrence of `sep`, scanning left to
   * right and never letting two occurrences overlap.  There is always at
   * least one piece (`"".split(",") == [""]`).
   */
  function SplitOn(s: string, sep: string): (r: seq<string>)
    requires |sep| > 0
    ensures |r| >= 1
    decreases |s|
  {
    if |s| < |sep| then [s]
    else if s[..|sep|] == sep then [""] + SplitOn(s[|sep|..], sep)
    else
      var rest := SplitOn(s[1..], sep);
      [[s[0]] + rest[0]] + rest[1..]
  }

  /** `sep.join(parts)` */
  function Join(parts: seq<string>, sep: string): string
  {
    if |parts| == 0 then ""
    else if |parts| == 1 then parts[0]
    else parts[0] + sep + Join(parts[1..], sep)
  }

  /** Putting a part in front of at least one other adds it and a separator. */
  lemma JoinCons(x: string, rest: seq<string>, sep: string)
    requires |rest| >= 1
    ensures Join([x] + rest, sep) == x + sep + Join(rest, sep)
  {
    assert ([x] + rest)[1..] == rest;
  }

  /** Gluing a character onto the first part puts it in front of the join. */
  lemma JoinGlue(c: char, rest: seq<string>, sep: string)
    requires |rest| >= 1
    ensures Join([[c] + rest[0]] + rest[1..], sep) == [c] + Join(rest, sep)
  {
    if |rest| > 1 {
      JoinCons([c] + rest[0], rest[1..], sep);
      JoinCons(rest[0], rest[1..], sep);
      assert [rest[0]] + rest[1..] == rest;
    }
  }

  /** Joining the pieces of a split with the same separator gives back the text. */
  lemma {:induction false} JoinSplit(s: string, sep: string)
    requires |sep| > 0
    ensures Join(SplitOn(s, sep), sep) == s
    decreases |s|
  {
    if |s| < |sep| {
    } else if s[..|sep|] == sep {
      JoinSplit(s[|sep|..], sep);
      JoinSplitAtSep(s, sep);
    } else {
      JoinSplit(s[1..], sep);
      JoinSplitAtChar(s, sep);
    }
  }

  /** The step of `JoinSplit` for a text that starts with the separator. */
  lemma JoinSplitAtSep(s: string, sep: string)
    requires 0 < |sep| <= |s| && s[..|sep|] == sep
    requires Join(SplitOn(s[|sep|..], sep), sep) == s[|sep|..]
    ensures Join(SplitOn(s, sep), sep) == s
  {
    var rest := SplitOn(s[|sep|..], sep);
    assert SplitOn(s, sep) == [""] + rest;
    JoinCons("", rest, sep);
    assert "" + sep + s[|sep|..] == s;
  }

  /** The step of `JoinSplit` for a text that does not start with the separator. */
  lemma JoinSplitAtChar(s: string, sep: string)
    requires 0 < |sep| <= |s| && s[..|sep|] != sep
    requires Join(SplitOn(s[1..], sep), sep) == s[1..]
    ensures Join(SplitOn(s, sep), sep) == s
  {
    var rest := SplitOn(s[1..], sep);
    assert SplitOn(s, sep) == [[s[0]] + rest[0]] + rest[1..];
    JoinGlue(s[0], rest, sep);
    assert [s[0]] + s[1..] == s;
  }

  /** Text with no character that could start a separator is glued onto the first piece. */
  lemma {:induction false} SplitOnPrefix(x: string, y: string, sep: string)
    requires |sep| > 0
    requires sep[0] !in x
    ensures SplitOn(x + y, sep) == [x + SplitOn(y, sep)[0]] + SplitOn(y, sep)[1..]
    decreases |x|
  {
    if |x| == 0 {
      assert x + y == y;
      var r := SplitOn(y, sep);
      assert x + r[0] == r[0];
      assert r == [r[0]] + r[1..];
    } else {
      var s := x + y;
      assert s[0] == x[0];
      if |s| < |sep| {
        assert |y| < |sep|;
      } else {
        assert s[..|sep|] != sep;
        assert s[1..] == x[1..] + y;
        SplitOnPrefix(x[1..], y, sep);
        assert [x[0]] + (x[1..] + SplitOn(y, sep)[0]) == x + SplitOn(y, sep)[0];
      }
    }
  }

  /** The first piece of a split is a prefix of the text. */
  lemma {:induction false} SplitFirstIsPrefix(s: string, sep: string)
    requires |sep| > 0
    ensures var f := SplitOn(s, sep)[0]; |f| <= |s| && f == s[..|f|]
    decreases |s|
  {
    if |s| >= |sep| && s[..|sep|] != sep {
      SplitFirstIsPrefix(s[1..], sep);
    }
  }

  /** A leading separator produces an empty first piece. */
  lemma SplitOnLeadingSep(y: string, sep: string)
    requires |sep| > 0
    ensures SplitOn(sep + y, sep) == [""] + SplitOn(y, sep)
  {
    assert (sep + y)[..|sep|] == sep;
    assert (sep + y)[|sep|..] == y;
  }

  /** A text that holds no separator character is its own single piece. */
  lemma SplitOnNone(x: string, sep: string)
    requires |sep| > 0
    requires sep[0] !in x
    ensures SplitOn(x, sep) == [x]
  {
    SplitOnPrefix(x, "", sep);
    assert x + "" == x;
  }

  /** Splitting a join gives back the parts when no part holds a separator character. */
  lemma {:induction false} SplitJoin(parts: seq<string>, sep: string)
    requires |sep| > 0
    requires |parts| >= 1
    requires forall i :: 0 <= i < |parts| ==> sep[0] !in parts[i]
    ensures SplitOn(Join(parts, sep), sep) == parts
    decreases |parts|
  {
    if |parts| == 1 {
      SplitOnNone(parts[0], sep);
    } else {
      var tail := Join(parts[1..], sep);
      assert Join(parts, sep) == parts[0] + (sep + tail);
      SplitJoin(parts[1..], sep);
      SplitOnLeadingSep(tail, sep);
      SplitOnPrefix(parts[0], sep + tail, sep);
      var r := SplitOn(sep + tail, sep);
      assert r[0] == "" && r[1..] == parts[1..];
      assert parts[0] + r[0] == parts[0];
      assert parts == [parts[0]] + parts[1..];
    }
  }

  /** No piece of a split on a one-character separator holds that character. */
  lemma {:induction false} SplitPiecesFree(s: string, c: char)
    ensures forall i :: 0 <= i < |SplitOn(s, [c])| ==> c !in SplitOn(s, [c])[i]
    decreases |s|
  {
    if |s| >= 1 {
      SplitPiecesFree(s[1..], c);
      var rest := SplitOn(s[1..], [c]);
      if s[..1] != [c] {
        var r := [[s[0]] + rest[0]] + rest[1..];
        assert forall i :: 1 <= i < |r| ==> r[i] == rest[i];
      }
    }
  }

  /** A join starts with its first part. */
  lemma JoinStartsWithFirst(parts: seq<string>, sep: string)
    requires |parts| > 0
    ensures |Join(parts, sep)| >= |parts[0]| && Join(parts, sep)[..|parts[0]|] == parts[0]
  {
    if |parts| > 1 {
      assert Join(parts, sep) == parts[0] + (sep + Join(parts[1..], sep));
    }
  }

  /** The first piece of a split is the text before the first separator. */
  lemma SplitFirstPiece(x: string, y: string, sep: string)
    requires |sep| > 0
    requires sep[0] !in x
    ensures SplitOn(x + sep + y, sep)[0] == x
    ensures |SplitOn(x + sep + y, sep)| >= 2
  {
    SplitOnPrefix(x, sep + y, sep);
    SplitOnLeadingSep(y, sep);
    assert x + sep + y == x + (sep + y);
  }

  // ---------------------------------------------------------------------------
  // replace(c, '')

  /** `s.replace(c, '')`: every occurrence of `c` removed, the rest kept in order. */
  function RemoveAll(s: string, c: char): (r: string)
    ensures c !in r
  {
    if |s| == 0 then ""
    else (if s[0] == c then "" else [s[0]]) + RemoveAll(s[1..], c)
  }

  /** Exactly the characters other than `c` survive. */
  lemma {:induction false} RemoveAllMembers(s: string, c: char, x: char)
    ensures x in RemoveAll(s, c) <==> x in s && x != c
  {
    if |s| > 0 {
      RemoveAllMembers(s[1..], c, x);
      assert s == [s[0]] + s[1..];
    }
  }

  /** Every other character keeps its number of occurrences. */
  lemma {:induction false} RemoveAllCounts(s: string, c: char)
    ensures multiset(RemoveAll(s, c)) == multiset(s)[c := 0]
  {
    if |s| > 0 {
      RemoveAllCounts(s[1..], c);
      var head := if s[0] == c then "" else [s[0]];
      assert RemoveAll(s, c) == head + RemoveAll(s[1..], c);
      assert s == [s[0]] + s[1..];
      assert multiset(s) == multiset([s[0]]) + multiset(s[1..]);
    }
  }

  lemma {:induction false} RemoveAllConcat(s: string, t: string, c: char)
    ensures RemoveAll(s + t, c) == RemoveAll(s, c) + RemoveAll(t, c)
    decreases |s|
  {
    if |s| == 0 {
      assert s + t == t;
    } else {
      var head := if s[0] == c then "" else [s[0]];
      assert (s + t)[0] == s[0];
      assert (s + t)[1..] == s[1..] + t;
      RemoveAllConcat(s[1..], t, c);
      assert RemoveAll(s + t, c) == head + (RemoveAll(s[1..], c) + RemoveAll(t, c));
      assert RemoveAll(s, c) == head + RemoveAll(s[1..], c);
    }
  }

  /** Dropping the one occurrence of `c` between two `c`-free texts joins them. */
  lemma {:induction false} RemoveOne(a: string, b: string, c: char)
    requires c !in a && c !in b
    ensures RemoveAll(a + [c] + b, c) == a + b
  {
    RemoveAllConcat(a + [c], b, c);
    RemoveAllConcat(a, [c], c);
    RemoveAllAbsent(a, c);
    RemoveAllAbsent(b, c);
    RemoveAllSelf(c);
    assert RemoveAll(a + [c], c) == a;
  }

  lemma RemoveAllSelf(c: char)
    ensures RemoveAll([c], c) == ""
  {
    assert [c][1..] == [];
  }

  lemma {:induction false} RemoveAllAbsent(s: string, c: char)
    requires c !in s
    ensures RemoveAll(s, c) == s
    decreases |s|
  {
    if |s| > 0 {
      RemoveAllAbsent(s[1..], c);
      assert s == [s[0]] + s[1..];
    }
  }

  // ---------------------------------------------------------------------------
  // strip()

  /** How many whitespace characters `s` starts with. */
  function LeadingSpaces(s: string): (n: nat)
    ensures n <= |s|
  {
    if |s| == 0 || !IsSpace(s[0]) then 0 else 1 + LeadingSpaces(s[1..])
  }

  /** How many whitespace characters `s` ends with. */
  function TrailingSpaces(s: string): (n: nat)
    ensures n <= |s|
  {
    if |s| == 0 || !IsSpace(s[|s| - 1]) then 0 else 1 + TrailingSpaces(s[..|s| - 1])
  }

  /** The leading run is all whitespace and is followed by a non-whitespace character or the end. */
  lemma {:induction false} LeadingSpacesShape(s: string)
    ensures AllSpace(s[..LeadingSpaces(s)])
    ensures LeadingSpaces(s) < |s| ==> !IsSpace(s[LeadingSpaces(s)])
  {
    if |s| > 0 && IsSpace(s[0]) {
      LeadingSpacesShape(s[1..]);
      var k := LeadingSpaces(s[1..]);
      assert s[..1 + k] == [s[0]] + s[1..][..k];
    }
  }

  /** The trailing run is all whitespace and is preceded by a non-whitespace character or the start. */
  lemma {:induction false} TrailingSpacesShape(s: string)
    ensures AllSpace(s[|s| - TrailingSpaces(s)..])
    ensures TrailingSpaces(s) < |s| ==> !IsSpace(s[|s| - TrailingSpaces(s) - 1])
  {
    if |s| > 0 && IsSpace(s[|s| - 1]) {
      TrailingSpacesShape(s[..|s| - 1]);
      var k := TrailingSpaces(s[..|s| - 1]);
      assert s[|s| - (1 + k)..] == s[..|s| - 1][|s| - 1 - k..] + [s[|s| - 1]];
    }
  }

  /** `s.strip()`: `s` without its leading and trailing whitespace. */
  function Strip(s: string): (r: string)
    ensures |r| <= |s|
  {
    var a := LeadingSpaces(s);
    var t := s[a..];
    t[..|t| - TrailingSpaces(t)]
  }

  /**
   * What `strip()` leaves is a slice of the text that neither starts nor
   * ends with whitespace, and only whitespace was cut off either side.
   */
  lemma StripShape(s: string)
    ensures var r := Strip(s); var a := LeadingSpaces(s);
            && a + |r| <= |s| && r == s[a..a + |r|]
            && (|r| > 0 ==> !IsSpace(r[0]) && !IsSpace(r[|r| - 1]))
            && AllSpace(s[..a]) && AllSpace(s[a + |r|..])
  {
    var a := LeadingSpaces(s);
    var t := s[a..];
    var b := TrailingSpaces(t);
    var r := t[..|t| - b];
    assert r == Strip(s);
    assert r == s[a..a + |r|];
    LeadingSpacesShape(s);
    TrailingSpacesShape(t);
    if |r| > 0 {
      assert r[0] == s[a];
      assert r[|r| - 1] == t[|t| - b - 1];
    }
    assert s[a + |r|..] == t[|t| - b..];
  }

  lemma {:induction false} LeadingSpacesOf(pre: string, x: string)
    requires AllSpace(pre)
    requires |x| > 0 ==> !IsSpace(x[0])
    ensures LeadingSpaces(pre + x) == |pre|
    decreases |pre|
  {
    if |pre| == 0 {
      assert pre + x == x;
    } else {
      assert (pre + x)[1..] == pre[1..] + x;
      LeadingSpacesOf(pre[1..], x);
    }
  }

  lemma {:induction false} TrailingSpacesOf(x: string, post: string)
    requires AllSpace(post)
    requires |x| > 0 ==> !IsSpace(x[|x| - 1])
    ensures TrailingSpaces(x + post) == |post|
    decreases |post|
  {
    if |post| == 0 {
      assert x + post == x;
    } else {
      assert (x + post)[..|x + post| - 1] == x + post[..|post| - 1];
      TrailingSpacesOf(x, post[..|post| - 1]);
    }
  }

  /** Whitespace around a text that does not start or end with whitespace is exactly what `strip()` removes. */
  lemma StripPadded(pre: string, x: string, post: string)
    requires AllSpace(pre) && AllSpace(post)
    requires |x| > 0 ==> !IsSpace(x[0]) && !IsSpace(x[|x| - 1])
    ensures Strip(pre + x + post) == x
  {
    var s := pre + x + post;
    if |x| == 0 {
      assert s == pre + post + "";
      assert AllSpace(pre + post);
      LeadingSpacesOf(pre + post, "");
    } else {
      assert s == pre + (x + post);
      LeadingSpacesOf(pre, x + post);
      assert s[|pre|..] == x + post;
      TrailingSpacesOf(x, post);
    }
  }

  // ---------------------------------------------------------------------------
  // int()

  function DigitValue(c: char): nat
    requires IsDigit(c)
  {
    c as int - '0' as int
  }

  /** The value of a decimal digit string, most significant digit first. */
  function DigitsValue(s: string): nat
    requires AllDigits(s)
  {
    if |s| == 0 then 0 else DigitsValue(s[..|s| - 1]) * 10 + DigitValue(s[|s| - 1])
  }

  /** Position `i` of a literal holds a digit, or an underscore followed by a digit. */
  predicate LiteralChar(s: string, i: int)
    requires 0 <= i < |s|
  {
    IsDigit(s[i]) || (s[i] == '_' && i + 1 < |s| && IsDigit(s[i + 1]))
  }

  /** What `int()` accepts once whitespace is stripped: digits, single underscores between digits. */
  predicate IsIntLiteral(s: string) {
    && |s| > 0
    && IsDigit(s[0])
    && IsDigit(s[|s| - 1])
    && forall i :: 0 <= i < |s| ==> LiteralChar(s, i)
  }

  lemma LiteralDigits(t: string)
    requires IsIntLiteral(t)
    ensures AllDigits(RemoveAll(t, '_'))
  {
    var d := RemoveAll(t, '_');
    forall i | 0 <= i < |d| ensures IsDigit(d[i]) {
      var c := d[i];
      assert c in d;
      RemoveAllMembers(t, '_', c);
      var j :| 0 <= j < |t| && t[j] == c;
      assert LiteralChar(t, j);
    }
  }

  /** `int(s)` on a string without a sign: `None` is the `ValueError`. */
  function ParseInt(s: string): (r: Option<nat>)
    ensures r.Some? <==> IsIntLiteral(Strip(s))
  {
    var t := Strip(s);
    if IsIntLiteral(t) then
      LiteralDigits(t);
      Some(DigitsValue(RemoveAll(t, '_')))
    else None
  }

  /** `str(n)` for a natural number. */
  function Decimal(n: nat): (r: string)
    ensures |r| > 0 && AllDigits(r)
  {
    var d := ['0' + (n % 10) as char];
    if n < 10 then d else Decimal(n / 10) + d
  }

  lemma {:induction false} DecimalValue(n: nat)
    ensures DigitsValue(Decimal(n)) == n
  {
    if n >= 10 {
      DecimalValue(n / 10);
      var r := Decimal(n);
      assert r[..|r| - 1] == Decimal(n / 10);
    }
  }

  /** `int(str(n)) == n`: reading back a rendered number gives the number. */
  lemma ParseDecimal(n: nat)
    ensures ParseInt(Decimal(n)) == Some(n)
  {
    var s := Decimal(n);
    StripPadded("", s, "");
    assert "" + s + "" == s;
    RemoveAllAbsent(s, '_');
    DecimalValue(n);
  }

  // ---------------------------------------------------------------------------
  // os.path.splitext

  function LastIndexOf(s: string, c: char): (i: int)
    ensures -1 <= i < |s|
    ensures i >= 0 ==> s[i] == c
    ensures forall k :: i < k < |s| ==> s[k] != c
  {
    if |s| == 0 then -1
    else if s[|s| - 1] == c then |s| - 1
    else LastIndexOf(s[..|s| - 1], c)
  }

  /**
   * `os.path.splitext(p)[1]` for a POSIX path: from the last dot of the last
   * path component to the end, unless the component has nothing but dots
   * before that dot (a hidden file such as `".py"` has no extension).
   */
  function Extension(p: string): (e: string)
    ensures |e| <= |p| && e == p[|p| - |e|..]
    ensures |e| > 0 ==> e[0] == '.' && '.' !in e[1..] && '/' !in e
  {
    var slash := LastIndexOf(p, '/');
    var dot := LastIndexOf(p, '.');
    if dot > slash && exists k :: slash + 1 <= k < dot && p[k] != '.' then
      assert forall j :: 1 <= j < |p[dot..]| ==> p[dot..][j] == p[dot + j];
      p[dot..]
    else ""
  }

  /**
   * A file name that has a non-dot character, followed by `"." + x` where
   * `x` holds no dot and no slash, has extension `"." + x`.
   */
  lemma ExtensionOfName(dir: string, base: string, x: string)
    requires '/' !in base && exists k :: 0 <= k < |base| && base[k] != '.'
    requires '.' !in x && '/' !in x
    ensures Extension(dir + base + "." + x) == "." + x
  {
    var p := dir + base + "." + x;
    var dot := |dir| + |base|;
    assert p[dot] == '.';
    assert forall k :: dot < k < |p| ==> p[k] == x[k - dot - 1];
    assert LastIndexOf(p, '.') == dot;
    var slash := LastIndexOf(p, '/');
    assert forall k :: |dir| <= k < |p| ==> p[k] != '/' by {
      forall k | |dir| <= k < |p| ensures p[k] != '/' {
        if k < dot {
          assert p[k] == base[k - |dir|];
        }
      }
    }
    assert slash < |dir|;
    var k :| 0 <= k < |base| && base[k] != '.';
    assert p[|dir| + k] == base[k];
    assert p[dot..] == "." + x;
  }
}

=== FILE: results.dfy ===
/**
 * Loops that stop at the first exception, as folds over the outcomes of
 * their iterations: `AllOk` keeps each iteration's value, `Concat` extends
 * one list with each iteration's list (`result.extend(...)`).
 */
module Results {

  import opened Outcome

  /** The values of all iterations in order, or the error of the first one that raised. */
  function AllOk<T>(rs: seq<Result<T>>): (r: Result<seq<T>>)
    ensures r.Ok? <==> forall i :: 0 <= i < |rs| ==> rs[i].Ok?
    ensures r.Ok? ==> |r.value| == |rs| && forall i :: 0 <= i < |rs| ==> r.value[i] == rs[i].value
    ensures r.Err? ==> exists i :: 0 <= i < |rs| && rs[i] == Err(r.error) && forall j :: 0 <= j < i ==> rs[j].Ok?
  {
    if |rs| == 0 then Ok([])
    else if rs[0].Err? then Err(rs[0].error)
    else
      var rest := AllOk(rs[1..]);
      assert forall i :: 1 <= i < |rs| ==> rs[i] == rs[1..][i - 1];
      if rest.Err? then
        FirstErrShift(rs, rest.error);
        Err(rest.error)
      else Ok([rs[0].value] + rest.value)
  }

  /** A first failing iteration after a succeeding one is the first failing one of them all. */
  lemma FirstErrShift<T>(rs: seq<Result<T>>, e: Error)
    requires |rs| > 0 && rs[0].Ok?
    requires exists i :: 0 <= i < |rs[1..]| && rs[1..][i] == Err(e) && forall j :: 0 <= j < i ==> rs[1..][j].Ok?
    ensures exists i :: 0 <= i < |rs| && rs[i] == Err(e) && forall j :: 0 <= j < i ==> rs[j].Ok?
  {
    var i :| 0 <= i < |rs[1..]| && rs[1..][i] == Err(e) && forall j :: 0 <= j < i ==> rs[1..][j].Ok?;
    assert rs[i + 1] == Err(e);
    forall j | 0 <= j < i + 1 ensures rs[j].Ok? {
      if j > 0 {
        assert rs[j] == rs[1..][j - 1];
      }
    }
  }

  /** The lists, one after the other. */
  function Flatten<T>(vs: seq<seq<T>>): seq<T> {
    if |vs| == 0 then [] else vs[0] + Flatten(vs[1..])
  }

  lemma {:induction false} FlattenContents<T>(vs: seq<seq<T>>, x: T)
    ensures x in Flatten(vs) <==> exists i :: 0 <= i < |vs| && x in vs[i]
  {
    if |vs| > 0 {
      FlattenContents(vs[1..], x);
      if exists i :: 0 <= i < |vs| && x in vs[i] {
        var i :| 0 <= i < |vs| && x in vs[i];
        if i > 0 {
          assert x in vs[1..][i - 1];
        }
      }
      if exists i :: 0 <= i < |vs[1..]| && x in vs[1..][i] {
        var i :| 0 <= i < |vs[1..]| && x in vs[1..][i];
        assert x in vs[i + 1];
      }
    }
  }

  lemma {:induction false} FlattenEmpty<T>(vs: seq<seq<T>>)
    ensures Flatten(vs) == [] <==> forall i :: 0 <= i < |vs| ==> vs[i] == []
  {
    if |vs| > 0 {
      FlattenEmpty(vs[1..]);
      assert forall i :: 1 <= i < |vs| ==> vs[i] == vs[1..][i - 1];
    }
  }

  /**
   * A loop that extends one list with the list each iteration yields: the
   * concatenation, or the error of the first iteration that raised.
   */
  function Concat<T>(rs: seq<Result<seq<T>>>): (r: Result<seq<T>>)
    ensures r.Ok? <==> forall i :: 0 <= i < |rs| ==> rs[i].Ok?
    ensures r.Err? ==> exists i :: 0 <= i < |rs| && rs[i] == Err(r.error) && forall j :: 0 <= j < i ==> rs[j].Ok?
  {
    var vs :- AllOk(rs);
    Ok(Flatten(vs))
  }

  /** An element of the concatenation comes from some iteration's list, and every such element is in it. */
  lemma ConcatContents<T>(rs: seq<Result<seq<T>>>, x: T)
    requires Concat(rs).Ok?
    ensures x in Concat(rs).value <==> exists i :: 0 <= i < |rs| && x in rs[i].value
  {
    var vs := AllOk(rs).value;
    FlattenContents(vs, x);
    if exists i :: 0 <= i < |rs| && x in rs[i].value {
      var i :| 0 <= i < |rs| && x in rs[i].value;
      assert x in vs[i];
    }
  }

  /** The concatenation is empty exactly when every iteration yielded an empty list. */
  lemma ConcatEmpty<T>(rs: seq<Result<seq<T>>>)
    ensures Concat(rs) == Ok([]) <==> forall i :: 0 <= i < |rs| ==> rs[i] == Ok([])
  {
    var a := AllOk(rs);
    if a.Ok? {
      FlattenEmpty(a.value);
    }
  }
}

=== FILE: visitors.dfy ===
/**
 * The two `ast.NodeVisitor` subclasses of the plugin and the `extract`
 * method they share.
 *
 * `extract(node)` calls `generic_visit(node)` with standard output
 * captured: the node's children are visited (not the node itself), the
 * visitors `print` one name per line, and the captured text comes back as
 * `getvalue().strip().split('\n')`.
 */
module Visitors {

  import opened Outcome
  import opened PyStr
  import opened Ast

  // ---------------------------------------------------------------------------
  // ObjectNameExtractor

  /** What `ObjectNameExtractor().visit(n)` prints: the callee of every call whose callee is a bare `Name`. */
  function CallTargets(n: Node): seq<string>
  {
    match n
    case Call(_, f, args) => (if f.Name? then [f.id] else []) + CallTargets(f) + CallTargetsIn(args)
    case FunctionDef(_, _, fs) => CallTargetsIn(fs)
    case ClassDef(_, _, fs) => CallTargetsIn(fs)
    case Assign(_, fs) => CallTargetsIn(fs)
    case Other(_, fs) => CallTargetsIn(fs)
    case Name(_, _) => []
    case Import(_, _, _) => []
    case ImportFrom(_, _, _) => []
  }

  /** `generic_visit` over a list field: each element visited in order. */
  function CallTargetsIn(ns: seq<Node>): seq<string>
  {
    if |ns| == 0 then [] else CallTargets(ns[0]) + CallTargetsIn(ns[1..])
  }

  /** What `generic_visit(n)` prints: the children of `n` are visited, `n` itself is not. */
  function ChildCallTargets(n: Node): seq<string>
  {
    if n.Call? then CallTargets(n.func) + CallTargetsIn(n.args) else CallTargets(n)
  }

  /**
   * The `for name in used_names: if name in changed_members: found_name = True; break`
   * loop both plugins run over the names a test function calls.
   */
  predicate CallsMember(used: seq<string>, members: seq<string>) {
    exists n :: n in used && n in members
  }

  // ---------------------------------------------------------------------------
  // ImportModuleNameExtractor

  /** `print(node.module)` prints the text `None` for `from . import x`. */
  function FromModuleText(m: Option<string>): string
  {
    if m.Some? then m.value else "None"
  }

  /**
   * What `ImportModuleNameExtractor().visit(n)` prints: the first alias of
   * each plain `import`, the module of each `from`-import; every other node
   * is searched through.
   */
  function ImportTargets(n: Node): seq<string>
  {
    match n
    case Import(_, first, _) => [first]
    case ImportFrom(_, m, _) => [FromModuleText(m)]
    case Call(_, f, args) => ImportTargets(f) + ImportTargetsIn(args)
    case FunctionDef(_, _, fs) => ImportTargetsIn(fs)
    case ClassDef(_, _, fs) => ImportTargetsIn(fs)
    case Assign(_, fs) => ImportTargetsIn(fs)
    case Other(_, fs) => ImportTargetsIn(fs)
    case Name(_, _) => []
  }

  function ImportTargetsIn(ns: seq<Node>): seq<string>
  {
    if |ns| == 0 then [] else ImportTargets(ns[0]) + ImportTargetsIn(ns[1..])
  }

  // ---------------------------------------------------------------------------
  // extract

  /** The text written by printing each name on its own line. */
  function Printed(names: seq<string>): string
  {
    if |names| == 0 then "" else names[0] + "\n" + Printed(names[1..])
  }

  /** `f.getvalue().strip().split('\n')` after printing `names`. */
  function Captured(names: seq<string>): seq<string>
  {
    SplitOn(Strip(Printed(names)), "\n")
  }

  /** `ObjectNameExtractor().extract(n)` */
  function ExtractCalls(n: Node): seq<string>
  {
    Captured(ChildCallTargets(n))
  }

  /** `ImportModuleNameExtractor().extract(module_ast)` for a module with top-level statements `body`. */
  function ExtractImports(body: seq<Node>): seq<string>
  {
    Captured(ImportTargetsIn(body))
  }

  // ---------------------------------------------------------------------------
  // What the captured output amounts to

  /** A printed name that survives the round trip through stdout: non-empty, no whitespace. */
  predicate IsToken(s: string) {
    |s| > 0 && NoSpace(s)
  }

  predicate AllTokens(names: seq<string>) {
    forall i :: 0 <= i < |names| ==> IsToken(names[i])
  }

  lemma {:induction false} PrintedIsJoin(names: seq<string>)
    requires |names| > 0
    ensures Printed(names) == Join(names, "\n") + "\n"
  {
    if |names| > 1 {
      PrintedIsJoin(names[1..]);
    }
  }

  lemma {:induction false} JoinEnds(names: seq<string>)
    requires |names| > 0 && AllTokens(names)
    ensures |Join(names, "\n")| > 0
    ensures Join(names, "\n")[0] == names[0][0]
    ensures var j := Join(names, "\n"); var l := names[|names| - 1]; j[|j| - 1] == l[|l| - 1]
  {
    if |names| > 1 {
      var rest := names[1..];
      assert AllTokens(rest) by {
        forall i | 0 <= i < |rest| ensures IsToken(rest[i]) {
          assert rest[i] == names[i + 1];
        }
      }
      JoinEnds(rest);
      var j := Join(names, "\n");
      var jr := Join(rest, "\n");
      assert j == names[0] + ("\n" + jr);
      assert IsToken(names[0]);
      assert j[0] == names[0][0];
      assert j[|j| - 1] == jr[|jr| - 1];
      assert rest[|rest| - 1] == names[|names| - 1];
    }
  }

  /** A token holds no line break. */
  lemma TokensHaveNoNewline(names: seq<string>)
    requires AllTokens(names)
    ensures forall i :: 0 <= i < |names| ==> "\n"[0] !in names[i]
  {
    forall i | 0 <= i < |names| ensures "\n"[0] !in names[i] {
      assert IsToken(names[i]);
      assert IsSpace('\n');
    }
  }

  /**
   * The captured lines are the printed names themselves, or `['']` when
   * nothing was printed.
   */
  lemma CapturedNames(names: seq<string>)
    requires AllTokens(names)
    ensures Captured(names) == if |names| == 0 then [""] else names
  {
    if |names| == 0 {
      StripPadded("", "", "");
      assert Printed(names) == "" + "" + "";
    } else {
      StrippedPrinted(names);
      TokensHaveNoNewline(names);
      SplitJoin(names, "\n");
    }
  }

  /** Stripping the printed names leaves them joined by line breaks. */
  lemma StrippedPrinted(names: seq<string>)
    requires |names| > 0 && AllTokens(names)
    ensures Strip(Printed(names)) == Join(names, "\n")
  {
    var j := Join(names, "\n");
    PrintedIsJoin(names);
    JoinEnds(names);
    assert IsToken(names[0]) && IsToken(names[|names| - 1]);
    assert AllSpace("\n");
    StripPadded("", j, "\n");
    assert "" + j + "\n" == Printed(names);
  }

  /** Every name an AST can print is a token. */
  predicate WellNamed(n: Node)
  {
    match n
    case Call(_, f, args) => WellNamed(f) && WellNamedIn(args)
    case Name(_, id) => IsToken(id)
    case Import(_, first, _) => IsToken(first)
    case ImportFrom(_, m, _) => m.Some? ==> IsToken(m.value)
    case FunctionDef(_, _, fs) => WellNamedIn(fs)
    case ClassDef(_, _, fs) => WellNamedIn(fs)
    case Assign(_, fs) => WellNamedIn(fs)
    case Other(_, fs) => WellNamedIn(fs)
  }

  predicate WellNamedIn(ns: seq<Node>)
  {
    forall i :: 0 <= i < |ns| ==> WellNamed(ns[i])
  }

  lemma {:induction false} CallTargetsAreTokens(n: Node)
    requires WellNamed(n)
    ensures AllTokens(CallTargets(n))
    decreases n
  {
    match n
    case Call(_, f, args) => CallTargetsAreTokens(f); CallTargetsInAreTokens(args);
    case FunctionDef(_, _, fs) => CallTargetsInAreTokens(fs);
    case ClassDef(_, _, fs) => CallTargetsInAreTokens(fs);
    case Assign(_, fs) => CallTargetsInAreTokens(fs);
    case Other(_, fs) => CallTargetsInAreTokens(fs);
    case Name(_, _) =>
    case Import(_, _, _) =>
    case ImportFrom(_, _, _) =>
  }

  lemma {:induction false} CallTargetsInAreTokens(ns: seq<Node>)
    requires WellNamedIn(ns)
    ensures AllTokens(CallTargetsIn(ns))
    decreases ns
  {
    if |ns| > 0 {
      CallTargetsAreTokens(ns[0]);
      CallTargetsInAreTokens(ns[1..]);
    }
  }

  lemma {:induction false} ImportTargetsAreTokens(n: Node)
    requires WellNamed(n)
    ensures AllTokens(ImportTargets(n))
    decreases n
  {
    match n
    case Call(_, f, args) => ImportTargetsAreTokens(f); ImportTargetsInAreTokens(args);
    case FunctionDef(_, _, fs) => ImportTargetsInAreTokens(fs);
    case ClassDef(_, _, fs) => ImportTargetsInAreTokens(fs);
    case Assign(_, fs) => ImportTargetsInAreTokens(fs);
    case Other(_, fs) => ImportTargetsInAreTokens(fs);
    case Name(_, _) =>
    case Import(_, _, _) =>
    case ImportFrom(_, m, _) =>
      assert IsToken("None") by {
        assert "None"[0] == 'N' && "None"[1] == 'o' && "None"[2] == 'n' && "None"[3] == 'e';
      }
  }

  lemma {:induction false} ImportTargetsInAreTokens(ns: seq<Node>)
    requires WellNamedIn(ns)
    ensures AllTokens(ImportTargetsIn(ns))
    decreases ns
  {
    if |ns| > 0 {
      ImportTargetsAreTokens(ns[0]);
      ImportTargetsInAreTokens(ns[1..]);
    }
  }

  /**
   * `ObjectNameExtractor().extract(n)` is the list of call targets found
   * below `n`, or `['']` when there is none.
   */
  lemma ExtractCallsResult(n: Node)
    requires WellNamed(n)
    ensures var t := ChildCallTargets(n); ExtractCalls(n) == if |t| == 0 then [""] else t
  {
    if n.Call? {
      CallTargetsAreTokens(n.func);
      CallTargetsInAreTokens(n.args);
    } else {
      CallTargetsAreTokens(n);
    }
    CapturedNames(ChildCallTargets(n));
  }

  /**
   * `ImportModuleNameExtractor().extract(module)` is the list of imported
   * module names, or `['']` for a module without imports.
   */
  lemma ExtractImportsResult(body: seq<Node>)
    requires WellNamedIn(body)
    ensures var t := ImportTargetsIn(body); ExtractImports(body) == if |t| == 0 then [""] else t
  {
    ImportTargetsInAreTokens(body);
    CapturedNames(ImportTargetsIn(body));
  }

  // ---------------------------------------------------------------------------
  // Reference definition: filtering the pre-order node sequence

  /** `n` followed by all nodes below it, in the order `generic_visit` reaches them. */
  function PreOrder(n: Node): (r: seq<Node>)
    ensures |r| > 0 && r[0] == n
  {
    match n
    case Call(_, f, args) => [n] + PreOrder(f) + PreOrderIn(args)
    case FunctionDef(_, _, fs) => [n] + PreOrderIn(fs)
    case ClassDef(_, _, fs) => [n] + PreOrderIn(fs)
    case Assign(_, fs) => [n] + PreOrderIn(fs)
    case Other(_, fs) => [n] + PreOrderIn(fs)
    case Name(_, _) => [n]
    case Import(_, _, _) => [n]
    case ImportFrom(_, _, _) => [n]
  }

  function PreOrderIn(ns: seq<Node>): seq<Node>
  {
    if |ns| == 0 then [] else PreOrder(ns[0]) + PreOrderIn(ns[1..])
  }

  /** The callee names of the calls to a bare name among `ms`, in order. */
  function NameCalls(ms: seq<Node>): seq<string>
  {
    if |ms| == 0 then []
    else (if ms[0].Call? && ms[0].func.Name? then [ms[0].func.id] else []) + NameCalls(ms[1..])
  }

  /** The module names of the import statements among `ms`, in order. */
  function ImportStatements(ms: seq<Node>): seq<string>
  {
    if |ms| == 0 then []
    else (match ms[0]
          case Import(_, first, _) => [first]
          case ImportFrom(_, m, _) => [FromModuleText(m)]
          case _ => []) + ImportStatements(ms[1..])
  }

  lemma {:induction false} NameCallsAppend(a: seq<Node>, b: seq<Node>)
    ensures NameCalls(a + b) == NameCalls(a) + NameCalls(b)
  {
    if |a| > 0 {
      assert (a + b)[1..] == a[1..] + b;
      NameCallsAppend(a[1..], b);
    } else {
      assert a + b == b;
    }
  }

  lemma {:induction false} ImportStatementsAppend(a: seq<Node>, b: seq<Node>)
    ensures ImportStatements(a + b) == ImportStatements(a) + ImportStatements(b)
  {
    if |a| > 0 {
      assert (a + b)[1..] == a[1..] + b;
      ImportStatementsAppend(a[1..], b);
    } else {
      assert a + b == b;
    }
  }

  /** The object-name visitor reports the bare-name calls of the tree in pre-order. */
  lemma {:induction false} CallTargetsInPreOrder(n: Node)
    ensures CallTargets(n) == NameCalls(PreOrder(n))
    decreases n
  {
    match n
    case Call(_, f, args) =>
      CallTargetsInPreOrder(f);
      CallTargetsInInPreOrder(args);
      NameCallsAppend([n], PreOrder(f));
      NameCallsAppend([n] + PreOrder(f), PreOrderIn(args));
    case FunctionDef(_, _, fs) =>
      CallTargetsInInPreOrder(fs);
      NameCallsAppend([n], PreOrderIn(fs));
    case ClassDef(_, _, fs) =>
      CallTargetsInInPreOrder(fs);
      NameCallsAppend([n], PreOrderIn(fs));
    case Assign(_, fs) =>
      CallTargetsInInPreOrder(fs);
      NameCallsAppend([n], PreOrderIn(fs));
    case Other(_, fs) =>
      CallTargetsInInPreOrder(fs);
      NameCallsAppend([n], PreOrderIn(fs));
    case Name(_, _) =>
    case Import(_, _, _) =>
    case ImportFrom(_, _, _) =>
  }

  lemma {:induction false} CallTargetsInInPreOrder(ns: seq<Node>)
    ensures CallTargetsIn(ns) == NameCalls(PreOrderIn(ns))
    decreases ns
  {
    if |ns| > 0 {
      CallTargetsInPreOrder(ns[0]);
      CallTargetsInInPreOrder(ns[1..]);
      NameCallsAppend(PreOrder(ns[0]), PreOrderIn(ns[1..]));
    }
  }

  /** The import visitor reports the import statements of the tree in pre-order. */
  lemma {:induction false} ImportTargetsInPreOrder(n: Node)
    ensures ImportTargets(n) == ImportStatements(PreOrder(n))
    decreases n
  {
    match n
    case Call(_, f, args) =>
      ImportTargetsInPreOrder(f);
      ImportTargetsInInPreOrder(args);
      ImportStatementsAppend([n], PreOrder(f));
      ImportStatementsAppend([n] + PreOrder(f), PreOrderIn(args));
    case FunctionDef(_, _, fs) =>
      ImportTargetsInInPreOrder(fs);
      ImportStatementsAppend([n], PreOrderIn(fs));
    case ClassDef(_, _, fs) =>
      ImportTargetsInInPreOrder(fs);
      ImportStatementsAppend([n], PreOrderIn(fs));
    case Assign(_, fs) =>
      ImportTargetsInInPreOrder(fs);
      ImportStatementsAppend([n], PreOrderIn(fs));
    case Other(_, fs) =>
      ImportTargetsInInPreOrder(fs);
      ImportStatementsAppend([n], PreOrderIn(fs));
    case Name(_, _) =>
    case Import(_, _, _) =>
    case ImportFrom(_, _, _) =>
  }

  lemma {:induction false} ImportTargetsInInPreOrder(ns: seq<Node>)
    ensures ImportTargetsIn(ns) == ImportStatements(PreOrderIn(ns))
    decreases ns
  {
    if |ns| > 0 {
      ImportTargetsInPreOrder(ns[0]);
      ImportTargetsInInPreOrder(ns[1..]);
      ImportStatementsAppend(PreOrder(ns[0]), PreOrderIn(ns[1..]));
    }
  }
}
